=== FILE: README.md ===
# Modality tracker, modelled in Dafny

The modality tracker runs a wellness studio's treatment floor. Staff enter a client's
plan for the day: a list of optimisations (categories such as CRYO or BRAIN). Each
optimisation becomes a step. The board then assigns PENDING steps to free tables
(stations), counts them down and releases the tables again.

This project models the core of both halves of the system:

- **Backend.** The socket handlers `optim:start`, `session:stop` and `plan:terminate`, and
  the REST routes `POST /client`, `POST /plan` and `PATCH /plan`. They are modelled as
  functions from a database state to an outcome and the next state. The model also covers
  the `getTodayPlans` projection, the `init` snapshot and the seed script. The invariants
  are proved for every state reachable from the seed.
- **Viewers.** The reducers of the board page and the clients page, and their one-second
  countdowns. Also the helpers they use: the shared client card of the clients page
  (header colour, free tables, status text), the board page's own variant of that card
  with its own nine-category layout and option list (`BoardCard`, whose header is the
  shared `ClientCard.HeaderColor`), the plan editor (check boxes and the PATCH
  difference), the phone pager, the minutes box, the static layout and the label
  constants.

The database is a set of immutable maps from record id to record (`Store.State`). A
counter `nextId` stands in for `uuid()`. Prisma's `findFirst` without a unique order is a
choice among the matching records, so the backend functions that use it are ghost
functions. The wall clock is an input in milliseconds (`now`), and `today00()` is an
abstract calendar day (`today`).

JavaScript arithmetic is written out:
- `x | 0` is a truncation followed by a 32-bit wrap (`JsNumber.ToInt32`, `TruncDiv`);
- `parseInt(s, 10)` reads the leading decimal digits after blanks and a sign;
- `Array.prototype.slice` clamps its arguments;
- `JSON.parse(JSON.stringify(…))` drops `undefined` cells.

The seed script provisions only nine of the twelve categories that the layout and the
duration table know. INFRARED SAUNA, CRYO and HBOT get no station, so every `optim:start`
for them fails with "Station not found" (`System.SeedCannotStartThree`).

## Model

| member | source | states |
|---|---|---|
| Layout.LayoutDistinct | modality-tracker-frontend/src/lib/layout.ts:5-21 | the shared layout names each category once |
| Layout.CapacityMatchesLayout | modality-tracker-frontend/src/lib/layout.ts:24-26 | `CAPACITY` maps each layout category to its table count |
| Layout.CapacitySize | modality-tracker-frontend/src/lib/layout.ts:24-26 | `CAPACITY` has exactly twelve entries |
| Layout.CountsPositive | modality-tracker-frontend/src/lib/layout.ts:5-21 | every category has at least one table |
| Layout.LayoutMatchesTimer | modality-tracker-frontend/src/lib/layout.ts:5-26 | the layout and `CAPACITY` know exactly the categories of the backend's duration table |
| Timer.Mins | modality-tracker-backend/src/index.ts:29-56 | `mins` is `null` iff the category is not in the table; every entry is between 3 and 60 minutes, and a maintenance session is never longer than an optimisation one |
| Constants.KeysDistinct | modality-tracker-frontend/src/lib/constants.ts:10-30 | the optimisation keys are distinct |
| Constants.LabelsDistinct | modality-tracker-frontend/src/lib/constants.ts:41 | `OPT_LIST` has twelve distinct labels |
| Constants.LabelKeyBijection | modality-tracker-frontend/src/lib/constants.ts:32-38 | `LABEL_TO_KEY` inverts `KEY_TO_LABEL` in both directions |
| Constants.LabelsMatchTimer | modality-tracker-frontend/src/lib/constants.ts:41 | `OPT_LIST` is the layout's category list in the same order; its labels and `LABEL_TO_KEY`'s keys are the duration table's categories |
| Entries.FromEntriesLookup | modality-tracker-frontend/src/lib/layout.ts:24-26 | with distinct keys, `Object.fromEntries` maps every key to its own value |
| Entries.FromEntriesSize | modality-tracker-frontend/src/lib/layout.ts:24-26 | with distinct keys, `Object.fromEntries` keeps one entry per pair |
| Entries.InvertEntries | modality-tracker-frontend/src/lib/constants.ts:32-38 | with distinct keys and values, the swapped pairs build the inverse map |
| JsNumber.ToInt32 | modality-tracker-backend/src/index.ts:129-131 | the bitwise OR with zero lands in the 32-bit range, agrees with its input modulo 2^32, and is the identity inside that range |
| JsNumber.TruncDiv | modality-tracker-backend/src/index.ts:129-131 | division truncated toward zero, bounded on both signs |
| JsNumber.JsRem | modality-tracker-frontend/pages/index.tsx:13 | `%` has the dividend's sign and completes the truncated division |
| JsNumber.NatToString | modality-tracker-frontend/pages/index.tsx:12 | `toString()` of a natural number: digits without a leading zero that read back as the number |
| JsNumber.PadStart2 | modality-tracker-frontend/pages/index.tsx:12 | `padStart(2, '0')` keeps the text as its suffix and fills with zeros up to two characters |
| JsNumber.SkipSpace | modality-tracker-frontend/components/DurationPicker.tsx:12 | `parseInt` skips a blank prefix and stops at the first non-blank character |
| JsNumber.DigitPrefix | modality-tracker-frontend/components/DurationPicker.tsx:12 | the longest run of digits at the start of the text |
| JsNumber.ParseIntOfDigits | modality-tracker-frontend/components/DurationPicker.tsx:12 | `ParseInt` (`parseInt`) reads a digit string, with or without a minus sign, as its value |
| JsNumber.ParseIntOfToString | modality-tracker-frontend/components/DurationPicker.tsx:12 | `parseInt` reads back any integer's decimal text |
| Clock.PadValue | modality-tracker-frontend/pages/index.tsx:12 | `Pad` (`pad`) of a number below 100 is two digits that read back as it |
| Clock.ClockRoundTrip | modality-tracker-frontend/pages/index.tsx:12-13 | below 100 minutes the `MM:SS` text of `ClockText` has its colon at position 2 and reads back as the seconds |
| Seqs.Filter | modality-tracker-frontend/pages/index.tsx:102-104 | `filter` keeps exactly the elements that satisfy the predicate, in order, and no more than there were |
| Seqs.FilterConcat | modality-tracker-frontend/pages/index.tsx:175-176 | filtering a concatenation is concatenating the filtered parts |
| Seqs.FilterIdempotent | modality-tracker-frontend/pages/index.tsx:102-104 | filtering twice with one predicate is filtering once |
| Seqs.All | modality-tracker-frontend/components/ClientCard.tsx:20 | `every` holds iff the predicate holds at every index |
| Seqs.Any | modality-tracker-frontend/pages/index.tsx:176 | `some` holds iff the predicate holds at some index |
| Store.FindStation | modality-tracker-backend/src/index.ts:207 | `station.findFirst({category, index})` returns a matching station, or none exists |
| Store.FindActiveOn | modality-tracker-backend/src/index.ts:210-215 | returns an ACTIVE step on the station, or none exists |
| Store.FindSession | modality-tracker-backend/src/routes/plan.ts:96-99 | returns the client's session of the day, or none exists |
| Engine.ResolveDuration | modality-tracker-backend/src/index.ts:260-264 | the custom duration wins; otherwise the table's minutes times 60 for the type; the error occurs exactly when there is neither; it agrees with the retime duration when it exists |
| Engine.NextPending | modality-tracker-backend/src/index.ts:60-77 | returns a PENDING step of the modality whose session accepts the type (and belongs to the client when one is given) with the earliest session date; none iff no such step exists |
| Engine.Retime | modality-tracker-backend/src/index.ts:216-224 | the running step gets the new duration and starts now; every other field, step, station, session and client is unchanged |
| Engine.Activate | modality-tracker-backend/src/index.ts:306-320 | the station becomes IN_USE and the step ACTIVE on it from now for the duration, keeping its session, modality and end; nothing else changes |
| Engine.AdjustTimerFallback | modality-tracker-backend/src/index.ts:269-303 | fails with "No pending or active step", changing nothing, iff no step is ACTIVE on the station; otherwise it persists the retime of that step and still fails, with the `TypeError` of reading the client of the `null` `active` |
| Engine.StartAck | modality-tracker-backend/src/index.ts:301-340 | the `optim:start` ack is `ok` exactly for a retime or an activation; a failure carries its error's text (`Message`) |
| Engine.StopAck | modality-tracker-backend/src/index.ts:346-365 | the `session:stop` ack is `ok` exactly for a stop; a failure carries its error's text (`Message`) |
| Engine.Release | modality-tracker-backend/src/index.ts:352-363 | the station becomes AVAILABLE; its ACTIVE step, if any, becomes DONE with `endAt` now; every other step, session and client is unchanged |
| Engine.OptimStart | modality-tracker-backend/src/index.ts:186-343 | fails with "Station not found", changing nothing, iff the station is unknown; a running station is retimed, with `RetimeDuration`, iff the station is found and not idle; "Client already in another optimisation" iff the station is idle and the given client has an ACTIVE step; "Unknown category/type" iff there is no custom duration and no table entry; a request that passes every check and has an eligible step is always activated, and an activation commits the earliest eligible step on the station with the resolved duration; "No pending or active step" iff nothing is eligible; every failure leaves the state alone |
| Engine.SessionStop | modality-tracker-backend/src/index.ts:346-365 | fails, changing nothing, iff the station is unknown; a found station is always stopped: its ACTIVE step (if any) is reported closed and becomes DONE with `endAt` now, every other step, session and client is unchanged, the station becomes AVAILABLE, and no step other than one that ran there before is ACTIVE on it |
| Engine.ForceFinishClient | modality-tracker-backend/src/index.ts:81-112 | every ACTIVE step of the client's session of today becomes DONE at `now`, no such step remains, every other step is unchanged; exactly the stations those steps held become AVAILABLE |
| Engine.PlanTerminate | modality-tracker-backend/src/index.ts:368-380 | after it the client has no session today, and no remaining step belongs to one; every other session and step is unchanged, as is every station not freed by the force-finish |
| EngineProofs.RetimePreservesInv | modality-tracker-backend/src/index.ts:210-244 | retiming a step keeps every invariant and moves no status backwards |
| EngineProofs.RetimeExclusive | modality-tracker-backend/src/index.ts:210-244 | retiming keeps each client to at most one ACTIVE step |
| EngineProofs.ActivateActive | modality-tracker-backend/src/index.ts:306-320 | after the commit, the ACTIVE steps are the old ones plus the new step on its station |
| EngineProofs.ActivatePreservesInv | modality-tracker-backend/src/index.ts:306-320 | committing a PENDING step onto a station with no ACTIVE step keeps every invariant |
| EngineProofs.ActivateOneActive | modality-tracker-backend/src/index.ts:306-320 | the commit keeps at most one ACTIVE step per station |
| EngineProofs.ActivateInUse | modality-tracker-backend/src/index.ts:306-320 | the commit keeps "IN_USE iff an ACTIVE step is on it" |
| EngineProofs.ActivateExclusive | modality-tracker-backend/src/index.ts:247-253 | committing a step of a client with no ACTIVE step keeps each client to at most one |
| EngineProofs.OptimStartPreservesInv | modality-tracker-backend/src/index.ts:186-343 | `optim:start` keeps every invariant, moves no status backwards and creates or deletes no step |
| EngineProofs.OptimStartKeepsExclusive | modality-tracker-backend/src/index.ts:247-253 | with a client id, `optim:start` keeps each client to at most one ACTIVE step |
| EngineProofs.ExclusivityNeedsClientId | modality-tracker-backend/src/index.ts:247-253 | without a client id the guard is skipped, and a well-formed state exists where the client ends up with two ACTIVE steps |
| Store.NoNewActiveKeepsExclusive | modality-tracker-backend/src/index.ts:247-253 | a change that makes no step ACTIVE for a client unless it already was keeps each client to at most one ACTIVE step |
| EngineProofs.SessionStopKeepsExclusive | modality-tracker-backend/src/index.ts:346-365 | `session:stop` keeps each client to at most one ACTIVE step |
| EngineProofs.PlanTerminateKeepsExclusive | modality-tracker-backend/src/index.ts:368-380 | `plan:terminate` keeps each client to at most one ACTIVE step |
| PlanProofs.AddStepsStartsNothing | modality-tracker-backend/src/routes/plan.ts:51-70 | the step loop makes no step ACTIVE that was not ACTIVE for the same client before |
| PlanProofs.UpdateSessionStartsNothing | modality-tracker-backend/src/routes/plan.ts:45-49 | rewriting a session without changing its client makes no step ACTIVE for a new client |
| PlanProofs.NewSessionStartsNothing | modality-tracker-backend/src/routes/plan.ts:45-49 | a session created under an unused id owns no existing step |
| PlanProofs.PostClientKeepsExclusive | modality-tracker-backend/src/routes/plan.ts:13-29 | `POST /client` keeps each client to at most one ACTIVE step |
| PlanProofs.PostPlanKeepsExclusive | modality-tracker-backend/src/routes/plan.ts:34-81 | `POST /plan` keeps each client to at most one ACTIVE step |
| PlanProofs.PostPlanStartsNothing | modality-tracker-backend/src/routes/plan.ts:34-81 | `POST /plan` makes no step ACTIVE that was not ACTIVE for the same client before |
| PlanProofs.PostPlanUpdateShape | modality-tracker-backend/src/routes/plan.ts:45-70 | with a session today, `POST /plan` is the session update followed by the step loop |
| PlanProofs.PostPlanCreateShape | modality-tracker-backend/src/routes/plan.ts:45-70 | for a known client without a session today, `POST /plan` is the session create under a fresh id followed by the step loop |
| PlanProofs.PatchPlanKeepsExclusive | modality-tracker-backend/src/routes/plan.ts:86-151 | `PATCH /plan` keeps each client to at most one ACTIVE step |
| EngineProofs.StartOnRunningStation | modality-tracker-backend/src/index.ts:210-244 | with the invariants, a request for a running station retimes the step on it (to `RetimeDuration`, the custom duration or the table's minutes times 60) and changes nothing else |
| EngineProofs.StartBusyClient | modality-tracker-backend/src/index.ts:247-253 | with the invariants, an idle station and a client already running elsewhere is refused with the state unchanged |
| EngineProofs.FallbackAlwaysFails | modality-tracker-backend/src/index.ts:269-303 | the adjust-timer fallback (`AdjustTimerFallback`) is reached only for an idle station, so its repeated query finds nothing and it always fails |
| EngineProofs.FallbackRetimesThenFails | modality-tracker-backend/src/index.ts:269-303 | called on a station with an ACTIVE step, the fallback keeps its retime of that step yet answers with a failed ack |
| EngineProofs.ReleaseActive | modality-tracker-backend/src/index.ts:352-363 | after a release the ACTIVE steps are the old ones minus those on the released station |
| EngineProofs.ReleasePreservesInv | modality-tracker-backend/src/index.ts:352-363 | releasing a station keeps every invariant and moves no status backwards |
| EngineProofs.SessionStopPreservesInv | modality-tracker-backend/src/index.ts:346-365 | `session:stop` keeps every invariant |
| EngineProofs.SessionStopFrame | modality-tracker-backend/src/index.ts:346-365 | with the invariants, a stop leaves the station AVAILABLE and idle, closes the step that ran there at `now`, and touches no other station or step |
| EngineProofs.ReleaseTwice | modality-tracker-backend/src/index.ts:352-363 | releasing a station twice is releasing it once |
| EngineProofs.SessionStopIdempotent | modality-tracker-backend/src/index.ts:346-365 | a second stop of the same station changes nothing |
| EngineProofs.ReleaseAfterActivate | modality-tracker-backend/src/index.ts:306-320 | a release right after a commit closes the step just started and restores the stations |
| EngineProofs.StartRetimed | modality-tracker-backend/src/index.ts:210-244 | a retimed outcome names an existing step and the state is that step retimed |
| EngineProofs.StartActivated | modality-tracker-backend/src/index.ts:306-320 | an activated outcome names a PENDING step, the station was idle and a duration resolved |
| EngineProofs.StartThenStop | modality-tracker-backend/src/index.ts:306-365 | a step assigned by `optim:start` is closed by the next stop of that station, keeping its start time, and the stations return to what they were |
| EngineProofs.ForceFinishActive | modality-tracker-backend/src/index.ts:81-112 | after the force-finish, the ACTIVE steps are the old ones minus the client's steps of today |
| EngineProofs.ForceFinishPreservesInv | modality-tracker-backend/src/index.ts:81-112 | the force-finish keeps every invariant and moves no status backwards |
| EngineProofs.PlanTerminatePreservesInv | modality-tracker-backend/src/index.ts:368-380 | `plan:terminate` keeps every invariant |
| EngineProofs.PlanTerminateIdempotent | modality-tracker-backend/src/index.ts:368-380 | terminating the same plan twice is terminating it once |
| PlanRoutes.FindClient | modality-tracker-backend/src/routes/plan.ts:19-28 | returns a client with the name pair, or none exists |
| PlanRoutes.PostClient | modality-tracker-backend/src/routes/plan.ts:13-29 | replies with a client id holding the name pair and the name `First L.` (`DisplayName`); adds at most that one client and nothing else; changes nothing when the pair exists |
| PlanRoutes.KeepsHasStep | modality-tracker-backend/src/routes/plan.ts:51-70 | a step that exists stays when steps are only added |
| PlanRoutes.AddStep | modality-tracker-backend/src/routes/plan.ts:51-70 | the step upsert keeps every existing step, gives a new step a fresh id, and leaves a step of that name in the session when the modality exists |
| PlanRoutes.AddSteps | modality-tracker-backend/src/routes/plan.ts:51-70 | the loop leaves a step for each known modality name in the session and keeps all existing steps |
| PlanRoutes.PostPlan | modality-tracker-backend/src/routes/plan.ts:34-81 | fails, changing nothing, iff the client has no session today and does not exist; otherwise today's session carries the posted mode (when none is posted: the stored one on update, the column default on create), the note (default empty) and a step per known modality, every new step being a fresh PENDING record of a listed known modality in that session, with every other step, session, station and client unchanged |
| PlanRoutes.RemovePending | modality-tracker-backend/src/routes/plan.ts:110-118 | exactly the PENDING steps of the session named in the list are deleted |
| PlanRoutes.PatchPlan | modality-tracker-backend/src/routes/plan.ts:86-151 | without a session today it fails and changes nothing; otherwise the note is replaced only when given, the mode is kept, every named PENDING step of the session is deleted (its id never returns), each known added name has a step, every new step is a fresh PENDING record of an added known name in that session, and every other step, session, station and client is unchanged |
| PlanProofs.PostClientPreservesInv | modality-tracker-backend/src/routes/plan.ts:13-29 | `POST /client` keeps every invariant |
| PlanProofs.PostClientIdempotent | modality-tracker-backend/src/routes/plan.ts:13-29 | posting the same name twice returns the same client and changes nothing the second time |
| PlanProofs.AddStepPreservesInv | modality-tracker-backend/src/routes/plan.ts:51-70 | the step upsert keeps every invariant |
| PlanProofs.AddStepsPreservesInv | modality-tracker-backend/src/routes/plan.ts:51-70 | the whole loop keeps every invariant |
| PlanProofs.AddStepsConcat | modality-tracker-backend/src/routes/plan.ts:51-70 | adding two lists in one loop is adding them one after the other |
| PlanProofs.AddStepsNoop | modality-tracker-backend/src/routes/plan.ts:51-70 | adding names that already have steps changes nothing |
| PlanProofs.AddStepsIdempotent | modality-tracker-backend/src/routes/plan.ts:51-70 | adding the same list twice is adding it once |
| PlanProofs.PostPlanPreservesInv | modality-tracker-backend/src/routes/plan.ts:34-81 | `POST /plan` keeps every invariant, including one session per client and day |
| PlanProofs.PostPlanSession | modality-tracker-backend/src/routes/plan.ts:45-70 | after a successful post, today's session (the old one, or a fresh id) carries the posted mode, or without one the old session's mode or the default for a new one, plus the note and a step per known name |
| PlanProofs.PostPlanWithoutModeKeepsMode | modality-tracker-backend/src/routes/plan.ts:35-49 | a post without a mode, as the board page and intake form send, leaves the mode of today's existing session unchanged |
| PlanProofs.PostPlanNoop | modality-tracker-backend/src/routes/plan.ts:34-81 | re-posting today's plan with the same note and steps, and no mode or the stored one, changes nothing |
| PlanProofs.PostPlanIdempotent | modality-tracker-backend/src/routes/plan.ts:34-81 | posting the same plan twice is posting it once |
| PlanProofs.PatchPlanPreservesInv | modality-tracker-backend/src/routes/plan.ts:86-151 | `PATCH /plan` keeps every invariant |
| PlanProofs.PatchRemoveThenAdd | modality-tracker-backend/src/routes/plan.ts:110-141 | a PENDING step named in both lists is deleted and then recreated as a fresh PENDING step |
| Projection.PlanOf | modality-tracker-backend/src/index.ts:116-134 | a plan lists exactly the session's steps, each with its modality, status and countdown |
| Projection.TodayPlans | modality-tracker-backend/src/routes/plan.ts:157-182 | one plan per session dated today |
| Projection.StepLeft | modality-tracker-backend/src/index.ts:129-131 | a countdown exists iff the step is ACTIVE with a start time; it stays within 2^31 of the duration, and while the elapsed seconds fit in 32 bits it is the duration minus the whole seconds elapsed |
| Projection.LeftAtStart | modality-tracker-backend/src/index.ts:129-131 | at its start time a step's countdown is its whole duration |
| Projection.LeftNonIncreasing | modality-tracker-backend/src/index.ts:129-131 | the countdown never goes up as time passes |
| Projection.LeftNotClamped | modality-tracker-backend/src/routes/plan.ts:176-179 | the countdown goes negative exactly when the whole seconds elapsed exceed the duration |
| Projection.TypeLabel | modality-tracker-backend/src/index.ts:173 | the snapshot labels a session OP iff its duration is at least 20 minutes |
| Projection.DefaultDurationLabels | modality-tracker-backend/src/index.ts:29-42 | example over the fixed default table: against the default durations, the label is wrong for the MT sessions of the GUT stations, the sauna and HBOT, and for the OP sessions of CELL and CRYO |
| Projection.LatestOn | modality-tracker-backend/src/index.ts:155-163 | returns the station's step with the latest start, or the station has none |
| Projection.Snapshot | modality-tracker-backend/src/index.ts:150-183 | one row per category that has a station, and each station's cell at its index is its tile (`TileOf`: the latest step's type label, start, duration and client name, shown unless that step is DONE) |
| Projection.SnapshotShowsOnlyRunning | modality-tracker-backend/src/index.ts:171-178 | with the invariants, a non-empty cell is an IN_USE station showing the step ACTIVE on it |
| System.UpsertStation | modality-tracker-backend/prisma/seed.ts:29-41 | the station upsert creates the table once, AVAILABLE, and changes nothing when it exists |
| System.UpsertTables | modality-tracker-backend/prisma/seed.ts:29-41 | the inner loop leaves a table at every index below the count |
| System.Seed | modality-tracker-backend/prisma/seed.ts:20-43 | the seed adds the layout's modalities and a table per category and index, and nothing else |
| System.Initial | modality-tracker-backend/prisma/seed.ts:7-43 | the seeded database satisfies every invariant and runs nothing |
| System.SeedInv | modality-tracker-backend/prisma/seed.ts:20-43 | seeding keeps every invariant |
| System.InitialStations | modality-tracker-backend/prisma/seed.ts:7-43 | the seeded database has a table exactly where the layout lists one |
| System.SeedLacksThreeCategories | modality-tracker-backend/prisma/seed.ts:7-17 | INFRARED SAUNA, CRYO and HBOT have default durations but no seeded station |
| System.SeedCannotStartThree | modality-tracker-backend/src/index.ts:207-208 | on the seeded database, any start for those categories fails with "Station not found" |
| System.DispatchPreservesInv | modality-tracker-backend/src/index.ts:186-380 | every handler, as `Dispatch` routes a request to it, keeps every invariant, moves no status backwards and creates steps only with fresh ids |
| System.PostPlanFresh | modality-tracker-backend/src/routes/plan.ts:34-81 | `POST /plan` moves no step backwards and creates steps only with fresh ids |
| System.PatchPlanForward | modality-tracker-backend/src/routes/plan.ts:86-151 | `PATCH /plan` never alters a step it keeps and creates steps only with fresh ids |
| System.RunPreservesInv | modality-tracker-backend/src/index.ts:186-380 | any sequence of requests, applied one after another by `Run`, keeps every invariant and never reuses a step id |
| System.RunForward | modality-tracker-backend/src/index.ts:186-380 | over any sequence of requests, a step that survives never moves back in its lifecycle |
| System.ReachableInv | modality-tracker-backend/prisma/seed.ts:19-46 | every state reachable from the seeded database satisfies every invariant |
| System.DispatchKeepsExclusive | modality-tracker-backend/src/index.ts:186-380 | every handler keeps each client to at most one ACTIVE step, provided an `optim:start` names its client |
| System.RunKeepsExclusive | modality-tracker-backend/src/index.ts:186-380 | so does any sequence of requests whose starts name their client |
| System.ReachableExclusive | modality-tracker-backend/prisma/seed.ts:19-46 | every state reached from the seeded database by requests whose starts name their client has at most one ACTIVE step per client |
| Viewer.StationUpdate | modality-tracker-frontend/pages/index.tsx:87-92 | `station:update` writes one cell and keeps every other row |
| Viewer.StationUpdateFrame | modality-tracker-frontend/pages/index.tsx:87-92 | after an update, the updated cell shows the new value and every other cell is unchanged |
| Viewer.StationUpdateIdempotent | modality-tracker-frontend/pages/index.tsx:87-92 | applying the same update twice is applying it once |
| Viewer.JsonClone | modality-tracker-frontend/pages/index.tsx:137 | the clone keeps every row and exactly the defined cells |
| Viewer.JsonCloneLookup | modality-tracker-frontend/pages/index.tsx:137 | the clone shows every cell as the original does |
| Viewer.TickCell | modality-tracker-frontend/pages/index.tsx:140-151 | a done cell is skipped; otherwise `left` is the countdown clamped at zero, and the cell is done exactly when nothing is left |
| Viewer.BoardTick | modality-tracker-frontend/pages/index.tsx:136-154 | every defined cell is ticked and nothing else is kept |
| Viewer.DoneCellsStay | modality-tracker-frontend/pages/index.tsx:141 | a done cell never changes again |
| Viewer.TickCellIdempotent | modality-tracker-frontend/pages/index.tsx:140-151 | ticking a cell twice at one instant is ticking it once |
| Viewer.BoardTickIdempotent | modality-tracker-frontend/pages/index.tsx:136-154 | ticking the board twice at one instant is ticking it once |
| Viewer.CellLeftNonIncreasing | modality-tracker-frontend/pages/index.tsx:143-144 | the board countdown (`CellLeft`) never goes up as time passes |
| Viewer.PlanUpdate | modality-tracker-frontend/pages/index.tsx:98-100 | `plan:update` keeps the length and the ids in order; every entry that now has the pushed id is the pushed value, and every other entry is the one that stood there |
| Viewer.PlanUpdateNeverInserts | modality-tracker-frontend/pages/index.tsx:98-100 | the update keeps the ids in order, ignores an unknown id and brings in nothing but the new value |
| Viewer.PlanUpdateIdempotent | modality-tracker-frontend/pages/index.tsx:98-100 | the same update twice is the update once |
| Viewer.PlanRemove | modality-tracker-frontend/pages/index.tsx:102-104 | `plan:remove` keeps exactly the clients with another id |
| Viewer.PlanRemoveIdempotent | modality-tracker-frontend/pages/index.tsx:102-104 | removing twice is removing once, and removing an absent id changes nothing |
| Viewer.PlanRemoveConcat | modality-tracker-frontend/pages/index.tsx:102-104 | removing from a concatenation removes from each part |
| Viewer.TickStep | modality-tracker-frontend/pages/index.tsx:160-166 | an ACTIVE step with a countdown loses a second, clamped at zero, and is DONE exactly when it had at most one second left; other steps are kept |
| Viewer.TickSteps | modality-tracker-frontend/pages/index.tsx:160-166 | a tick keeps every step in place with its modality; a step that is not ACTIVE with a countdown is unchanged; an ACTIVE one stays ACTIVE or turns DONE, its countdown drops by one clamped at zero, and it turns DONE exactly when at most one second was left |
| Viewer.PlanTick | modality-tracker-frontend/pages/index.tsx:157-168 | every client keeps its id, name and note; only its steps tick |
| Viewer.TickTimesCountdown | modality-tracker-frontend/pages/index.tsx:157-168 | after n ticks, a countdown of `l` shows `max(l − n, 0)` and is DONE exactly when `l ≤ n` |
| BoardPage.Receive | modality-tracker-frontend/pages/index.tsx:76-104 | while a modal is open every message is dropped; station messages touch only the grid and plan messages only the plans |
| BoardPage.DroppedWhileModal | modality-tracker-frontend/pages/index.tsx:79-84 | any number of messages received while a modal is open leave the page as it was |
| BoardPage.StationDeltaShown | modality-tracker-frontend/pages/index.tsx:87-92 | with the modals closed, a station delta shows at its cell and nowhere else |
| BoardPage.Tick | modality-tracker-frontend/pages/index.tsx:128-172 | the interval does nothing while a modal is open; otherwise it ticks the board and the plans |
| BoardPage.Waits | modality-tracker-frontend/pages/index.tsx:176 | a client waits for a category iff it has a PENDING step of it |
| BoardPage.QueueFor | modality-tracker-frontend/pages/index.tsx:175-176 | the queue holds exactly the listed clients that wait for the category |
| BoardPage.QueueForInOrder | modality-tracker-frontend/pages/index.tsx:175-176 | the queue keeps list order |
| BoardPage.ClientBusy | modality-tracker-frontend/pages/index.tsx:178-179 | a client is busy iff a listed client with that id has an ACTIVE step |
| BoardPage.QueueIdsAfterTick | modality-tracker-frontend/pages/index.tsx:157-176 | a tick never changes who waits for a category, or in which order |
| BoardPage.WaitsAfterTick | modality-tracker-frontend/pages/index.tsx:157-176 | a tick never changes whether one client waits for a category |
| BoardPage.BusyAfterTick | modality-tracker-frontend/pages/index.tsx:157-179 | a tick can end a client's running step but never starts one |
| BoardPage.PrettyRoundTrip | modality-tracker-frontend/pages/index.tsx:12-13 | below 100 minutes the text of `Pretty` is a five-character clock reading back as the seconds, then ` left` |
| ClientsPage.Receive | modality-tracker-frontend/pages/clients.tsx:35-52 | a station delta is ignored; a batch replaces the grid; the plan messages edit only the plans |
| ClientsPage.Tick | modality-tracker-frontend/pages/clients.tsx:13-30 | the interval ticks only the plans, and nothing gates it |
| ClientsPage.GridIsLastBatch | modality-tracker-frontend/pages/clients.tsx:44 | without a new batch the grid stays the last one received |
| ClientsPage.PagesAgreeOnPlans | modality-tracker-frontend/pages/clients.tsx:36-42 | with the board's modals closed, both pages hold the same plans after the same messages |
| ClientsPage.TicksAgreeOnPlans | modality-tracker-frontend/pages/clients.tsx:15-26 | with the board's modals closed, both pages tick the plans alike |
| ClientCard.HeaderColor | modality-tracker-frontend/components/ClientCard.tsx:19-24 | emerald iff every step is DONE, orange iff some step is ACTIVE, slate iff neither |
| ClientCard.HeaderAfterTick | modality-tracker-frontend/components/ClientCard.tsx:19-24 | a tick keeps an emerald header emerald and never turns a header orange |
| ClientCard.Busy | modality-tracker-frontend/components/ClientCard.tsx:68-70 | the busy tables of a row are exactly its defined cells that are not done |
| ClientCard.Free | modality-tracker-frontend/components/ClientCard.tsx:67-71 | free tables (the capacity `Total` less the busy count `Used`, floored at 0) never exceed the capacity; they equal it iff none is busy or the capacity is 0; free and busy add up to the capacity when it is not overbooked |
| ClientCard.SuffixShownIff | modality-tracker-frontend/components/ClientCard.tsx:79 | the `(free)` suffix (`Suffix`) shows iff the step is not DONE, its category has tables, and some of them are busy |
| ClientCard.BusyAfterWrite | modality-tracker-frontend/components/ClientCard.tsx:68-70 | writing a running cell adds that table to the busy set; writing an empty or done cell removes it |
| ClientCard.UsedAfterUpdate | modality-tracker-frontend/components/ClientCard.tsx:67-71 | a station update changes the busy count of its own category only, by at most one |
| ClientCard.StepTextShowsCountdown | modality-tracker-frontend/components/ClientCard.tsx:82-84 | in `StepText`, an ACTIVE step shows the hourglass and a clock that reads back as its countdown |
| BoardCard.BoardLayoutDistinct | modality-tracker-frontend/pages/index.tsx:29-39 | the board page's own layout names nine categories, each once |
| BoardCard.CapacityKeys | modality-tracker-frontend/src/lib/layout.ts:5-26 | the shared capacity map has exactly the twelve shared categories |
| BoardCard.BoardCategories | modality-tracker-frontend/pages/index.tsx:29-39 | the page's layout holds exactly the shared categories other than INFRARED SAUNA, CRYO and HBOT (`MISSING`) |
| BoardCard.BoardOptionsAreLayout | modality-tracker-frontend/pages/index.tsx:40-50 | the page's own option list offers exactly the categories of its own layout |
| BoardCard.BoardCountsShared | modality-tracker-frontend/pages/index.tsx:29-39 | each category of the page's layout has the table count the shared layout gives it |
| BoardCard.FindCount | modality-tracker-frontend/pages/index.tsx:536 | `find(...)?.count ?? 0` is the count of the first entry with that name, 0 when there is none |
| BoardCard.Avail | modality-tracker-frontend/pages/index.tsx:536 | the card's capacity is the shared capacity for the page's nine categories and 0 for every other name, the three missing ones included |
| BoardCard.Shown | modality-tracker-frontend/pages/index.tsx:537 | `filter(Boolean)` keeps every defined cell of the row, a done one included |
| BoardCard.ShownSplits | modality-tracker-frontend/pages/index.tsx:537 | the defined cells are the shared card's busy cells plus the finished cells (`Finished`), which are disjoint, so the counts add up |
| BoardCard.BoardFree | modality-tracker-frontend/pages/index.tsx:538 | `avail - busy` (with `BoardUsed` the number of defined cells) is never above the capacity, equals it iff no cell is defined, and is negative iff more cells are defined than the capacity |
| BoardCard.BoardSuffixShownIff | modality-tracker-frontend/pages/index.tsx:552 | the suffix (`BoardSuffix`) shows iff the step is not DONE and its category has a defined cell, even when the page's layout gives that category no table |
| BoardCard.BoardFreeVersusShared | modality-tracker-frontend/pages/index.tsx:536-538 | the board's free count is never above the shared card's `ClientCard.Free`. Outside the three missing categories the two are equal iff the row has no finished cell and is not overbooked. For the missing ones the board's count is minus the number of defined cells |
| BoardCard.FinishedTableStillCounted | modality-tracker-frontend/pages/index.tsx:537 | example: a finished BRAIN cell still on the grid makes the board show `(3)`, while the shared card shows no suffix |
| BoardCard.NegativeFreeShown | modality-tracker-frontend/pages/index.tsx:536-538 | example: one running CRYO cell makes the board show `(-1)` and the shared card `(0)` |
| BoardCard.BoardStepTextVersusShared | modality-tracker-frontend/pages/index.tsx:554-557 | the board's step text (`BoardStepText`) is the shared card's, with ` left` after a running step's clock (the page's `pretty`) |
| PlanEditor.InitialPending | modality-tracker-frontend/components/PlanEditorModal.tsx:14-16 | the initial list holds exactly the modalities of the PENDING steps, and is no longer than the steps |
| PlanEditor.InitialPendingInOrder | modality-tracker-frontend/components/PlanEditorModal.tsx:14-16 | the initial list is the PENDING steps' modalities in the order of the steps: its `j`-th entry is the modality of the `j`-th PENDING step |
| PlanEditor.Find | modality-tracker-frontend/components/PlanEditorModal.tsx:85 | returns the first step of the category (no earlier step has it), or the client has none |
| PlanEditor.Click | modality-tracker-frontend/components/PlanEditorModal.tsx:97-110 | a box that is `Locked` (its first step is not PENDING) ignores the click; otherwise the box's tick flips and no other box changes |
| PlanEditor.Add | modality-tracker-frontend/components/PlanEditorModal.tsx:29 | `add` holds exactly the ticked categories not initially PENDING |
| PlanEditor.Remove | modality-tracker-frontend/components/PlanEditorModal.tsx:30 | `remove` holds exactly the initially PENDING categories no longer ticked |
| PlanEditor.DiffReconstructs | modality-tracker-frontend/components/PlanEditorModal.tsx:29-30 | nothing is both added and removed, and applying the difference to the initial list gives the ticked set |
| PlanEditor.SavePlan | modality-tracker-frontend/components/PlanEditorModal.tsx:34-37 | a PATCH is addressed to the edited client |
| PlanEditor.SaveClosesIff | modality-tracker-frontend/components/PlanEditorModal.tsx:34 | Save closes without a request iff the ticked set is the initial PENDING set |
| PlanEditor.ClickKeepsSound | modality-tracker-frontend/components/PlanEditorModal.tsx:103-110 | a click keeps every ticked category either initially PENDING or one the client has no step for |
| PlanEditor.ClicksSound | modality-tracker-frontend/components/PlanEditorModal.tsx:84-110 | so does any sequence of clicks from the initial list |
| PlanEditor.PatchOnlyTouchesPending | modality-tracker-frontend/components/PlanEditorModal.tsx:29-37 | whatever is clicked, the PATCH adds only listed categories the client has no step for, and removes only categories whose step is PENDING |
| BoardView.PerPage | modality-tracker-frontend/components/BoardView.tsx:37 | three categories per page in portrait, six in landscape |
| BoardView.PageCount | modality-tracker-frontend/components/BoardView.tsx:38 | zero pages iff no category; otherwise the fewest pages that hold them all |
| BoardView.SliceIndex | modality-tracker-frontend/components/BoardView.tsx:43 | a `slice` bound is clamped into the sequence, and a bound inside it is kept |
| BoardView.JsSlice | modality-tracker-frontend/components/BoardView.tsx:43 | `slice(a, b)` has length `to - from` for the clamped bounds (zero when they cross), and its `j`-th element is the input's element at `from + j` |
| BoardView.PageSliceShape | modality-tracker-frontend/components/BoardView.tsx:43 | a page (`PageSlice`) shows at most `PER_PAGE` categories; a page in range shows the categories from `page * PER_PAGE` on, at least one |
| BoardView.PagesPrefix | modality-tracker-frontend/components/BoardView.tsx:43 | the first k pages together are the layout's first k·PER_PAGE categories |
| BoardView.PagesCoverLayout | modality-tracker-frontend/components/BoardView.tsx:38-43 | all pages, one after another, are exactly the layout |
| BoardView.EntryOnItsPage | modality-tracker-frontend/components/BoardView.tsx:38-43 | the category at position j shows on page j / PER_PAGE, at position j % PER_PAGE |
| BoardView.NavigationStaysInRange | modality-tracker-frontend/components/BoardView.tsx:53-74 | in one orientation the buttons `Prev` and `Next` keep the page in range and move it by one when enabled |
| BoardView.Rotate | modality-tracker-frontend/components/BoardView.tsx:36-40 | a rotation keeps the page number |
| BoardView.RotateLeavesEmptyPage | modality-tracker-frontend/components/BoardView.tsx:36-43 | on the last portrait page of twelve categories, turning to landscape leaves a page out of range that shows nothing, and `›` moves further away |
| BoardView.RotateClamped | modality-tracker-frontend/components/BoardView.tsx:36-40 | the clamped rotation takes the new orientation |
| BoardView.RotateClampedInRange | modality-tracker-frontend/components/BoardView.tsx:36-43 | with the clamp, a rotation keeps a non-empty board on a page in range, and keeps the page when it still exists |
| DurationPicker.Start | modality-tracker-frontend/components/DurationPicker.tsx:11-15 | Start reports whole minutes in seconds and clears the box |
| DurationPicker.StartTyped | modality-tracker-frontend/components/DurationPicker.tsx:11-15 | typing a whole number of minutes reports that many minutes, zero and negatives included |
| DurationPicker.StartWithoutDigits | modality-tracker-frontend/components/DurationPicker.tsx:12-13 | a box without any digit falls back to the default minutes |
| DurationPicker.StartReadsLeadingDigits | modality-tracker-frontend/components/DurationPicker.tsx:12 | only the leading digits count |
| DurationPicker.OneEThree | modality-tracker-frontend/components/DurationPicker.tsx:12 | example, not a general property: `1e3` starts one minute, not a thousand |

## Left out

- The transport is not modelled: sockets, broadcasts (`station:update`, `plan:update`, …) and acknowledgement delivery. The handlers return an outcome (`Engine.StartAck`, `Engine.StopAck`) instead of emitting.
- Fastify, CORS and the health check are left out. They do not change any record.
- Prisma itself is not modelled. Records are maps keyed by id, and `uuid()` is a growing counter.
- The `SessionType` enum and the modality's `defaultDuration` are not consulted by any modelled path.
- Concurrency is not modelled. Each handler runs atomically. The source's checks outside `$transaction` could race with another request.
- Dates are not modelled as wall-clock values. `today00()` is an abstract day and `Date.now()` an integer of milliseconds.
- Floating-point division is not modelled. Every division in the core except the page count is truncated at once by `| 0`, and that truncation is modelled exactly. The page count is `Math.ceil(n / perPage)`, modelled exactly as a ceiling (`BoardView.PageCount`).
- React rendering, CSS and layout are left out. So are `ModalPortal`, `_app`, `intake.tsx`, the tailwind config and the plain `index.js` page.
- The board page's optimistic paint on start (pages/index.tsx:207-224) is left out. So is the `start` emit, which leaves `durationSec` out when the picker returns 0 seconds.
- The board page's intake form, which offers the page's own `OPT_LIST` (pages/index.tsx:395-406), is not modelled beyond that list (`BoardCard.BoardOptionsAreLayout`). Its grid sections follow the page's own nine-category `LAYOUT`; rendering is left out as stated above.
- The unused `toggle` helper of the plan editor (PlanEditorModal.tsx:22-23) is left out.
- The orientation hook of the pager (BoardView.tsx:17-31) is left out. The orientation is an input.
- `parseInt` is modelled for decimal text only. Radix prefixes and non-ASCII digits are out of scope.
- `CAPACITY[...] ?? 0` for a name that is a property of `Object.prototype` is not modelled.
- A cell's `done` flag is read as a boolean, because `undefined` and `false` behave alike wherever it is tested.
- The Prisma schema is not part of this model. A session created without a mode is given `PlanRoutes.DEFAULT_MODE`, assumed to be `UNSPEC`.
- System.Dispatch records the next state only. The replies are stated by the handlers' own models.
- Projection.LeftNonIncreasing: is proved only while the elapsed seconds stay inside the 32-bit range of `| 0`. Outside it the wrap-around can make the countdown jump.
- Viewer.CellLeftNonIncreasing: is proved only while the board countdown stays inside the 32-bit range, for the same reason.
- Projection.LeftNotClamped: is stated only inside the 32-bit range of the elapsed seconds.
- Clock.ClockRoundTrip: holds only below 100 minutes. Beyond that the minutes take more than two digits.
- BoardPage.PrettyRoundTrip: holds only below 100 minutes, for the same reason.
- ClientCard.StepTextShowsCountdown: holds only below 100 minutes, for the same reason.
- System.ReachableExclusive: covers only runs whose every `optim:start` names its client, for the reason below.
- EngineProofs.OptimStartKeepsExclusive: requires a client id. Without one the guard is skipped and the property fails (EngineProofs.ExclusivityNeedsClientId).

## Findings

| source | as written | input that shows it | evidently intended | confidence | as-written member | corrected member |
|---|---|---|---|---|---|---|
| modality-tracker-frontend/components/BoardView.tsx:36-43 | the page number is kept when the phone rotates, while `PER_PAGE` and `pageCount` change | twelve categories on portrait page 4 of 4 (`page = 3`), then turn to landscape: the pager shows "4 / 2", the page is empty, and `›` stays enabled | the page is clamped to `pageCount - 1` when the orientation changes | not executed | BoardView.RotateLeavesEmptyPage | BoardView.RotateClampedInRange |

=== FILE: board_card.dfy ===
/**
 * The client card the board page draws in its side panel. The page does not
 * use the shared card: it defines its own card, its own nine-category layout
 * and its own option list. Its header is the shared card's; its free-table
 * count is not: it counts finished tables as taken, is not floored at zero,
 * and takes the capacity from the shorter layout.
 */
module BoardCard {
  import opened Wrappers
  import opened Store
  import opened Viewer
  import opened Entries
  import Layout
  import ClientCard
  import BoardPage
  import Clock

  /** The page's own `LAYOUT`: the seed's nine categories, in the seed's order. */
  const BOARD_LAYOUT: seq<(string, nat)> := [
    ("CIRCULATION (BACK)", 4),
    ("CIRCULATION (FRONT)", 3),
    ("BRAIN", 4),
    ("ENERGY", 3),
    ("CELL", 2),
    ("PHYSICAL", 3),
    ("GUT (EMS)", 2),
    ("GUT (LASER)", 2),
    ("STRESS", 2)
  ]

  /** The page's own `OPT_LIST`: the check boxes of its intake form. */
  const BOARD_OPT_LIST: seq<string> := [
    "PHYSICAL", "GUT (LASER)", "GUT (EMS)", "STRESS", "CIRCULATION (BACK)",
    "CIRCULATION (FRONT)", "ENERGY", "CELL", "BRAIN"]

  /** The categories of the shared layout the page's copy lacks. */
  const MISSING: set<string> := {"INFRARED SAUNA", "CRYO", "HBOT"}

  /** The page's layout names each of its nine categories once. */
  lemma BoardLayoutDistinct()
    ensures |BOARD_LAYOUT| == 9 && Distinct(Keys(BOARD_LAYOUT))
  {
  }

  /** The shared capacity map has exactly the shared layout's categories. */
  lemma CapacityKeys()
    ensures forall m :: m in Layout.CAPACITY <==> m in Layout.CATEGORIES
  {
    assert Keys(Layout.LAYOUT) == Layout.CATEGORIES;
    assert Layout.CAPACITY.Keys == set c | c in Layout.CATEGORIES;
  }

  /** The page's layout is the shared one without the three newer categories. */
  lemma BoardCategories()
    ensures forall m :: m in Keys(BOARD_LAYOUT) <==> m in Layout.CAPACITY && m !in MISSING
  {
    CapacityKeys();
    assert Keys(BOARD_LAYOUT) == [
      "CIRCULATION (BACK)", "CIRCULATION (FRONT)", "BRAIN", "ENERGY", "CELL", "PHYSICAL",
      "GUT (EMS)", "GUT (LASER)", "STRESS"];
  }

  /** The page's option list offers exactly the categories of its layout. */
  lemma BoardOptionsAreLayout()
    ensures forall m :: m in BOARD_OPT_LIST <==> m in Keys(BOARD_LAYOUT)
  {
    assert Keys(BOARD_LAYOUT) == [
      "CIRCULATION (BACK)", "CIRCULATION (FRONT)", "BRAIN", "ENERGY", "CELL", "PHYSICAL",
      "GUT (EMS)", "GUT (LASER)", "STRESS"];
  }

  /** Every category of the page's layout has the table count the shared layout gives it. */
  lemma BoardCountsShared(i: nat)
    requires i < |BOARD_LAYOUT|
    ensures BOARD_LAYOUT[i].0 in Layout.CAPACITY && Layout.CAPACITY[BOARD_LAYOUT[i].0] == BOARD_LAYOUT[i].1
  {
    var j := [0, 1, 5, 4, 3, 2, 7, 6, 8][i];
    Layout.CapacityMatchesLayout(j);
  }

  /** `es.find(l => l.category === m)?.count ?? 0`: the count of the first entry naming `m`,
      0 when none does. */
  function FindCount(es: seq<(string, nat)>, m: string): (n: nat)
    ensures (forall i :: 0 <= i < |es| ==> es[i].0 != m) ==> n == 0
    ensures forall i :: 0 <= i < |es| && es[i].0 == m && (forall j :: 0 <= j < i ==> es[j].0 != m) ==> n == es[i].1
    decreases es
  {
    if es == [] then 0
    else if es[0].0 == m then es[0].1
    else
      var n := FindCount(es[1..], m);
      assert forall i :: 1 <= i < |es| ==> es[i] == es[1..][i - 1];
      n
  }

  /** The first entry of the page's layout naming `m`, found through its distinct keys. */
  lemma FindBoardCount(m: string)
    ensures FindCount(BOARD_LAYOUT, m) == if m in Layout.CAPACITY && m !in MISSING then Layout.CAPACITY[m] else 0
  {
    BoardLayoutDistinct();
    BoardCategories();
    if m in Keys(BOARD_LAYOUT) {
      var i :| 0 <= i < |BOARD_LAYOUT| && Keys(BOARD_LAYOUT)[i] == m;
      BoardCountsShared(i);
      forall j | 0 <= j < i ensures BOARD_LAYOUT[j].0 != m {
        assert Keys(BOARD_LAYOUT)[j] != Keys(BOARD_LAYOUT)[i];
      }
    } else {
      forall i | 0 <= i < |BOARD_LAYOUT| ensures BOARD_LAYOUT[i].0 != m {
        assert Keys(BOARD_LAYOUT)[i] == BOARD_LAYOUT[i].0;
      }
    }
  }

  /** The card's `avail`: the shared capacity for the nine categories of the page's layout,
      0 for every other name, the three missing categories included. */
  function Avail(m: string): (n: nat)
    ensures n == if m in Layout.CAPACITY && m !in MISSING then Layout.CAPACITY[m] else 0
  {
    FindBoardCount(m);
    FindCount(BOARD_LAYOUT, m)
  }

  /* ---------- free tables ---------- */

  /** `Object.values(dataMap[m] ?? {}).filter(Boolean)`: every defined cell of the row, a
      finished one included. */
  function Shown(row: Row): (b: set<int>)
    ensures b <= row.Keys
    ensures forall i :: i in b <==> i in row && row[i].Some?
  {
    set i | i in row && row[i].Some?
  }

  /** The defined cells of a row that are done. */
  function Finished(row: Row): set<int> {
    set i | i in row && row[i].Some? && row[i].value.done
  }

  /** The defined cells are the shared card's busy ones and the finished ones, apart. */
  lemma ShownSplits(row: Row)
    ensures Shown(row) == ClientCard.Busy(row) + Finished(row)
    ensures ClientCard.Busy(row) * Finished(row) == {}
    ensures |Shown(row)| == |ClientCard.Busy(row)| + |Finished(row)|
  {
    assert Shown(row) == ClientCard.Busy(row) + Finished(row);
    assert ClientCard.Busy(row) * Finished(row) == {};
  }

  /** The card's `busy`. */
  function BoardUsed(g: Grid, m: string): nat {
    if m in g then |Shown(g[m])| else 0
  }

  /** The card's `free`, `avail - busy` with no floor: negative once more cells are defined
      than the page's layout gives tables, and the whole capacity iff no cell is defined. */
  function BoardFree(g: Grid, m: string): (f: int)
    ensures f <= Avail(m)
    ensures f == Avail(m) <==> BoardUsed(g, m) == 0
    ensures f < 0 <==> BoardUsed(g, m) > Avail(m)
  {
    Avail(m) - BoardUsed(g, m)
  }

  /** The ` (free)` suffix after a modality name. */
  function BoardSuffix(g: Grid, s: StepView): Option<int> {
    if s.status != Done && BoardFree(g, s.modality) != Avail(s.modality) then Some(BoardFree(g, s.modality))
    else None
  }

  /** The suffix appears exactly for a step not yet done whose category has a defined cell,
      whether or not the page's layout gives that category any table. */
  lemma BoardSuffixShownIff(g: Grid, s: StepView)
    ensures BoardSuffix(g, s).Some? <==> s.status != Done && s.modality in g && Shown(g[s.modality]) != {}
  {
  }

  /** Against the shared card: the board never shows more free tables. For a category the two
      layouts share, or one neither has, it shows as many iff the row has no finished cell and
      is not overbooked; for the three missing categories it shows minus the defined cells. */
  lemma BoardFreeVersusShared(g: Grid, m: string)
    ensures BoardFree(g, m) <= ClientCard.Free(g, m)
    ensures m !in MISSING ==>
      (BoardFree(g, m) == ClientCard.Free(g, m) <==>
        (m !in g || Finished(g[m]) == {}) && ClientCard.Used(g, m) <= ClientCard.Total(m))
    ensures m in MISSING ==> BoardFree(g, m) + BoardUsed(g, m) == 0
  {
    if m in g {
      ShownSplits(g[m]);
    }
  }

  /** A BRAIN table whose step has finished but whose cell is still on the board. */
  const FINISHED_BRAIN: Grid := map["BRAIN" := map[0 := Some(Cell(MT, 0, 900, "Ann B.", Some(0), true))]]

  /** Example: with that table the board still reports three of four BRAIN tables free,
      while the shared card reports them all free and shows no suffix. */
  lemma FinishedTableStillCounted()
    ensures BoardSuffix(FINISHED_BRAIN, StepView("BRAIN", Pending, None)) == Some(3)
    ensures ClientCard.Suffix(FINISHED_BRAIN, StepView("BRAIN", Pending, None)).None?
  {
    assert Shown(FINISHED_BRAIN["BRAIN"]) == {0};
    assert ClientCard.Busy(FINISHED_BRAIN["BRAIN"]) == {};
    assert Layout.CAPACITY["BRAIN"] == 4 by {
      Layout.CapacityMatchesLayout(5);
    }
  }

  /** A CRYO table in use. */
  const RUNNING_CRYO: Grid := map["CRYO" := map[0 := Some(Cell(MT, 0, 900, "Ann B.", Some(600), false))]]

  /** Example: the board shows ` (-1)` for it, the shared card ` (0)`. */
  lemma NegativeFreeShown()
    ensures BoardSuffix(RUNNING_CRYO, StepView("CRYO", Pending, None)) == Some(-1)
    ensures ClientCard.Suffix(RUNNING_CRYO, StepView("CRYO", Pending, None)) == Some(0)
  {
    var row := RUNNING_CRYO["CRYO"];
    assert Shown(row) == {0};
    assert ClientCard.Busy(row) == {0};
    assert BoardUsed(RUNNING_CRYO, "CRYO") == 1 && ClientCard.Used(RUNNING_CRYO, "CRYO") == 1;
    assert Avail("CRYO") == 0;
    assert ClientCard.Total("CRYO") == 1 by {
      Layout.CapacityMatchesLayout(10);
    }
  }

  /* ---------- step text ---------- */

  /** The right-hand text of a step, the countdown written by the page's own `pretty`. */
  function BoardStepText(s: StepView): string {
    match s.status
    case Pending => "\U{2022}"
    case Active => "\U{23F3} " + BoardPage.Pretty(s.left.GetOr(0))
    case Done => "\U{2705}"
  }

  /** The board's text is the shared card's, with ` left` after a running step's clock. */
  lemma BoardStepTextVersusShared(s: StepView)
    ensures s.status == Active ==> BoardStepText(s) == ClientCard.StepText(s) + " left"
    ensures s.status != Active ==> BoardStepText(s) == ClientCard.StepText(s)
  {
    if s.status == Active {
      var clock := Clock.ClockText(s.left.GetOr(0));
      assert BoardPage.Pretty(s.left.GetOr(0)) == clock + " left";
      assert "\U{23F3} " + (clock + " left") == ("\U{23F3} " + clock) + " left";
    }
  }
}

=== FILE: board_page.dfy ===
/**
 * The board page: the station grid and today's plans kept from the socket,
 * the one-second countdown, and the queue helpers the start picker uses.
 * While the intake or the manual-start modal is open every update is
 * dropped, so that the text field keeps its focus.
 */
module BoardPage {
  import opened Wrappers
  import opened Store
  import opened Seqs
  import opened Viewer
  import opened Clock

  /** What the page holds: the grid, the plans, and whether either modal is up. */
  datatype Board = Board(data: Grid, clients: seq<ClientView>, showIntake: bool, manual: bool)

  predicate ModalOpen(b: Board) {
    b.showIntake || b.manual
  }

  /** The listeners: each message goes through `safeSetData` or `safeSetClients`, which do
      nothing while a modal is open. */
  function Receive(b: Board, m: Msg): (r: Board)
    ensures ModalOpen(b) ==> r == b
    ensures r.showIntake == b.showIntake && r.manual == b.manual
    ensures (m.StationUpdateMsg? || m.StationBatch?) ==> r.clients == b.clients
    ensures !(m.StationUpdateMsg? || m.StationBatch?) ==> r.data == b.data
  {
    if ModalOpen(b) then b
    else match m
      case StationUpdateMsg(c, i, d) => b.(data := StationUpdate(b.data, c, i, d))
      case StationBatch(g) => b.(data := g)
      case PlanList(all) => b.(clients := all)
      case PlanUpdateMsg(one) => b.(clients := PlanUpdate(b.clients, one))
      case PlanRemoveMsg(id) => b.(clients := PlanRemove(b.clients, id))
  }

  function ReceiveAll(b: Board, ms: seq<Msg>): Board
    decreases |ms|
  {
    if ms == [] then b else ReceiveAll(Receive(b, ms[0]), ms[1..])
  }

  /** Messages that arrive while a modal is open are lost, not queued: after any number of
      them the page is exactly as it was. */
  lemma {:induction false} DroppedWhileModal(b: Board, ms: seq<Msg>)
    requires ModalOpen(b)
    ensures ReceiveAll(b, ms) == b
    decreases |ms|
  {
    if ms != [] {
      DroppedWhileModal(Receive(b, ms[0]), ms[1..]);
    }
  }

  /** With the modals closed, a station delta shows at its cell and nowhere else. */
  lemma StationDeltaShown(b: Board, c: string, i: int, d: Option<Cell>, c': string, i': int)
    requires !ModalOpen(b)
    ensures Lookup(Receive(b, StationUpdateMsg(c, i, d)).data, c', i') ==
      if c' == c && i' == i then d else Lookup(b.data, c', i')
  {
    StationUpdateFrame(b.data, c, i, d, c', i');
  }

  /** The one-second interval: nothing while a modal is open, otherwise the board and plan
      countdowns. */
  function Tick(b: Board, now: int): (r: Board)
    ensures ModalOpen(b) ==> r == b
    ensures r.showIntake == b.showIntake && r.manual == b.manual
    ensures !ModalOpen(b) ==> r.data == BoardTick(b.data, now) && r.clients == PlanTick(b.clients)
  {
    if ModalOpen(b) then b else b.(data := BoardTick(b.data, now), clients := PlanTick(b.clients))
  }

  /* ---------- queue helpers ---------- */

  /** `c.steps.some(s => s.status === 'PENDING' && s.modality === mod)` */
  function Waits(c: ClientView, mod: string): (b: bool)
    ensures b <==> exists i :: 0 <= i < |c.steps| && c.steps[i].status == Pending && c.steps[i].modality == mod
  {
    Any(c.steps, (s: StepView) => s.status == Pending && s.modality == mod)
  }

  /** `queueFor(mod)`: the clients waiting for `mod`, in list order. */
  function QueueFor(cs: seq<ClientView>, mod: string): (r: seq<ClientView>)
    ensures forall c :: c in r <==> c in cs && Waits(c, mod)
  {
    Filter(cs, (c: ClientView) => Waits(c, mod))
  }

  /** The queue of a list made of two parts is the first part's queue, then the second's. */
  lemma QueueForInOrder(cs: seq<ClientView>, ds: seq<ClientView>, mod: string)
    ensures QueueFor(cs + ds, mod) == QueueFor(cs, mod) + QueueFor(ds, mod)
  {
    FilterConcat(cs, ds, (c: ClientView) => Waits(c, mod));
  }

  ghost predicate HasActive(c: ClientView) {
    exists i :: 0 <= i < |c.steps| && c.steps[i].status == Active
  }

  /** `clientBusy(cid)`: some listed client with that id has an ACTIVE step. */
  function ClientBusy(cs: seq<ClientView>, cid: Id): (b: bool)
    ensures b <==> exists k :: 0 <= k < |cs| && cs[k].id == cid && HasActive(cs[k])
  {
    Any(cs, (cl: ClientView) => cl.id == cid && Any(cl.steps, (s: StepView) => s.status == Active))
  }

  /** The tick never changes a PENDING step, so who waits for a category stays the same. */
  lemma {:induction false} QueueIdsAfterTick(cs: seq<ClientView>, mod: string)
    ensures Ids(QueueFor(PlanTick(cs), mod)) == Ids(QueueFor(cs, mod))
  {
    if cs != [] {
      var t := PlanTick(cs);
      assert t[1..] == PlanTick(cs[1..]);
      QueueIdsAfterTick(cs[1..], mod);
      WaitsAfterTick(cs[0], mod);
      assert t[0] == cs[0].(steps := TickSteps(cs[0].steps));
      var head := if Waits(cs[0], mod) then [cs[0]] else [];
      var head' := if Waits(t[0], mod) then [t[0]] else [];
      assert QueueFor(cs, mod) == head + QueueFor(cs[1..], mod);
      assert QueueFor(t, mod) == head' + QueueFor(t[1..], mod);
      IdsConcat(head, QueueFor(cs[1..], mod));
      IdsConcat(head', QueueFor(t[1..], mod));
    }
  }

  lemma WaitsAfterTick(c: ClientView, mod: string)
    ensures Waits(c.(steps := TickSteps(c.steps)), mod) == Waits(c, mod)
  {
    var t := TickSteps(c.steps);
    if Waits(c.(steps := t), mod) {
      var i :| 0 <= i < |t| && t[i].status == Pending && t[i].modality == mod;
      assert c.steps[i].status == Pending;
    }
  }

  lemma IdsConcat(a: seq<ClientView>, b: seq<ClientView>)
    ensures Ids(a + b) == Ids(a) + Ids(b)
  {
  }

  /** A tick can end a client's running step but never starts one. */
  lemma BusyAfterTick(cs: seq<ClientView>, cid: Id)
    ensures ClientBusy(PlanTick(cs), cid) ==> ClientBusy(cs, cid)
  {
    var t := PlanTick(cs);
    if ClientBusy(t, cid) {
      var k :| 0 <= k < |t| && t[k].id == cid && HasActive(t[k]);
      var i :| 0 <= i < |t[k].steps| && t[k].steps[i].status == Active;
      assert cs[k].id == cid;
      assert cs[k].steps[i].status == Active;
    }
  }

  /* ---------- countdown text ---------- */

  /** `pretty(s)`: the `MM:SS` clock followed by ` left`. */
  function Pretty(s: int): string {
    ClockText(s) + " left"
  }

  /** Below 100 minutes the text is a five-character clock that reads back as `s`, then
      ` left`. */
  lemma PrettyRoundTrip(s: int)
    requires 0 <= s < 6000
    ensures |Pretty(s)| == 10 && Pretty(s)[5..] == " left"
    ensures ReadClock(Pretty(s)[..5]) == Some(s)
  {
    ClockRoundTrip(s);
    assert Pretty(s)[..5] == ClockText(s);
  }
}

=== FILE: board_view.dfy ===
/**
 * The phone pager of the board: the category list split into pages of three
 * (portrait) or six (landscape) categories, with previous/next buttons
 * disabled at either end.
 */
module BoardView {

  /** The pager's state: the orientation and the page shown. */
  datatype Pager = Pager(portrait: bool, page: int)

  /** `PER_PAGE`: one row of three in portrait, two rows in landscape. */
  function PerPage(portrait: bool): (p: nat)
    ensures p == (if portrait then 3 else 6)
  {
    if portrait then 3 else 6
  }

  /** `Math.ceil(n / PER_PAGE)`: the fewest pages of `p` entries that hold `n` entries. */
  function PageCount(n: nat, portrait: bool): (pc: nat)
    ensures n == 0 <==> pc == 0
    ensures n > 0 ==> (pc - 1) * PerPage(portrait) < n <= pc * PerPage(portrait)
  {
    var p := PerPage(portrait);
    (n + p - 1) / p
  }

  /** A `slice` argument made relative to the length: a negative one counts from the end, and
      both are clamped into `[0, len]`. */
  function SliceIndex(x: int, len: nat): (r: nat)
    ensures r <= len
    ensures 0 <= x <= len ==> r == x
    ensures x > len ==> r == len
  {
    if x < 0 then (if len + x < 0 then 0 else len + x)
    else if x > len then len
    else x
  }

  /** `Array.prototype.slice(a, b)`. */
  function JsSlice<T>(s: seq<T>, a: int, b: int): (r: seq<T>)
    ensures var from, to := SliceIndex(a, |s|), SliceIndex(b, |s|);
      && |r| == (if from < to then to - from else 0)
      && forall j :: 0 <= j < |r| ==> r[j] == s[from + j]
  {
    var from, to := SliceIndex(a, |s|), SliceIndex(b, |s|);
    if from < to then s[from..to] else []
  }

  /** `catsThisPage`. */
  function PageSlice<T>(layout: seq<T>, pg: Pager): seq<T> {
    var p := PerPage(pg.portrait);
    JsSlice(layout, pg.page * p, (pg.page + 1) * p)
  }

  /** A shown page is a real page of the layout. */
  predicate InRange(n: nat, pg: Pager) {
    0 <= pg.page < PageCount(n, pg.portrait)
  }

  /** A page never holds more than `PER_PAGE` entries; a page in range holds the entries from
      `page * PER_PAGE` on, and at least one. */
  lemma PageSliceShape<T>(layout: seq<T>, pg: Pager)
    ensures |PageSlice(layout, pg)| <= PerPage(pg.portrait)
    ensures InRange(|layout|, pg) ==>
      var p := PerPage(pg.portrait);
      var hi := if (pg.page + 1) * p < |layout| then (pg.page + 1) * p else |layout|;
      pg.page * p < |layout| && PageSlice(layout, pg) == layout[pg.page * p..hi]
  {
    var p := PerPage(pg.portrait);
    if InRange(|layout|, pg) {
      MulLess(pg.page, PageCount(|layout|, pg.portrait) - 1, p);
    }
  }

  lemma MulLess(a: nat, b: nat, p: nat)
    requires a <= b
    ensures a * p <= b * p
  {
  }

  /** The first `k` pages, one after another. */
  function Pages<T>(layout: seq<T>, portrait: bool, k: nat): seq<T> {
    if k == 0 then [] else Pages(layout, portrait, k - 1) + PageSlice(layout, Pager(portrait, k - 1))
  }

  lemma {:induction false} PagesPrefix<T>(layout: seq<T>, portrait: bool, k: nat)
    ensures var end := k * PerPage(portrait);
      Pages(layout, portrait, k) == layout[..if end < |layout| then end else |layout|]
  {
    if k > 0 {
      PagesPrefix(layout, portrait, k - 1);
      var p := PerPage(portrait);
      var lo, hi := (k - 1) * p, k * p;
      var a := if lo < |layout| then lo else |layout|;
      var b := if hi < |layout| then hi else |layout|;
      assert layout[..b] == layout[..a] + layout[a..b];
    }
  }

  /** The pages `0 .. pageCount - 1`, one after another, are exactly the layout: every
      category is on one page, in order. */
  lemma PagesCoverLayout<T>(layout: seq<T>, portrait: bool)
    ensures Pages(layout, portrait, PageCount(|layout|, portrait)) == layout
  {
    PagesPrefix(layout, portrait, PageCount(|layout|, portrait));
  }

  /** The entry at position `j` is shown on page `j / PER_PAGE`, at position `j % PER_PAGE`. */
  lemma EntryOnItsPage<T>(layout: seq<T>, portrait: bool, j: nat)
    requires j < |layout|
    ensures var p := PerPage(portrait);
      var pg := Pager(portrait, j / p);
      InRange(|layout|, pg) && j % p < |PageSlice(layout, pg)| && PageSlice(layout, pg)[j % p] == layout[j]
  {
    var p := PerPage(portrait);
    var pg := Pager(portrait, j / p);
    assert j == (j / p) * p + j % p;
    PageSliceShape(layout, pg);
  }

  /** `‹`: disabled on the first page. */
  function Prev(pg: Pager): Pager {
    if pg.page == 0 then pg else pg.(page := pg.page - 1)
  }

  /** `›`: disabled when `page === pageCount - 1`. */
  function Next(n: nat, pg: Pager): Pager {
    if pg.page == PageCount(n, pg.portrait) - 1 then pg else pg.(page := pg.page + 1)
  }

  /** In a fixed orientation the buttons keep the page in range, moving it by one when
      enabled. */
  lemma NavigationStaysInRange(n: nat, pg: Pager)
    requires InRange(n, pg)
    ensures InRange(n, Prev(pg)) && InRange(n, Next(n, pg))
    ensures pg.page > 0 ==> Prev(pg).page == pg.page - 1
    ensures pg.page < PageCount(n, pg.portrait) - 1 ==> Next(n, pg).page == pg.page + 1
  {
  }

  /** A rotation of the phone as the component handles it: the page number is kept. */
  function Rotate(pg: Pager, portrait: bool): (r: Pager)
    ensures r.page == pg.page && r.portrait == portrait
  {
    pg.(portrait := portrait)
  }

  /** On the last portrait page of twelve categories, turning the phone to landscape leaves
      page 4 of 2: nothing is shown, and `›` is still enabled and moves further away. */
  lemma RotateLeavesEmptyPage<T>(layout: seq<T>)
    requires |layout| == 12
    ensures InRange(12, Pager(true, 3))
    ensures !InRange(12, Rotate(Pager(true, 3), false))
    ensures PageSlice(layout, Rotate(Pager(true, 3), false)) == []
    ensures Next(12, Rotate(Pager(true, 3), false)).page == 4
  {
    assert PageCount(12, false) == 2;
    assert PageCount(12, true) == 4;
  }

  /** A rotation that keeps the page when it still exists and otherwise shows the last page. */
  function RotateClamped(n: nat, pg: Pager, portrait: bool): (r: Pager)
    ensures r.portrait == portrait
  {
    var last := PageCount(n, portrait) - 1;
    Pager(portrait, if pg.page <= last then pg.page else if last < 0 then 0 else last)
  }

  /** With the clamp a rotation keeps every non-empty board on a page that exists, and
      leaves the page alone when it still exists. */
  lemma RotateClampedInRange(n: nat, pg: Pager, portrait: bool)
    requires n > 0 && InRange(n, pg)
    ensures InRange(n, RotateClamped(n, pg, portrait))
    ensures pg.page < PageCount(n, portrait) ==> RotateClamped(n, pg, portrait).page == pg.page
  {
  }
}

=== FILE: client_card.dfy ===
/**
 * The shared client card the clients page draws for a plan: the header colour, the
 * free-station count shown next to each pending or running modality, and
 * the status text of each step.
 */
module ClientCard {
  import opened Wrappers
  import opened Store
  import opened Seqs
  import opened Viewer
  import opened Layout
  import opened Clock

  datatype Header = Emerald | Orange | Slate

  predicate IsDone(s: StepView) { s.status == Done }

  predicate IsActive(s: StepView) { s.status == Active }

  /** The header: emerald once every step is DONE (a plan without steps included), orange
      while any step runs, slate for a plan that is waiting. */
  function HeaderColor(c: ClientView): (h: Header)
    ensures h == Emerald <==> forall i :: 0 <= i < |c.steps| ==> c.steps[i].status == Done
    ensures h == Orange <==> exists i :: 0 <= i < |c.steps| && c.steps[i].status == Active
    ensures h == Slate <==>
      && (exists i :: 0 <= i < |c.steps| && c.steps[i].status == Pending)
      && (forall i :: 0 <= i < |c.steps| ==> c.steps[i].status != Active)
  {
    if All(c.steps, IsDone) then Emerald
    else if Any(c.steps, IsActive) then Orange
    else Slate
  }

  /** A tick never turns a finished card back, and never makes a card start running. */
  lemma HeaderAfterTick(c: ClientView)
    ensures HeaderColor(c) == Emerald ==> HeaderColor(c.(steps := TickSteps(c.steps))) == Emerald
    ensures HeaderColor(c.(steps := TickSteps(c.steps))) == Orange ==> HeaderColor(c) == Orange
  {
    var t := c.(steps := TickSteps(c.steps));
    if HeaderColor(t) == Orange {
      var i :| 0 <= i < |t.steps| && t.steps[i].status == Active;
      assert c.steps[i].status == Active;
    }
  }

  /* ---------- free stations ---------- */

  /** Indices of the row whose cell is shown and not done. */
  function Busy(row: Row): (b: set<int>)
    ensures b <= row.Keys
    ensures forall i :: i in b <==> i in row && row[i].Some? && !row[i].value.done
  {
    set i | i in row && row[i].Some? && !row[i].value.done
  }

  /** `Object.values(dataMap[m] ?? {}).filter(cell => cell && !cell.done).length`. */
  function Used(g: Grid, m: string): nat {
    if m in g then |Busy(g[m])| else 0
  }

  /** `CAPACITY[m] ?? 0`. */
  function Total(m: string): nat {
    if m in CAPACITY then CAPACITY[m] else 0
  }

  /** `Math.max(total - used, 0)`: never negative, never above the capacity, and the whole
      capacity exactly when nothing of the category is busy or it has no capacity. */
  function Free(g: Grid, m: string): (f: nat)
    ensures f <= Total(m)
    ensures f == Total(m) <==> Used(g, m) == 0 || Total(m) == 0
    ensures Used(g, m) <= Total(m) ==> f + Used(g, m) == Total(m)
  {
    if Total(m) - Used(g, m) > 0 then Total(m) - Used(g, m) else 0
  }

  /** The ` (free)` suffix after a modality name. */
  function Suffix(g: Grid, s: StepView): Option<nat> {
    if s.status != Done && Free(g, s.modality) != Total(s.modality) then Some(Free(g, s.modality))
    else None
  }

  /** The suffix appears exactly for a step not yet done whose category has capacity on the
      board and at least one busy station. */
  lemma SuffixShownIff(g: Grid, s: StepView)
    ensures Suffix(g, s).Some? <==>
      s.status != Done && s.modality in CAPACITY && CAPACITY[s.modality] > 0
      && s.modality in g && Busy(g[s.modality]) != {}
  {
  }

  /** Writing one cell of a row adds that index to the busy ones when the cell is shown and
      not done, and takes it away otherwise. */
  lemma BusyAfterWrite(row: Row, i: int, d: Option<Cell>)
    ensures d.Some? && !d.value.done ==> Busy(row[i := d]) == Busy(row) + {i}
    ensures !(d.Some? && !d.value.done) ==> Busy(row[i := d]) == Busy(row) - {i}
  {
  }

  /** Set-size step used by `UsedAfterUpdate`: adding or removing one element changes the
      size by at most one. */
  lemma CardAdjacent(b: set<int>, i: int)
    ensures |b| <= |b + {i}| <= |b| + 1
    ensures |b| - 1 <= |b - {i}| <= |b|
  {
    if i in b {
      assert b + {i} == b;
    } else {
      assert b - {i} == b;
    }
  }

  /** Starting a station (a shown, not-done cell) leaves at most one station fewer free,
      stopping one (an `undefined` cell) at most one more, and neither touches another
      category. */
  lemma UsedAfterUpdate(g: Grid, c: string, i: int, d: Option<Cell>, m: string)
    ensures m != c ==> Used(StationUpdate(g, c, i, d), m) == Used(g, m)
    ensures m == c && d.Some? && !d.value.done ==> Used(g, m) <= Used(StationUpdate(g, c, i, d), m) <= Used(g, m) + 1
    ensures m == c && d.None? ==> Used(g, m) - 1 <= Used(StationUpdate(g, c, i, d), m) <= Used(g, m)
  {
    if m == c {
      var row: Row := if c in g then g[c] else map[];
      assert StationUpdate(g, c, i, d)[c] == row[i := d];
      assert Used(g, m) == |Busy(row)|;
      BusyAfterWrite(row, i, d);
      CardAdjacent(Busy(row), i);
    }
  }

  /* ---------- step text ---------- */

  /** The right-hand text of a step: a dot, an hourglass and the countdown, or a tick. A
      running step without a countdown shows `00:00`. */
  function StepText(s: StepView): string {
    match s.status
    case Pending => "\U{2022}"
    case Active => "\U{23F3} " + ClockText(s.left.GetOr(0))
    case Done => "\U{2705}"
  }

  /** A running step's text reads back as its countdown (zero when it has none) while that
      is under 100 minutes. */
  lemma StepTextShowsCountdown(s: StepView)
    requires s.status == Active && 0 <= s.left.GetOr(0) < 6000
    ensures |StepText(s)| == 7
    ensures ReadClock(StepText(s)[2..]) == Some(s.left.GetOr(0))
  {
    ClockRoundTrip(s.left.GetOr(0));
    assert StepText(s)[2..] == ClockText(s.left.GetOr(0));
  }
}

=== FILE: clients_page.dfy ===
/**
 * The clients page: every plan of the day as a card. It listens to the plan
 * messages and to the grid snapshot only, without any modal gate, and its
 * interval ticks the plan countdowns only.
 */
module ClientsPage {
  import opened Viewer
  import BoardPage

  datatype Page = Page(data: Grid, clients: seq<ClientView>)

  /** The listeners. No `station:update` listener is registered, so a station delta is
      ignored here. */
  function Receive(p: Page, m: Msg): (r: Page)
    ensures m.StationUpdateMsg? ==> r == p
    ensures m.StationBatch? ==> r == Page(m.grid, p.clients)
    ensures m.PlanList? ==> r == Page(p.data, m.all)
    ensures !m.StationBatch? ==> r.data == p.data
  {
    match m
    case StationUpdateMsg(_, _, _) => p
    case StationBatch(g) => p.(data := g)
    case PlanList(all) => p.(clients := all)
    case PlanUpdateMsg(one) => p.(clients := PlanUpdate(p.clients, one))
    case PlanRemoveMsg(id) => p.(clients := PlanRemove(p.clients, id))
  }

  function ReceiveAll(p: Page, ms: seq<Msg>): Page
    decreases |ms|
  {
    if ms == [] then p else ReceiveAll(Receive(p, ms[0]), ms[1..])
  }

  /** The one-second interval: only the plan countdowns, and nothing gates it. */
  function Tick(p: Page): (r: Page)
    ensures r.data == p.data && r.clients == PlanTick(p.clients)
  {
    p.(clients := PlanTick(p.clients))
  }

  /** Whatever station deltas arrive, the grid stays the last snapshot received. */
  lemma {:induction false} GridIsLastBatch(p: Page, ms: seq<Msg>)
    requires forall k :: 0 <= k < |ms| ==> !ms[k].StationBatch?
    ensures ReceiveAll(p, ms).data == p.data
    decreases |ms|
  {
    if ms != [] {
      ReceiveAll1(p, ms);
      GridIsLastBatch(Receive(p, ms[0]), ms[1..]);
    }
  }

  lemma ReceiveAll1(p: Page, ms: seq<Msg>)
    requires ms != []
    ensures ReceiveAll(p, ms) == ReceiveAll(Receive(p, ms[0]), ms[1..])
  {
  }

  /** The two pages hold the same plan list after the same messages as long as the board's
      modals stay closed. */
  lemma {:induction false} PagesAgreeOnPlans(b: BoardPage.Board, p: Page, ms: seq<Msg>)
    requires !BoardPage.ModalOpen(b) && b.clients == p.clients
    ensures BoardPage.ReceiveAll(b, ms).clients == ReceiveAll(p, ms).clients
    ensures !BoardPage.ModalOpen(BoardPage.ReceiveAll(b, ms))
    decreases |ms|
  {
    if ms != [] {
      PagesAgreeOnPlans(BoardPage.Receive(b, ms[0]), Receive(p, ms[0]), ms[1..]);
    }
  }

  /** And their ticks agree on the plans too. */
  lemma TicksAgreeOnPlans(b: BoardPage.Board, p: Page, now: int)
    requires !BoardPage.ModalOpen(b) && b.clients == p.clients
    ensures BoardPage.Tick(b, now).clients == Tick(p).clients
  {
  }
}

=== FILE: clock.dfy ===
/**
 * The `MM:SS` countdown text both viewers render: minutes `(s / 60) | 0`
 * and seconds `s % 60`, each padded to two characters.
 */
module Clock {
  import opened Wrappers
  import opened JsNumber

  /** `pad(n)`: `n.toString().padStart(2, '0')`. */
  function Pad(n: int): string {
    PadStart2(IntToString(n))
  }

  /** For 0 <= n < 100 the padded text is exactly two digits denoting n. */
  lemma PadValue(n: int)
    requires 0 <= n < 100
    ensures |Pad(n)| == 2 && AllDigits(Pad(n)) && DigitsValue(Pad(n)) == n
  {
    var t := NatToString(n);
    var r := Pad(n);
    if n < 10 {
      assert r == ['0'] + t;
      assert r[..1] == ['0'];
      assert r[..1][..0] == [];
      assert DigitsValue(r[..1]) == 0;
    } else {
      assert r == t;
    }
  }

  /** `${pad((s / 60) | 0)}:${pad(s % 60)}` */
  function ClockText(s: int): string {
    Pad(ToInt32(TruncDiv(s, 60))) + ":" + Pad(JsRem(s, 60))
  }

  /** An independent reader of `MM:SS` text: the number of seconds it shows. */
  function ReadClock(t: string): Option<int> {
    if |t| == 5 && AllDigits(t[..2]) && t[2] == ':' && AllDigits(t[3..]) && DigitsValue(t[3..]) < 60
    then Some(DigitsValue(t[..2]) * 60 + DigitsValue(t[3..]))
    else None
  }

  /** Below 100 minutes the text is two-digit minutes, a colon and two-digit seconds under 60,
      and reading it back gives the seconds it was made from. */
  lemma ClockRoundTrip(s: int)
    requires 0 <= s < 6000
    ensures |ClockText(s)| == 5 && ClockText(s)[2] == ':'
    ensures ReadClock(ClockText(s)) == Some(s)
  {
    var mm, ss := TruncDiv(s, 60), JsRem(s, 60);
    assert 0 <= mm < 100 && 0 <= ss < 60 && s == mm * 60 + ss;
    assert ToInt32(mm) == mm;
    PadValue(mm);
    PadValue(ss);
    var t := ClockText(s);
    assert t == Pad(mm) + ":" + Pad(ss);
    assert t[..2] == Pad(mm);
    assert t[3..] == Pad(ss);
  }
}

=== FILE: constants.dfy ===
/**
 * The optimisation keys and their display labels (`KEY_TO_LABEL`), the
 * reverse lookup built by swapping the pairs (`LABEL_TO_KEY`) and the flat
 * label list used by the check-box grids (`OPT_LIST`).
 */
module Constants {
  import opened Entries
  import Timer
  import Layout

  /** The object literal's properties, in declaration order. */
  const KEY_TO_LABEL_ENTRIES: seq<(string, string)> := [
    ("CIRC_BACK", "CIRCULATION (BACK)"),
    ("CIRC_FRONT", "CIRCULATION (FRONT)"),
    ("PHYSICAL", "PHYSICAL"),
    ("CELL", "CELL"),
    ("ENERGY", "ENERGY"),
    ("BRAIN", "BRAIN"),
    ("GUT_LASER", "GUT (LASER)"),
    ("GUT_EMS", "GUT (EMS)"),
    ("STRESS", "STRESS"),
    ("INFRA_SAUNA", "INFRARED SAUNA"),
    ("CRYO", "CRYO"),
    ("HBOT", "HBOT")
  ]

  const KEY_TO_LABEL: map<string, string> := FromEntries(KEY_TO_LABEL_ENTRIES)

  /** `Object.fromEntries(Object.entries(KEY_TO_LABEL).map(([k, v]) => [v, k]))` */
  const LABEL_TO_KEY: map<string, string> := FromEntries(Swap(KEY_TO_LABEL_ENTRIES))

  /** `Object.values(KEY_TO_LABEL)` */
  const OPT_LIST: seq<string> := Values(KEY_TO_LABEL_ENTRIES)

  lemma KeysDistinct()
    ensures Distinct(Keys(KEY_TO_LABEL_ENTRIES))
  {
  }

  /** The twelve labels are pairwise distinct, so swapping the pairs loses nothing. */
  lemma LabelsDistinct()
    ensures Distinct(OPT_LIST) && |OPT_LIST| == 12
  {
  }

  /** `LABEL_TO_KEY[KEY_TO_LABEL[k]] == k` for every key, and
      `KEY_TO_LABEL[LABEL_TO_KEY[l]] == l` for every label. */
  lemma LabelKeyBijection()
    ensures forall k :: k in KEY_TO_LABEL ==>
      KEY_TO_LABEL[k] in LABEL_TO_KEY && LABEL_TO_KEY[KEY_TO_LABEL[k]] == k
    ensures forall l :: l in LABEL_TO_KEY ==>
      LABEL_TO_KEY[l] in KEY_TO_LABEL && KEY_TO_LABEL[LABEL_TO_KEY[l]] == l
  {
    KeysDistinct();
    LabelsDistinct();
    InvertEntries(KEY_TO_LABEL_ENTRIES);
  }

  /** The check-box grids list the categories in the board's order, so the labels are
      exactly the backend's timed categories. */
  lemma LabelsMatchTimer()
    ensures OPT_LIST == Keys(Layout.LAYOUT)
    ensures (set l | l in OPT_LIST) == Timer.TIMER.Keys
    ensures LABEL_TO_KEY.Keys == Timer.TIMER.Keys
  {
    assert OPT_LIST == Keys(Layout.LAYOUT);
    Layout.LayoutMatchesTimer();
    assert Keys(Swap(KEY_TO_LABEL_ENTRIES)) == OPT_LIST;
  }
}

=== FILE: duration_picker.dfy ===
/**
 * The minutes box of the start picker: pressing Start (or Enter) reports a
 * duration in seconds and clears the box.
 */
module DurationPicker {
  import opened Wrappers
  import opened JsNumber

  /** `start()`: `parseInt(value, 10)` minutes, or `defaultMin` when that is NaN, times 60;
      the box is cleared afterwards. The result is always whole minutes. */
  function Start(value: string, defaultMin: int): (r: (int, string))
    ensures r.1 == ""
    ensures r.0 % 60 == 0
  {
    var min := ParseInt(value);
    (if min.None? then defaultMin * 60 else min.value * 60, "")
  }

  /** Typing a whole number of minutes gives that many minutes, whatever the default; zero
      and negative numbers pass through, the box's `min={1}` being only a hint. */
  lemma StartTyped(m: int, defaultMin: int)
    ensures Start(IntToString(m), defaultMin).0 == m * 60
  {
    ParseIntOfToString(m);
  }

  /** A box without any digit (blank, spaces, a lone sign) falls back to the default. */
  lemma StartWithoutDigits(value: string, defaultMin: int)
    requires forall i :: 0 <= i < |value| ==> !IsDigit(value[i])
    ensures Start(value, defaultMin).0 == defaultMin * 60
  {
    var t := SkipSpace(value);
    var u := if t != [] && (t[0] == '-' || t[0] == '+') then t[1..] else t;
    assert forall i :: 0 <= i < |u| ==> u[i] == value[|value| - |u| + i];
  }

  lemma {:induction false} DigitPrefixStops(ds: string, rest: string)
    requires AllDigits(ds)
    requires rest == [] || !IsDigit(rest[0])
    ensures DigitPrefix(ds + rest) == ds
  {
    if ds != [] {
      assert (ds + rest)[1..] == ds[1..] + rest;
      DigitPrefixStops(ds[1..], rest);
    }
  }

  /** Only the leading digits count: `"1e3"` starts one minute, not a thousand. */
  lemma StartReadsLeadingDigits(ds: string, rest: string, defaultMin: int)
    requires ds != [] && AllDigits(ds)
    requires rest == [] || !IsDigit(rest[0])
    ensures Start(ds + rest, defaultMin).0 == DigitsValue(ds) * 60
  {
    var s := ds + rest;
    assert IsDigit(s[0]) && !IsJsSpace(s[0]);
    assert SkipSpace(s) == s;
    DigitPrefixStops(ds, rest);
  }

  /** Example, not a general property: exponent notation is not read, so `"1e3"` starts
      one minute rather than a thousand. */
  lemma OneEThree(defaultMin: int)
    ensures Start("1e3", defaultMin).0 == 60
  {
    assert "1e3" == "1" + "e3";
    StartReadsLeadingDigits("1", "e3", defaultMin);
  }
}

=== FILE: engine.dfy ===
/**
 * The assignment engine: the socket handlers `optim:start` (assign or
 * retime), `session:stop` (release) and `plan:terminate` (through
 * `forceFinishClient`), each a function from a state and a request to an
 * outcome and the next state. `now` is the wall clock in milliseconds and
 * `today` the value of `today00()`.
 */
module Engine {
  import opened Wrappers
  import opened Store
  import opened Timer
  import opened Extremes

  /** `NullActive` is the `TypeError` the adjust-timer path throws when it reads `active!`,
      which is always `null` there. */
  datatype Error = StationNotFound | ClientBusy | UnknownDuration | NoStep | NullActive

  /** The `msg` the handlers put in a failed acknowledgement. */
  function Message(e: Error): string {
    match e
    case StationNotFound => "Station not found"
    case ClientBusy => "Client already in another optimisation"
    case UnknownDuration => "Unknown category/type and no custom duration"
    case NoStep => "No pending or active step"
    case NullActive => "Cannot read properties of null (reading 'session')"
  }

  /** The payload of `optim:start`. */
  datatype StartRequest = StartRequest(
    category: string,
    index: int,
    kind: SessionType,
    clientId: Option<Id>,
    durationSec: Option<int>)

  /** Which path `optim:start` took, and on which step. */
  datatype StartOutcome = Retimed(step: Id) | Activated(step: Id) | StartFailed(error: Error)

  /** The `{ ok, msg }` acknowledgement sent back to the caller. */
  datatype Ack = Ack(ok: bool, msg: Option<string>)

  /** The ack is `ok` exactly for a retime or an activation; a failure carries its error's message. */
  function StartAck(o: StartOutcome): (a: Ack)
    ensures a.ok <==> !o.StartFailed?
    ensures a.msg.Some? <==> o.StartFailed?
    ensures o.StartFailed? ==> a.msg == Some(Message(o.error))
  {
    if o.StartFailed? then Ack(false, Some(Message(o.error))) else Ack(true, None)
  }

  /* ---------- duration ---------- */

  /** Duration on the retime path, `durationSec ?? mins(category, type)! * 60`: the
      non-null assertion is erased, so an unknown category gives `null * 60`, which is 0. */
  function RetimeDuration(r: StartRequest): int {
    match r.durationSec
    case Some(d) => d
    case None => (match Mins(r.category, r.kind) case Some(m) => m * 60 case None => 0)
  }

  /** Duration on the activation path; None is the "no custom duration" error. */
  function ResolveDuration(r: StartRequest): (d: Option<int>)
    ensures r.durationSec.Some? ==> d == r.durationSec
    ensures r.durationSec.None? && r.category in TIMER ==>
      d == Some(60 * if r.kind == MT then TIMER[r.category].mt else TIMER[r.category].op)
    ensures d.None? <==> r.durationSec.None? && r.category !in TIMER
    ensures d.Some? ==> d.value == RetimeDuration(r)
  {
    match r.durationSec
    case Some(sec) => Some(sec)
    case None => (match Mins(r.category, r.kind) case Some(m) => Some(m * 60) case None => None)
  }

  /* ---------- queue selection (getNextPendingStep) ---------- */

  /** `mode: { in: [type, UNSPEC] }` */
  predicate ModeAccepts(m: Mode, t: SessionType) {
    m == Typed(t) || m == Unspec
  }

  /** The `where` clause of `getNextPendingStep`; the client filter applies only when one is given. */
  ghost predicate Eligible(s: State, k: Id, modality: string, kind: SessionType, clientId: Option<Id>) {
    && k in s.steps
    && s.steps[k].status == Pending
    && s.steps[k].modality == modality
    && s.steps[k].sessionId in s.sessions
    && ModeAccepts(s.sessions[s.steps[k].sessionId].mode, kind)
    && (clientId.Some? ==> s.sessions[s.steps[k].sessionId].clientId == clientId.value)
  }

  ghost function SessionDay(s: State, k: Id): Day
    requires k in s.steps && s.steps[k].sessionId in s.sessions
  {
    s.sessions[s.steps[k].sessionId].day
  }

  /** `orderBy: { session: { date: 'asc' } }`: no eligible step has an earlier session date. */
  ghost predicate Earliest(s: State, k: Id, modality: string, kind: SessionType, clientId: Option<Id>) {
    && Eligible(s, k, modality, kind, clientId)
    && forall j :: Eligible(s, j, modality, kind, clientId) ==> SessionDay(s, k) <= SessionDay(s, j)
  }

  /** `getNextPendingStep(modalityId, type, clientId)`. Sessions of one day share one date,
      so ties are broken arbitrarily: any eligible step of the earliest day may be returned. */
  ghost function NextPending(s: State, modality: string, kind: SessionType, clientId: Option<Id>): (r: Option<Id>)
    ensures r.Some? ==> Earliest(s, r.value, modality, kind, clientId)
    ensures r.None? <==> forall j :: !Eligible(s, j, modality, kind, clientId)
  {
    var days := set k | k in s.steps && Eligible(s, k, modality, kind, clientId) :: SessionDay(s, k);
    assert forall j :: Eligible(s, j, modality, kind, clientId) ==> SessionDay(s, j) in days;
    if |days| == 0 then None
    else
      var m := MinOf(days);
      var k :| k in s.steps && Eligible(s, k, modality, kind, clientId) && SessionDay(s, k) == m;
      Some(k)
  }

  /* ---------- optim:start ---------- */

  /** Restart the clock of step `k`: new duration, start time now. */
  ghost function Retime(s: State, k: Id, dur: int, now: int): (s': State)
    requires k in s.steps
    ensures s'.steps.Keys == s.steps.Keys
    ensures s'.steps[k] == s.steps[k].(duration := dur, startAt := Some(now))
    ensures forall j :: j in s.steps && j != k ==> s'.steps[j] == s.steps[j]
    ensures s'.stations == s.stations && s'.sessions == s.sessions
    ensures s'.clients == s.clients && s'.modalities == s.modalities && s'.nextId == s.nextId
  {
    s.(steps := s.steps[k := s.steps[k].(duration := dur, startAt := Some(now))])
  }

  /** The `$transaction`: station IN_USE, step ACTIVE on it from now for `dur` seconds. */
  ghost function Activate(s: State, sid: Id, k: Id, dur: int, now: int): (s': State)
    requires sid in s.stations && k in s.steps
    ensures s'.stations.Keys == s.stations.Keys && s'.steps.Keys == s.steps.Keys
    ensures s'.stations[sid] == s.stations[sid].(status := InUse)
    ensures ActiveOn(s', k, sid) && s'.steps[k].startAt == Some(now) && s'.steps[k].duration == dur
    ensures s'.steps[k].sessionId == s.steps[k].sessionId && s'.steps[k].modality == s.steps[k].modality
    ensures s'.steps[k].endAt == s.steps[k].endAt
    ensures forall j :: j in s.steps && j != k ==> s'.steps[j] == s.steps[j]
    ensures forall t :: t in s.stations && t != sid ==> s'.stations[t] == s.stations[t]
    ensures s'.sessions == s.sessions && s'.clients == s.clients
    ensures s'.modalities == s.modalities && s'.nextId == s.nextId
  {
    s.(stations := s.stations[sid := s.stations[sid].(status := InUse)],
       steps := s.steps[k := s.steps[k].(status := Active, startAt := Some(now), duration := dur, stationId := Some(sid))])
  }

  /** The "adjust-timer" path taken when no pending step is found: it repeats the
      query for an ACTIVE step on the station and fails with "No pending or active step"
      when there is none. When there is one it retimes it, an update outside any
      transaction that stays, and then reads the client of `active`, which is `null` on
      this path, so the handler's `catch` fails the ack. */
  ghost function AdjustTimerFallback(s: State, sid: Id, dur: int, now: int): (out: (StartOutcome, State))
    ensures out.0 == StartFailed(NoStep) || out.0 == StartFailed(NullActive)
    ensures out.0 == StartFailed(NoStep) <==> forall k :: !ActiveOn(s, k, sid)
    ensures out.0 == StartFailed(NoStep) ==> out.1 == s
    ensures out.0 == StartFailed(NullActive) ==>
      && FindActiveOn(s, sid).Some? && ActiveOn(s, FindActiveOn(s, sid).value, sid)
      && out.1 == Retime(s, FindActiveOn(s, sid).value, dur, now)
  {
    match FindActiveOn(s, sid)
    case Some(a) => (StartFailed(NullActive), Retime(s, a, dur, now))
    case None => (StartFailed(NoStep), s)
  }

  /** Station found and not running: the state in which the guard-rail and the queue are consulted. */
  ghost predicate StationIdle(s: State, r: StartRequest) {
    && FindStation(s, r.category, r.index).Some?
    && FindActiveOn(s, FindStation(s, r.category, r.index).value).None?
  }

  ghost predicate Busy(s: State, r: StartRequest) {
    r.clientId.Some? && ClientHasActive(s, r.clientId.value)
  }

  /** Every check before the queue lookup passes. */
  ghost predicate ReachesQueue(s: State, r: StartRequest) {
    StationIdle(s, r) && !Busy(s, r) && ResolveDuration(r).Some?
  }

  ghost function QueueModality(s: State, r: StartRequest): string
    requires FindStation(s, r.category, r.index).Some?
  {
    s.stations[FindStation(s, r.category, r.index).value].modality
  }

  /** The `optim:start` handler. */
  ghost function OptimStart(s: State, r: StartRequest, now: int): (out: (StartOutcome, State))
    ensures FindStation(s, r.category, r.index).None? ==> out == (StartFailed(StationNotFound), s)
    ensures out.0 == StartFailed(StationNotFound) <==> FindStation(s, r.category, r.index).None?
    ensures out.0.StartFailed? ==> out.0.error != NullActive && out.1 == s
    ensures ReachesQueue(s, r) && (exists k :: Eligible(s, k, QueueModality(s, r), r.kind, r.clientId)) ==>
      out.0.Activated?
    ensures out.0.Retimed? <==>
      FindStation(s, r.category, r.index).Some? && !StationIdle(s, r)
    ensures out.0.Retimed? ==>
      FindActiveOn(s, FindStation(s, r.category, r.index).value) == Some(out.0.step)
      && out.1 == Retime(s, out.0.step, RetimeDuration(r), now)
    ensures out.0 == StartFailed(ClientBusy) <==> StationIdle(s, r) && Busy(s, r)
    ensures out.0 == StartFailed(UnknownDuration) <==>
      StationIdle(s, r) && !Busy(s, r) && r.durationSec.None? && r.category !in TIMER
    ensures out.0.Activated? ==>
      && ReachesQueue(s, r)
      && Earliest(s, out.0.step, QueueModality(s, r), r.kind, r.clientId)
      && out.1 == Activate(s, FindStation(s, r.category, r.index).value, out.0.step, ResolveDuration(r).value, now)
    ensures out.0 == StartFailed(NoStep) <==>
      ReachesQueue(s, r) && forall j :: !Eligible(s, j, QueueModality(s, r), r.kind, r.clientId)
  {
    match FindStation(s, r.category, r.index)
    case None => (StartFailed(StationNotFound), s)
    case Some(sid) =>
      match FindActiveOn(s, sid)
      case Some(a) => (Retimed(a), Retime(s, a, RetimeDuration(r), now))
      case None =>
        if r.clientId.Some? && ClientHasActive(s, r.clientId.value) then (StartFailed(ClientBusy), s)
        else
          match ResolveDuration(r)
          case None => (StartFailed(UnknownDuration), s)
          case Some(dur) =>
            match NextPending(s, s.stations[sid].modality, r.kind, r.clientId)
            case Some(k) => (Activated(k), Activate(s, sid, k, dur, now))
            case None => AdjustTimerFallback(s, sid, dur, now)
  }

  /* ---------- session:stop ---------- */

  datatype StopOutcome = Stopped(closed: Option<Id>) | StopFailed(error: Error)

  /** The ack is `ok` exactly for a stop; a failure carries its error's message. */
  function StopAck(o: StopOutcome): (a: Ack)
    ensures a.ok <==> o.Stopped?
    ensures a.msg.Some? <==> o.StopFailed?
    ensures o.StopFailed? ==> a.msg == Some(Message(o.error))
  {
    if o.StopFailed? then Ack(false, Some(Message(o.error))) else Ack(true, None)
  }

  /** Close step `k`: DONE, ended now. */
  ghost function Finish(s: State, k: Id, now: int): State
    requires k in s.steps
  {
    s.(steps := s.steps[k := s.steps[k].(status := Done, endAt := Some(now))])
  }

  /** The `session:stop` handler: close the station's ACTIVE step, if any, and free the station. */
  ghost function SessionStop(s: State, category: string, index: int, now: int): (out: (StopOutcome, State))
    ensures FindStation(s, category, index).None? ==> out == (StopFailed(StationNotFound), s)
    ensures FindStation(s, category, index).Some? ==> out.0.Stopped?
    ensures out.0.Stopped? && out.0.closed.Some? ==>
      var k := out.0.closed.value;
      && k in s.steps && k in out.1.steps
      && out.1.steps[k] == s.steps[k].(status := Done, endAt := Some(now))
    ensures out.0.Stopped? ==>
      && out.1.steps.Keys == s.steps.Keys
      && (forall k :: k in s.steps && Some(k) != out.0.closed ==> out.1.steps[k] == s.steps[k])
      && out.1.sessions == s.sessions && out.1.clients == s.clients
    ensures out.0.Stopped? ==>
      var sid := FindStation(s, category, index).value;
      && out.0.closed == FindActiveOn(s, sid)
      && out.1.stations == s.stations[sid := s.stations[sid].(status := Available)]
      && forall k: Id :: !ActiveOn(out.1, k, sid) || (Some(k) != out.0.closed && ActiveOn(s, k, sid))
  {
    match FindStation(s, category, index)
    case None => (StopFailed(StationNotFound), s)
    case Some(sid) => (Stopped(FindActiveOn(s, sid)), Release(s, sid, now))
  }

  /** Station `sid` after a stop: its ACTIVE step (if any) closed, the station AVAILABLE. */
  ghost function Release(s: State, sid: Id, now: int): (s': State)
    requires sid in s.stations
    ensures s'.stations == s.stations[sid := s.stations[sid].(status := Available)]
    ensures s'.steps.Keys == s.steps.Keys
    ensures FindActiveOn(s, sid).Some? ==>
      var k := FindActiveOn(s, sid).value;
      s'.steps[k] == s.steps[k].(status := Done, endAt := Some(now))
    ensures forall k :: k in s.steps && Some(k) != FindActiveOn(s, sid) ==> s'.steps[k] == s.steps[k]
    ensures s'.sessions == s.sessions && s'.clients == s.clients
    ensures s'.modalities == s.modalities && s'.nextId == s.nextId
  {
    var closed := FindActiveOn(s, sid);
    var s1 := if closed.Some? then Finish(s, closed.value, now) else s;
    s1.(stations := s1.stations[sid := s1.stations[sid].(status := Available)])
  }

  /* ---------- plan:terminate ---------- */

  /** The steps `forceFinishClient` selects: ACTIVE, in the client's session of today. */
  ghost predicate ToFinish(s: State, c: Id, today: Day, k: Id) {
    k in s.steps && s.steps[k].status == Active && SessionOf(s, s.steps[k].sessionId, c, today)
  }

  /** Station `sid` is held by one of those steps. */
  ghost predicate Freed(s: State, c: Id, today: Day, sid: Id) {
    exists k :: ToFinish(s, c, today, k) && s.steps[k].stationId == Some(sid)
  }

  /** `forceFinishClient(clientId)`. Its loop updates distinct steps and only sets stations
      AVAILABLE, so the order of iteration does not matter; the loop is one simultaneous update. */
  ghost function ForceFinishClient(s: State, c: Id, today: Day, now: int): (s': State)
    ensures s'.steps.Keys == s.steps.Keys && s'.stations.Keys == s.stations.Keys
    ensures s'.sessions == s.sessions && s'.clients == s.clients
    ensures s'.modalities == s.modalities && s'.nextId == s.nextId
    ensures forall k :: !ToFinish(s', c, today, k)
    ensures forall k :: ToFinish(s, c, today, k) ==> s'.steps[k].status == Done && s'.steps[k].endAt == Some(now)
    ensures forall k :: k in s.steps && !ToFinish(s, c, today, k) ==> s'.steps[k] == s.steps[k]
    ensures forall sid :: sid in s.stations && Freed(s, c, today, sid) ==> s'.stations[sid].status == Available
    ensures forall sid :: sid in s.stations && !Freed(s, c, today, sid) ==> s'.stations[sid] == s.stations[sid]
  {
    s.(steps := map k | k in s.steps ::
         if ToFinish(s, c, today, k) then s.steps[k].(status := Done, endAt := Some(now)) else s.steps[k],
       stations := map sid | sid in s.stations ::
         if Freed(s, c, today, sid) then s.stations[sid].(status := Available) else s.stations[sid])
  }

  /** The `plan:terminate` handler: force-finish, then delete today's steps and session. */
  ghost function PlanTerminate(s: State, c: Id, today: Day, now: int): (s': State)
    ensures forall x :: !SessionOf(s', x, c, today)
    ensures forall k :: k in s'.steps ==> !SessionOf(s, s'.steps[k].sessionId, c, today)
    ensures forall k :: k in s'.steps ==> k in s.steps && s'.steps[k] == s.steps[k]
    ensures forall x :: x in s'.sessions ==> x in s.sessions && s'.sessions[x] == s.sessions[x]
    ensures forall x :: x in s.sessions && !SessionOf(s, x, c, today) ==> x in s'.sessions && s'.sessions[x] == s.sessions[x]
    ensures forall k :: k in s.steps && !SessionOf(s, s.steps[k].sessionId, c, today) ==>
      k in s'.steps && s'.steps[k] == s.steps[k]
    ensures s'.stations.Keys == s.stations.Keys
    ensures forall sid :: sid in s.stations && !Freed(s, c, today, sid) ==> s'.stations[sid] == s.stations[sid]
    ensures s'.clients == s.clients && s'.modalities == s.modalities && s'.nextId == s.nextId
  {
    var f := ForceFinishClient(s, c, today, now);
    f.(steps := map k | k in f.steps && !SessionOf(f, f.steps[k].sessionId, c, today) :: f.steps[k],
       sessions := map x | x in f.sessions && !SessionOf(f, x, c, today) :: f.sessions[x])
  }
}

=== FILE: engine_proofs.dfy ===
/**
 * Properties of the assignment engine: every handler keeps the store's
 * invariants and never moves a step back in its lifecycle, the client
 * guard-rail holds exactly when a client id is supplied, and stopping and
 * terminating are idempotent.
 */
module EngineProofs {
  import opened Wrappers
  import opened Store
  import opened Timer
  import opened Engine

  /* ---------- optim:start ---------- */

  lemma RetimeShape(s: State, k: Id, dur: int, now: int)
    requires k in s.steps
    ensures var s' := Retime(s, k, dur, now);
      && SameShape(s, s') && Forward(s, s') && s'.stations == s.stations
      && (forall j, t :: ActiveOn(s', j, t) <==> ActiveOn(s, j, t))
      && (forall j, c :: OwnedBy(s', j, c) <==> OwnedBy(s, j, c))
      && (forall j :: j in s.steps ==> s'.steps[j].status == s.steps[j].status)
  {
  }

  lemma RetimePreservesInv(s: State, k: Id, dur: int, now: int)
    requires Inv(s) && k in s.steps
    ensures Inv(Retime(s, k, dur, now)) && Forward(s, Retime(s, k, dur, now))
  {
    var s' := Retime(s, k, dur, now);
    InvSplit(s);
    RetimeShape(s, k, dur, now);
    SameShapeStructure(s, s');
    RetimeRunning(s, k, dur, now);
    InvSplit(s');
  }

  lemma RetimeRunning(s: State, k: Id, dur: int, now: int)
    requires Running(s) && k in s.steps
    ensures Running(Retime(s, k, dur, now))
  {
    var s' := Retime(s, k, dur, now);
    RetimeShape(s, k, dur, now);
    assert Placed(s');
    assert OneActivePerStation(s');
    forall t | t in s'.stations
      ensures s'.stations[t].status == InUse <==> exists j :: ActiveOn(s', j, t)
    {
      assert (exists j :: ActiveOn(s', j, t)) <==> (exists j :: ActiveOn(s, j, t));
    }
  }

  lemma RetimeExclusive(s: State, k: Id, dur: int, now: int)
    requires ClientExclusive(s) && k in s.steps
    ensures ClientExclusive(Retime(s, k, dur, now))
  {
    RetimeShape(s, k, dur, now);
  }

  /** The steps ACTIVE after the commit are those before it and step `k` on station `sid`. */
  lemma ActivateActive(s: State, sid: Id, k: Id, dur: int, now: int, j: Id, t: Id)
    requires sid in s.stations && k in s.steps
    requires s.steps[k].status == Pending
    ensures ActiveOn(Activate(s, sid, k, dur, now), j, t) <==> (j == k && t == sid) || ActiveOn(s, j, t)
  {
  }

  /** The commit step of an assignment keeps the invariants when the step was PENDING and
      the station had no ACTIVE step. */
  lemma ActivatePreservesInv(s: State, sid: Id, k: Id, dur: int, now: int)
    requires Inv(s) && sid in s.stations && k in s.steps
    requires s.steps[k].status == Pending
    requires forall j :: !ActiveOn(s, j, sid)
    ensures Inv(Activate(s, sid, k, dur, now)) && Forward(s, Activate(s, sid, k, dur, now))
  {
    var s' := Activate(s, sid, k, dur, now);
    InvSplit(s);
    ActivateShape(s, sid, k, dur, now);
    SameShapeStructure(s, s');
    ActivateOneActive(s, sid, k, dur, now);
    ActivateInUse(s, sid, k, dur, now);
    ActivatePlaced(s, sid, k, dur, now);
    InvSplit(s');
  }

  lemma ActivateShape(s: State, sid: Id, k: Id, dur: int, now: int)
    requires sid in s.stations && k in s.steps
    requires s.steps[k].status == Pending
    ensures SameShape(s, Activate(s, sid, k, dur, now)) && Forward(s, Activate(s, sid, k, dur, now))
  {
  }

  lemma ActivatePlaced(s: State, sid: Id, k: Id, dur: int, now: int)
    requires Placed(s) && sid in s.stations && k in s.steps
    ensures Placed(Activate(s, sid, k, dur, now))
  {
  }

  lemma ActivateOneActive(s: State, sid: Id, k: Id, dur: int, now: int)
    requires OneActivePerStation(s) && sid in s.stations && k in s.steps
    requires s.steps[k].status == Pending
    requires forall j :: !ActiveOn(s, j, sid)
    ensures OneActivePerStation(Activate(s, sid, k, dur, now))
  {
    var s' := Activate(s, sid, k, dur, now);
    forall j, j', t | ActiveOn(s', j, t) && ActiveOn(s', j', t)
      ensures j == j'
    {
      ActivateActive(s, sid, k, dur, now, j, t);
      ActivateActive(s, sid, k, dur, now, j', t);
    }
  }

  lemma ActivateInUse(s: State, sid: Id, k: Id, dur: int, now: int)
    requires InUseIffActive(s) && sid in s.stations && k in s.steps
    requires s.steps[k].status == Pending
    requires forall j :: !ActiveOn(s, j, sid)
    ensures InUseIffActive(Activate(s, sid, k, dur, now))
  {
    var s' := Activate(s, sid, k, dur, now);
    forall t | t in s'.stations
      ensures s'.stations[t].status == InUse <==> exists j :: ActiveOn(s', j, t)
    {
      if t == sid {
        ActivateActive(s, sid, k, dur, now, k, sid);
      } else {
        assert s'.stations[t] == s.stations[t];
        forall j ensures ActiveOn(s', j, t) <==> ActiveOn(s, j, t) {
          ActivateActive(s, sid, k, dur, now, j, t);
        }
      }
    }
  }

  /** `optim:start` keeps the invariants and moves steps only forward, on every path. */
  lemma OptimStartPreservesInv(s: State, r: StartRequest, now: int)
    requires Inv(s)
    ensures Inv(OptimStart(s, r, now).1)
    ensures Forward(s, OptimStart(s, r, now).1)
    ensures OptimStart(s, r, now).1.steps.Keys == s.steps.Keys
  {
    var out := OptimStart(s, r, now);
    match out.0
    case StartFailed(_) =>
    case Retimed(a) =>
      StartRetimed(s, r, now);
      RetimePreservesInv(s, a, RetimeDuration(r), now);
    case Activated(k) =>
      StartActivated(s, r, now);
      var sid := FindStation(s, r.category, r.index).value;
      ActivatePreservesInv(s, sid, k, ResolveDuration(r).value, now);
  }

  /** Invariant 4 (one ACTIVE step per client) is kept whenever the request names its client. */
  lemma OptimStartKeepsExclusive(s: State, r: StartRequest, now: int)
    requires Inv(s) && ClientExclusive(s)
    requires r.clientId.Some?
    ensures ClientExclusive(OptimStart(s, r, now).1)
  {
    var out := OptimStart(s, r, now);
    match out.0
    case StartFailed(_) =>
    case Retimed(a) =>
      StartRetimed(s, r, now);
      RetimeExclusive(s, a, RetimeDuration(r), now);
    case Activated(k) =>
      StartActivated(s, r, now);
      var sid := FindStation(s, r.category, r.index).value;
      assert Eligible(s, k, QueueModality(s, r), r.kind, r.clientId);
      ActivateExclusive(s, sid, k, ResolveDuration(r).value, now, r.clientId.value);
  }

  /** Starting a step of a client with no ACTIVE step keeps one ACTIVE step per client. */
  lemma ActivateExclusive(s: State, sid: Id, k: Id, dur: int, now: int, c: Id)
    requires ClientExclusive(s) && sid in s.stations && k in s.steps
    requires OwnedBy(s, k, c) && !ClientHasActive(s, c)
    ensures ClientExclusive(Activate(s, sid, k, dur, now))
  {
    var s' := Activate(s, sid, k, dur, now);
    assert forall j, c' :: OwnedBy(s', j, c') <==> OwnedBy(s, j, c');
    forall j, j', c' | OwnedBy(s', j, c') && OwnedBy(s', j', c') && s'.steps[j].status == Active && s'.steps[j'].status == Active
      ensures j == j'
    {
      if j != k && j' != k {
        assert s.steps[j].status == Active && s.steps[j'].status == Active;
      }
    }
  }

  /** One client, running on the CRYO station in yesterday's session, with HBOT pending in today's. */
  function TwoSessions(): State {
    State(
      {"CRYO", "HBOT"},
      map[0 := Station("CRYO", 0, InUse, "CRYO"), 1 := Station("HBOT", 0, Available, "HBOT")],
      map[2 := Client("Ann", "B")],
      map[3 := Session(2, 1, Unspec, ""), 4 := Session(2, 2, Unspec, "")],
      map[5 := Step(3, "CRYO", Active, Some(0), Some(0), None, 180),
          6 := Step(4, "HBOT", Pending, None, None, None, 0)],
      7)
  }

  lemma TwoSessionsKeys()
    ensures var s := TwoSessions();
      && s.stations.Keys == {0, 1} && s.clients.Keys == {2}
      && s.sessions.Keys == {3, 4} && s.steps.Keys == {5, 6}
      && (forall k, sid :: ActiveOn(s, k, sid) <==> k == 5 && sid == 0)
  {
  }

  lemma TwoSessionsStructure()
    ensures Structure(TwoSessions())
  {
    TwoSessionsKeys();
  }

  lemma TwoSessionsRunning()
    ensures Running(TwoSessions()) && ClientExclusive(TwoSessions())
  {
    var s := TwoSessions();
    TwoSessionsKeys();
    assert ActiveOn(s, 5, 0);
    assert forall k, c :: OwnedBy(s, k, c) && s.steps[k].status == Active ==> k == 5;
  }

  lemma TwoSessionsInv()
    ensures Inv(TwoSessions()) && ClientExclusive(TwoSessions())
  {
    TwoSessionsStructure();
    TwoSessionsRunning();
    InvSplit(TwoSessions());
  }

  /** An HBOT request without a client id picks the pending HBOT step. */
  lemma TwoSessionsStart(now: int)
    ensures OptimStart(TwoSessions(), StartRequest("HBOT", 0, MT, None, None), now).0 == Activated(6)
  {
    var s := TwoSessions();
    var r := StartRequest("HBOT", 0, MT, None, None);
    TwoSessionsKeys();
    assert forall sid :: StationAt(s, sid, "HBOT", 0) <==> sid == 1;
    assert StationAt(s, 1, "HBOT", 0);
    assert FindStation(s, "HBOT", 0) == Some(1);
    assert StationIdle(s, r);
    assert Eligible(s, 6, "HBOT", MT, None);
    assert forall j :: Eligible(s, j, "HBOT", MT, None) ==> j == 6;
  }

  /** Without a client id the guard-rail is skipped: a client running on one station can be
      put on a second one from another session's queue. */
  lemma ExclusivityNeedsClientId()
    ensures exists s: State, r: StartRequest, now: int ::
      Inv(s) && ClientExclusive(s) && !ClientExclusive(OptimStart(s, r, now).1)
  {
    var s := TwoSessions();
    var r := StartRequest("HBOT", 0, MT, None, None);
    TwoSessionsInv();
    TwoSessionsStart(0);
    var s' := OptimStart(s, r, 0).1;
    assert s'.steps[5] == s.steps[5] && s'.steps[6].status == Active;
    assert OwnedBy(s', 5, 2) && OwnedBy(s', 6, 2);
  }

  /** With the invariants, a request for a station that runs step `a` always retimes `a`,
      changing nothing but its duration and start time. */
  lemma StartOnRunningStation(s: State, r: StartRequest, now: int, sid: Id, a: Id)
    requires Inv(s)
    requires StationAt(s, sid, r.category, r.index) && ActiveOn(s, a, sid)
    ensures OptimStart(s, r, now).0 == Retimed(a)
    ensures var s' := OptimStart(s, r, now).1;
      && s'.stations == s.stations && s'.sessions == s.sessions && s'.clients == s.clients
      && s'.steps.Keys == s.steps.Keys
      && (forall k :: k in s.steps && k != a ==> s'.steps[k] == s.steps[k])
      && s'.steps[a] == s.steps[a].(duration := RetimeDuration(r), startAt := Some(now))
  {
  }

  /** With the invariants, an idle station and a client already running elsewhere
      is always refused, and nothing changes. */
  lemma StartBusyClient(s: State, r: StartRequest, now: int, sid: Id, k: Id)
    requires Inv(s)
    requires StationAt(s, sid, r.category, r.index) && forall j :: !ActiveOn(s, j, sid)
    requires r.clientId.Some? && OwnedBy(s, k, r.clientId.value) && s.steps[k].status == Active
    ensures OptimStart(s, r, now) == (StartFailed(ClientBusy), s)
  {
  }

  /** Whenever `optim:start` reaches the adjust-timer fallback, the station has just been
      found idle, so the fallback's own query finds nothing and it always fails. */
  lemma FallbackAlwaysFails(s: State, r: StartRequest, now: int)
    requires ReachesQueue(s, r)
    ensures AdjustTimerFallback(s, FindStation(s, r.category, r.index).value, ResolveDuration(r).value, now)
      == (StartFailed(NoStep), s)
  {
  }

  /** Called on a station with an ACTIVE step, the fallback keeps its retime yet answers
      the caller with a failed ack. */
  lemma FallbackRetimesThenFails(s: State, sid: Id, k: Id, dur: int, now: int)
    requires ActiveOn(s, k, sid)
    ensures var out := AdjustTimerFallback(s, sid, dur, now);
      && !StartAck(out.0).ok
      && exists a :: ActiveOn(s, a, sid) && out.1 == Retime(s, a, dur, now)
  {
    var a := FindActiveOn(s, sid).value;
    assert ActiveOn(s, a, sid);
  }

  /* ---------- session:stop ---------- */

  /** After a release the steps ACTIVE are those before it, minus those on the released station. */
  lemma ReleaseActive(s: State, sid: Id, now: int, j: Id, t: Id)
    requires OneActivePerStation(s) && sid in s.stations
    ensures ActiveOn(Release(s, sid, now), j, t) <==> ActiveOn(s, j, t) && t != sid
  {
    var s' := Release(s, sid, now);
    match FindActiveOn(s, sid)
    case None =>
      assert s'.steps == s.steps;
    case Some(c) =>
      assert ActiveOn(s, c, sid);
      assert s'.steps == s.steps[c := s.steps[c].(status := Done, endAt := Some(now))];
      if j == c {
        assert !ActiveOn(s', j, t);
      } else {
        assert j in s'.steps <==> j in s.steps;
        assert j in s.steps ==> s'.steps[j] == s.steps[j];
      }
  }

  lemma ReleaseShape(s: State, sid: Id, now: int)
    requires sid in s.stations
    ensures SameShape(s, Release(s, sid, now)) && Forward(s, Release(s, sid, now))
  {
  }

  lemma ReleasePreservesInv(s: State, sid: Id, now: int)
    requires Inv(s) && sid in s.stations
    ensures Inv(Release(s, sid, now)) && Forward(s, Release(s, sid, now))
  {
    var s' := Release(s, sid, now);
    InvSplit(s);
    ReleaseShape(s, sid, now);
    SameShapeStructure(s, s');
    ReleasePlaced(s, sid, now);
    ReleaseOneActive(s, sid, now);
    ReleaseInUse(s, sid, now);
    InvSplit(s');
  }

  lemma ReleasePlaced(s: State, sid: Id, now: int)
    requires Placed(s) && sid in s.stations
    ensures Placed(Release(s, sid, now))
  {
  }

  lemma ReleaseOneActive(s: State, sid: Id, now: int)
    requires OneActivePerStation(s) && sid in s.stations
    ensures OneActivePerStation(Release(s, sid, now))
  {
    var s' := Release(s, sid, now);
    forall j, j', u | ActiveOn(s', j, u) && ActiveOn(s', j', u)
      ensures j == j'
    {
      ReleaseActive(s, sid, now, j, u);
      ReleaseActive(s, sid, now, j', u);
    }
  }

  lemma ReleaseInUse(s: State, sid: Id, now: int)
    requires OneActivePerStation(s) && InUseIffActive(s) && sid in s.stations
    ensures InUseIffActive(Release(s, sid, now))
  {
    var s' := Release(s, sid, now);
    forall u | u in s'.stations
      ensures s'.stations[u].status == InUse <==> exists j :: ActiveOn(s', j, u)
    {
      forall j ensures ActiveOn(s', j, u) <==> ActiveOn(s, j, u) && u != sid {
        ReleaseActive(s, sid, now, j, u);
      }
      if u != sid {
        assert s'.stations[u] == s.stations[u];
      }
    }
  }

  lemma SessionStopPreservesInv(s: State, category: string, index: int, now: int)
    requires Inv(s)
    ensures Inv(SessionStop(s, category, index, now).1)
    ensures Forward(s, SessionStop(s, category, index, now).1)
  {
    if FindStation(s, category, index).Some? {
      ReleasePreservesInv(s, FindStation(s, category, index).value, now);
    }
  }

  /** With the invariants, stopping a station leaves it AVAILABLE with no ACTIVE step,
      closes the one that ran there, and touches no other step or station. */
  lemma SessionStopFrame(s: State, category: string, index: int, now: int, sid: Id)
    requires Inv(s) && StationAt(s, sid, category, index)
    ensures var (o, s') := SessionStop(s, category, index, now);
      && o.Stopped?
      && s'.stations[sid].status == Available
      && (forall k :: !ActiveOn(s', k, sid))
      && (forall k :: ActiveOn(s, k, sid) ==> o.closed == Some(k) && s'.steps[k].status == Done && s'.steps[k].endAt == Some(now))
      && (forall t :: t in s.stations && t != sid ==> s'.stations[t] == s.stations[t])
      && (forall k :: k in s.steps && !ActiveOn(s, k, sid) ==> s'.steps[k] == s.steps[k])
      && s'.steps.Keys == s.steps.Keys && s'.sessions == s.sessions
  {
    assert FindStation(s, category, index) == Some(sid);
    forall k ensures !ActiveOn(Release(s, sid, now), k, sid) {
      ReleaseActive(s, sid, now, k, sid);
    }
  }

  /** Releasing a station twice is releasing it once. */
  lemma ReleaseTwice(s: State, sid: Id, now: int, later: int)
    requires OneActivePerStation(s) && sid in s.stations
    ensures Release(Release(s, sid, now), sid, later) == Release(s, sid, now)
  {
    var s1 := Release(s, sid, now);
    forall k ensures !ActiveOn(s1, k, sid) {
      ReleaseActive(s, sid, now, k, sid);
    }
    assert FindActiveOn(s1, sid) == None;
    assert s1.stations[sid].status == Available;
    assert s1.stations[sid := s1.stations[sid].(status := Available)] == s1.stations;
  }

  /** A second stop of the same station changes nothing. */
  lemma SessionStopIdempotent(s: State, category: string, index: int, now: int, later: int)
    requires Inv(s)
    ensures var s1 := SessionStop(s, category, index, now).1;
      SessionStop(s1, category, index, later).1 == s1
  {
    if FindStation(s, category, index).Some? {
      var sid := FindStation(s, category, index).value;
      var s1 := Release(s, sid, now);
      ReleaseShape(s, sid, now);
      SameShapeFindStation(s, s1, category, index);
      ReleaseTwice(s, sid, now, later);
    }
  }

  /** Invariant 4 under `session:stop`: a stop only closes a step, so no client gains one. */
  lemma SessionStopKeepsExclusive(s: State, category: string, index: int, now: int)
    requires ClientExclusive(s)
    ensures ClientExclusive(SessionStop(s, category, index, now).1)
  {
    var s' := SessionStop(s, category, index, now).1;
    assert NoNewActive(s, s');
    NoNewActiveKeepsExclusive(s, s');
  }

  /** Releasing a station right after the commit closes the step just started there. */
  lemma ReleaseAfterActivate(s: State, sid: Id, k: Id, dur: int, now: int, later: int)
    requires Inv(s) && sid in s.stations && k in s.steps
    requires s.steps[k].status == Pending
    requires forall j :: !ActiveOn(s, j, sid)
    ensures var s1 := Activate(s, sid, k, dur, now);
      && FindActiveOn(s1, sid) == Some(k)
      && Release(s1, sid, later).steps[k] == s1.steps[k].(status := Done, endAt := Some(later))
      && Release(s1, sid, later).stations == s.stations
  {
    var s1 := Activate(s, sid, k, dur, now);
    ActivateOneActive(s, sid, k, dur, now);
    assert ActiveOn(s1, k, sid);
    assert FindActiveOn(s1, sid) == Some(k) by {
      var f := FindActiveOn(s1, sid).value;
      assert ActiveOn(s1, f, sid);
    }
    var s2 := Release(s1, sid, later);
    assert s2.steps == s1.steps[k := s1.steps[k].(status := Done, endAt := Some(later))];
    assert s.stations[sid].status == Available;
    assert s2.stations == s1.stations[sid := s1.stations[sid].(status := Available)];
    assert s2.stations == s.stations;
  }

  /** What a `Retimed` outcome tells about the state it started from. */
  lemma StartRetimed(s: State, r: StartRequest, now: int)
    requires OptimStart(s, r, now).0.Retimed?
    ensures OptimStart(s, r, now).0.step in s.steps
    ensures OptimStart(s, r, now).1 == Retime(s, OptimStart(s, r, now).0.step, RetimeDuration(r), now)
  {
  }

  /** What an `Activated` outcome tells about the state it started from. */
  lemma StartActivated(s: State, r: StartRequest, now: int)
    requires OptimStart(s, r, now).0.Activated?
    ensures FindStation(s, r.category, r.index).Some?
    ensures var sid := FindStation(s, r.category, r.index).value;
      var k := OptimStart(s, r, now).0.step;
      && StationAt(s, sid, r.category, r.index) && k in s.steps && s.steps[k].status == Pending
      && (forall j :: !ActiveOn(s, j, sid))
      && ResolveDuration(r).Some?
      && OptimStart(s, r, now).1 == Activate(s, sid, k, ResolveDuration(r).value, now)
  {
  }

  /** A step assigned by `optim:start` is closed by the next stop of the same station,
      and the stations are as they were before the assignment. */
  lemma StartThenStop(s: State, r: StartRequest, now: int, later: int)
    requires Inv(s)
    requires OptimStart(s, r, now).0.Activated?
    ensures var (o, s1) := OptimStart(s, r, now);
      var (o2, s2) := SessionStop(s1, r.category, r.index, later);
      && o2 == Stopped(Some(o.step))
      && s2.steps[o.step].status == Done && s2.steps[o.step].endAt == Some(later)
      && s2.steps[o.step].startAt == Some(now)
      && s2.stations == s.stations
  {
    StartActivated(s, r, now);
    var sid := FindStation(s, r.category, r.index).value;
    var k := OptimStart(s, r, now).0.step;
    var dur := ResolveDuration(r).value;
    var s1 := Activate(s, sid, k, dur, now);
    ActivateShape(s, sid, k, dur, now);
    SameShapeFindStation(s, s1, r.category, r.index);
    ReleaseAfterActivate(s, sid, k, dur, now, later);
  }

  /* ---------- plan:terminate ---------- */

  lemma ForceFinishActive(s: State, c: Id, today: Day, now: int, j: Id, t: Id)
    ensures ActiveOn(ForceFinishClient(s, c, today, now), j, t) <==> ActiveOn(s, j, t) && !ToFinish(s, c, today, j)
  {
  }

  lemma ForceFinishShape(s: State, c: Id, today: Day, now: int)
    ensures var s' := ForceFinishClient(s, c, today, now);
      && SameShape(s, s') && Forward(s, s')
      && (forall j, c' :: OwnedBy(s', j, c') <==> OwnedBy(s, j, c'))
  {
  }

  lemma ForceFinishPreservesInv(s: State, c: Id, today: Day, now: int)
    requires Inv(s)
    ensures Inv(ForceFinishClient(s, c, today, now))
    ensures Forward(s, ForceFinishClient(s, c, today, now))
  {
    var s' := ForceFinishClient(s, c, today, now);
    InvSplit(s);
    ForceFinishShape(s, c, today, now);
    SameShapeStructure(s, s');
    ForceFinishPlaced(s, c, today, now);
    ForceFinishOneActive(s, c, today, now);
    ForceFinishInUse(s, c, today, now);
    InvSplit(s');
  }

  lemma ForceFinishPlaced(s: State, c: Id, today: Day, now: int)
    requires Placed(s)
    ensures Placed(ForceFinishClient(s, c, today, now))
  {
  }

  lemma ForceFinishOneActive(s: State, c: Id, today: Day, now: int)
    requires OneActivePerStation(s)
    ensures OneActivePerStation(ForceFinishClient(s, c, today, now))
  {
    var s' := ForceFinishClient(s, c, today, now);
    forall j, j', u | ActiveOn(s', j, u) && ActiveOn(s', j', u)
      ensures j == j'
    {
      ForceFinishActive(s, c, today, now, j, u);
      ForceFinishActive(s, c, today, now, j', u);
    }
  }

  lemma ForceFinishInUse(s: State, c: Id, today: Day, now: int)
    requires InUseIffActive(s) && OneActivePerStation(s)
    ensures InUseIffActive(ForceFinishClient(s, c, today, now))
  {
    var s' := ForceFinishClient(s, c, today, now);
    forall u | u in s'.stations
      ensures s'.stations[u].status == InUse <==> exists j :: ActiveOn(s', j, u)
    {
      forall j ensures ActiveOn(s', j, u) <==> ActiveOn(s, j, u) && !ToFinish(s, c, today, j) {
        ForceFinishActive(s, c, today, now, j, u);
      }
      if Freed(s, c, today, u) {
        var k :| ToFinish(s, c, today, k) && s.steps[k].stationId == Some(u);
        assert ActiveOn(s, k, u);
      } else {
        assert forall j :: ActiveOn(s, j, u) ==> !ToFinish(s, c, today, j);
      }
    }
  }

  lemma PlanTerminateActive(s: State, c: Id, today: Day, now: int, j: Id, t: Id)
    ensures ActiveOn(PlanTerminate(s, c, today, now), j, t) <==> ActiveOn(ForceFinishClient(s, c, today, now), j, t)
  {
    var f := ForceFinishClient(s, c, today, now);
    if ActiveOn(f, j, t) {
      assert !ToFinish(f, c, today, j);
    }
  }

  /** Deleting the client's sessions of the day and their steps keeps the records well linked. */
  lemma PlanTerminateStructure(s: State, c: Id, today: Day, now: int)
    requires Structure(ForceFinishClient(s, c, today, now))
    ensures Structure(PlanTerminate(s, c, today, now))
  {
    var f := ForceFinishClient(s, c, today, now);
    var s' := PlanTerminate(s, c, today, now);
    assert s'.stations == f.stations && s'.clients == f.clients;
    assert forall x :: x in s'.sessions ==> x in f.sessions && s'.sessions[x] == f.sessions[x];
    assert forall k :: k in s'.steps ==> k in f.steps && s'.steps[k] == f.steps[k];
    forall k | k in s'.steps
      ensures s'.steps[k].sessionId in s'.sessions
    {
      assert !SessionOf(f, f.steps[k].sessionId, c, today);
    }
  }

  lemma PlanTerminateRunning(s: State, c: Id, today: Day, now: int)
    requires Running(ForceFinishClient(s, c, today, now))
    ensures Running(PlanTerminate(s, c, today, now))
  {
    var f := ForceFinishClient(s, c, today, now);
    var s' := PlanTerminate(s, c, today, now);
    assert s'.stations == f.stations;
    assert forall k :: k in s'.steps ==> k in f.steps && s'.steps[k] == f.steps[k];
    forall j, j', u | ActiveOn(s', j, u) && ActiveOn(s', j', u)
      ensures j == j'
    {
      PlanTerminateActive(s, c, today, now, j, u);
      PlanTerminateActive(s, c, today, now, j', u);
    }
    forall u | u in s'.stations
      ensures s'.stations[u].status == InUse <==> exists j :: ActiveOn(s', j, u)
    {
      forall j ensures ActiveOn(s', j, u) <==> ActiveOn(f, j, u) {
        PlanTerminateActive(s, c, today, now, j, u);
      }
    }
  }

  lemma PlanTerminatePreservesInv(s: State, c: Id, today: Day, now: int)
    requires Inv(s)
    ensures Inv(PlanTerminate(s, c, today, now))
    ensures Forward(s, PlanTerminate(s, c, today, now))
  {
    var f := ForceFinishClient(s, c, today, now);
    ForceFinishPreservesInv(s, c, today, now);
    InvSplit(f);
    PlanTerminateStructure(s, c, today, now);
    PlanTerminateRunning(s, c, today, now);
    InvSplit(PlanTerminate(s, c, today, now));
  }

  /** Terminating twice is terminating once. */
  lemma PlanTerminateIdempotent(s: State, c: Id, today: Day, now: int, later: int)
    ensures PlanTerminate(PlanTerminate(s, c, today, now), c, today, later) == PlanTerminate(s, c, today, now)
  {
    var s1 := PlanTerminate(s, c, today, now);
    var f := ForceFinishClient(s1, c, today, later);
    assert forall k :: !ToFinish(s1, c, today, k);
    assert forall t :: !Freed(s1, c, today, t);
    assert f.steps == s1.steps;
    assert f.stations == s1.stations;
    assert f == s1;
  }

  /** Invariant 4 under `plan:terminate`: the survivors are unchanged steps of unchanged sessions. */
  lemma PlanTerminateKeepsExclusive(s: State, c: Id, today: Day, now: int)
    requires ClientExclusive(s)
    ensures ClientExclusive(PlanTerminate(s, c, today, now))
  {
    var s' := PlanTerminate(s, c, today, now);
    assert NoNewActive(s, s');
    NoNewActiveKeepsExclusive(s, s');
  }
}

=== FILE: entries.dfy ===
/** `Object.fromEntries` over a list of key/value pairs: a later pair overwrites an earlier one. */
module Entries {

  function Keys<K, V>(es: seq<(K, V)>): (ks: seq<K>)
    ensures |ks| == |es|
    ensures forall i :: 0 <= i < |es| ==> ks[i] == es[i].0
  {
    seq(|es|, i requires 0 <= i < |es| => es[i].0)
  }

  function Values<K, V>(es: seq<(K, V)>): (vs: seq<V>)
    ensures |vs| == |es|
    ensures forall i :: 0 <= i < |es| ==> vs[i] == es[i].1
  {
    seq(|es|, i requires 0 <= i < |es| => es[i].1)
  }

  /** Each pair turned around, as in `entries.map(([k, v]) => [v, k])`. */
  function Swap<K, V>(es: seq<(K, V)>): (sw: seq<(V, K)>)
    ensures |sw| == |es|
    ensures forall i :: 0 <= i < |es| ==> sw[i] == (es[i].1, es[i].0)
  {
    seq(|es|, i requires 0 <= i < |es| => (es[i].1, es[i].0))
  }

  ghost predicate Distinct<T>(s: seq<T>) {
    forall i, j :: 0 <= i < j < |s| ==> s[i] != s[j]
  }

  function FromEntries<K, V>(es: seq<(K, V)>): (m: map<K, V>)
    ensures m.Keys == set i | 0 <= i < |es| :: es[i].0
    ensures forall k :: k in m ==> exists i :: 0 <= i < |es| && es[i] == (k, m[k])
  {
    if es == [] then map[]
    else
      var front := es[..|es| - 1];
      var last := es[|es| - 1];
      var m0 := FromEntries(front);
      assert forall i :: 0 <= i < |front| ==> front[i] == es[i];
      m0[last.0 := last.1]
  }

  /** With pairwise distinct keys nothing is overwritten: every pair survives. */
  lemma {:induction false} FromEntriesLookup<K, V>(es: seq<(K, V)>, i: nat)
    requires Distinct(Keys(es))
    requires i < |es|
    ensures es[i].0 in FromEntries(es) && FromEntries(es)[es[i].0] == es[i].1
  {
    var front := es[..|es| - 1];
    if i < |es| - 1 {
      assert Keys(front) == Keys(es)[..|es| - 1];
      assert front[i] == es[i];
      FromEntriesLookup(front, i);
      assert Keys(es)[i] != Keys(es)[|es| - 1];
    }
  }

  /** With pairwise distinct keys the map has one key per pair. */
  lemma {:induction false} FromEntriesSize<K, V>(es: seq<(K, V)>)
    requires Distinct(Keys(es))
    ensures |FromEntries(es)| == |es|
  {
    if es != [] {
      var front := es[..|es| - 1];
      assert Keys(front) == Keys(es)[..|es| - 1];
      FromEntriesSize(front);
      var last := es[|es| - 1];
      assert forall i :: 0 <= i < |front| ==> front[i].0 == Keys(es)[i] != Keys(es)[|es| - 1] == last.0;
      assert last.0 !in FromEntries(front);
    }
  }

  /** When keys and values are both pairwise distinct, the map built from the swapped pairs
      undoes the map built from the pairs, in both directions. */
  lemma InvertEntries<K, V>(es: seq<(K, V)>)
    requires Distinct(Keys(es)) && Distinct(Values(es))
    ensures forall k :: k in FromEntries(es) ==>
      FromEntries(es)[k] in FromEntries(Swap(es)) && FromEntries(Swap(es))[FromEntries(es)[k]] == k
    ensures forall v :: v in FromEntries(Swap(es)) ==>
      FromEntries(Swap(es))[v] in FromEntries(es) && FromEntries(es)[FromEntries(Swap(es))[v]] == v
  {
    var m, w := FromEntries(es), FromEntries(Swap(es));
    assert Keys(Swap(es)) == Values(es);
    forall k | k in m ensures m[k] in w && w[m[k]] == k {
      var i :| 0 <= i < |es| && es[i] == (k, m[k]);
      FromEntriesLookup(Swap(es), i);
    }
    forall v | v in w ensures w[v] in m && m[w[v]] == v {
      var i :| 0 <= i < |Swap(es)| && Swap(es)[i] == (v, w[v]);
      FromEntriesLookup(es, i);
    }
  }
}

=== FILE: extremes.dfy ===
/** Least and greatest elements of finite sets of integers: `orderBy ... asc/desc` followed by `findFirst`. */
module Extremes {

  lemma NonEmpty(xs: set<int>)
    requires |xs| > 0
    ensures exists a :: a in xs
  {
    if forall a :: a !in xs {
      assert false;
    }
  }

  ghost function MinOf(xs: set<int>): (m: int)
    requires |xs| > 0
    ensures m in xs && forall x :: x in xs ==> m <= x
  {
    NonEmpty(xs);
    var a :| a in xs;
    var rest := xs - {a};
    if |rest| == 0 then
      assert xs == {a};
      a
    else
      var b := MinOf(rest);
      if a <= b then a else b
  }

  ghost function MaxOf(xs: set<int>): (m: int)
    requires |xs| > 0
    ensures m in xs && forall x :: x in xs ==> x <= m
  {
    NonEmpty(xs);
    var a :| a in xs;
    var rest := xs - {a};
    if |rest| == 0 then
      assert xs == {a};
      a
    else
      var b := MaxOf(rest);
      if a >= b then a else b
  }
}

=== FILE: jsnumber.dfy ===
/**
 * The few JavaScript number and string conversions the tracker relies on,
 * restricted to integer values: `x | 0`, truncating division, `%`,
 * `Number.prototype.toString`, `padStart(2, '0')` and `parseInt(s, 10)`.
 */
module JsNumber {
  import opened Wrappers

  const TWO_31: int := 0x8000_0000
  const TWO_32: int := 0x1_0000_0000

  /** ToInt32, the conversion behind `x | 0`: wrap modulo 2^32 into the signed 32-bit range. */
  function ToInt32(x: int): (r: int)
    ensures -TWO_31 <= r < TWO_31
    ensures (r - x) % TWO_32 == 0
    ensures -TWO_31 <= x < TWO_31 ==> r == x
  {
    (x + TWO_31) % TWO_32 - TWO_31
  }

  /** `a / b` rounded toward zero, as `| 0` rounds a quotient before wrapping it. */
  function TruncDiv(a: int, b: int): (q: int)
    requires b > 0
    ensures a >= 0 ==> 0 <= q && q * b <= a < q * b + b
    ensures a < 0 ==> q <= 0 && q * b - b < a <= q * b
  {
    if a >= 0 then
      DivBounds(a, b);
      a / b
    else
      DivBounds(-a, b);
      -((-a) / b)
  }

  lemma DivBounds(a: nat, b: int)
    requires b > 0
    ensures 0 <= a / b && (a / b) * b <= a < (a / b) * b + b
  {
  }

  /** JavaScript's `a % b`: the remainder carries the sign of the dividend. */
  function JsRem(a: int, b: int): (r: int)
    requires b > 0
    ensures a == TruncDiv(a, b) * b + r
    ensures a >= 0 ==> 0 <= r < b
    ensures a < 0 ==> -b < r <= 0
  {
    a - TruncDiv(a, b) * b
  }

  lemma TruncDivMonotone(a: int, a': int, b: int)
    requires b > 0 && a <= a'
    ensures TruncDiv(a, b) <= TruncDiv(a', b)
  {
    var q, q' := TruncDiv(a, b), TruncDiv(a', b);
    if q' + 1 <= q {
      MulMonotone(q' + 1, q, b);
    }
  }

  lemma MulMonotone(x: int, y: int, b: int)
    requires x <= y && b > 0
    ensures x * b <= y * b
  {
  }

  predicate IsDigit(c: char) {
    '0' <= c <= '9'
  }

  predicate AllDigits(s: string) {
    forall i :: 0 <= i < |s| ==> IsDigit(s[i])
  }

  function DigitVal(c: char): (d: nat)
    requires IsDigit(c)
    ensures d < 10
  {
    c as int - '0' as int
  }

  function DigitChar(d: nat): (c: char)
    requires d < 10
    ensures IsDigit(c) && DigitVal(c) == d
  {
    (d + '0' as int) as char
  }

  /** The number a decimal digit string denotes, most significant digit first. */
  function DigitsValue(s: string): nat
    requires AllDigits(s)
  {
    if s == [] then 0 else DigitsValue(s[..|s| - 1]) * 10 + DigitVal(s[|s| - 1])
  }

  /** `n.toString()` for a non-negative integer: shortest decimal numeral, no leading zero. */
  function NatToString(n: nat): (t: string)
    ensures |t| >= 1 && AllDigits(t)
    ensures DigitsValue(t) == n
    ensures |t| == 1 <==> n < 10
    ensures |t| > 1 ==> t[0] != '0'
  {
    if n < 10 then [DigitChar(n)]
    else
      var front := NatToString(n / 10);
      var t := front + [DigitChar(n % 10)];
      assert t[..|t| - 1] == front;
      t
  }

  /** `n.toString()` for any integer. */
  function IntToString(n: int): (t: string)
    ensures n >= 0 ==> t == NatToString(n)
    ensures n < 0 ==> t == "-" + NatToString(-n)
  {
    if n < 0 then "-" + NatToString(-n) else NatToString(n)
  }

  /** `t.padStart(2, '0')`. */
  function PadStart2(t: string): (r: string)
    ensures |r| == if |t| >= 2 then |t| else 2
    ensures r[|r| - |t|..] == t
    ensures forall i :: 0 <= i < |r| - |t| ==> r[i] == '0'
  {
    if |t| >= 2 then t else if |t| == 1 then "0" + t else "00"
  }

  /** The whitespace `parseInt` skips: StrWhiteSpaceChar, with the Zs space separators. */
  predicate IsJsSpace(c: char) {
    || c == ' ' || c == '\t' || c == '\n' || c == '\r'
    || c == 11 as char || c == 12 as char
    || c == 0xA0 as char || c == 0xFEFF as char || c == 0x1680 as char
    || (0x2000 as char <= c <= 0x200A as char)
    || c == 0x2028 as char || c == 0x2029 as char
    || c == 0x202F as char || c == 0x205F as char || c == 0x3000 as char
  }

  function SkipSpace(s: string): (r: string)
    ensures |r| <= |s| && r == s[|s| - |r|..]
    ensures r == [] || !IsJsSpace(r[0])
    ensures s != [] && !IsJsSpace(s[0]) ==> r == s
  {
    if s != [] && IsJsSpace(s[0]) then SkipSpace(s[1..]) else s
  }

  /** The longest prefix of `s` made of decimal digits. */
  function DigitPrefix(s: string): (d: string)
    ensures |d| <= |s| && d == s[..|d|]
    ensures AllDigits(d)
    ensures |d| < |s| ==> !IsDigit(s[|d|])
  {
    if s != [] && IsDigit(s[0]) then [s[0]] + DigitPrefix(s[1..]) else []
  }

  /** `parseInt(s, 10)`; `None` stands for NaN. */
  function ParseInt(s: string): (r: Option<int>)
  {
    var t := SkipSpace(s);
    var neg := t != [] && t[0] == '-';
    var u := if t != [] && (t[0] == '-' || t[0] == '+') then t[1..] else t;
    var d := DigitPrefix(u);
    if d == [] then None
    else if neg then Some(-(DigitsValue(d) as int))
    else Some(DigitsValue(d))
  }

  lemma {:induction false} DigitPrefixOfDigits(s: string)
    requires AllDigits(s)
    ensures DigitPrefix(s) == s
  {
    if s != [] {
      DigitPrefixOfDigits(s[1..]);
    }
  }

  lemma ParseIntOfDigits(ds: string)
    requires ds != [] && AllDigits(ds)
    ensures ParseInt(ds) == Some(DigitsValue(ds))
    ensures ParseInt("-" + ds) == Some(-(DigitsValue(ds) as int))
  {
    DigitPrefixOfDigits(ds);
    assert IsDigit(ds[0]);
    assert !IsJsSpace(ds[0]);
    assert SkipSpace(ds) == ds;
    var t := "-" + ds;
    assert t[0] == '-' && !IsJsSpace(t[0]);
    assert SkipSpace(t) == t;
    assert t[1..] == ds;
  }

  /** `parseInt` reads back what `toString` writes. */
  lemma ParseIntOfToString(n: int)
    ensures ParseInt(IntToString(n)) == Some(n)
  {
    if n < 0 {
      ParseIntOfDigits(NatToString(-n));
    } else {
      ParseIntOfDigits(NatToString(n));
    }
  }
}

=== FILE: layout.dfy ===
/**
 * The viewers' static board layout (category and number of tables, in
 * display order) and the capacity map derived from it with
 * `Object.fromEntries`.
 */
module Layout {
  import opened Entries
  import Timer

  const LAYOUT: seq<(string, nat)> := [
    ("CIRCULATION (BACK)", 4),
    ("CIRCULATION (FRONT)", 3),
    ("PHYSICAL", 3),
    ("CELL", 2),
    ("ENERGY", 3),
    ("BRAIN", 4),
    ("GUT (LASER)", 2),
    ("GUT (EMS)", 2),
    ("STRESS", 2),
    ("INFRARED SAUNA", 3),
    ("CRYO", 1),
    ("HBOT", 1)
  ]

  /** `CAPACITY`: how many tables each category has. */
  const CAPACITY: map<string, nat> := FromEntries(LAYOUT)

  /** The layout names each category once. */
  lemma LayoutDistinct()
    ensures Distinct(Keys(LAYOUT))
  {
  }

  /** No entry is overwritten: the capacity of every listed category is its count. */
  lemma CapacityMatchesLayout(i: nat)
    requires i < |LAYOUT|
    ensures LAYOUT[i].0 in CAPACITY && CAPACITY[LAYOUT[i].0] == LAYOUT[i].1
  {
    LayoutDistinct();
    FromEntriesLookup(LAYOUT, i);
  }

  /** There are exactly twelve categories. */
  lemma CapacitySize()
    ensures |CAPACITY| == 12
  {
    LayoutDistinct();
    FromEntriesSize(LAYOUT);
  }

  /** Every category has at least one table. */
  lemma CountsPositive()
    ensures forall i :: 0 <= i < |LAYOUT| ==> LAYOUT[i].1 >= 1
  {
  }

  const CATEGORIES: seq<string> := [
    "CIRCULATION (BACK)", "CIRCULATION (FRONT)", "PHYSICAL", "CELL", "ENERGY", "BRAIN",
    "GUT (LASER)", "GUT (EMS)", "STRESS", "INFRARED SAUNA", "CRYO", "HBOT"]

  /** The viewers lay out exactly the categories the backend has default minutes for. */
  lemma LayoutMatchesTimer()
    ensures CAPACITY.Keys == Timer.TIMER.Keys
    ensures (set c | c in Keys(LAYOUT)) == Timer.TIMER.Keys
  {
    assert Keys(LAYOUT) == CATEGORIES;
    assert CAPACITY.Keys == set c | c in CATEGORIES;
  }
}

=== FILE: plan_editor.dfy ===
/**
 * The optimisation editor opened from a client card: a check box per
 * category, ticked for the client's PENDING steps and locked (ticked and
 * disabled) for steps already running or done. Saving sends the
 * difference between the ticked boxes and the initial PENDING list.
 */
module PlanEditor {
  import opened Wrappers
  import opened Store
  import opened Seqs
  import opened Viewer
  import opened Constants

  predicate IsPending(st: StepView) {
    st.status == Pending
  }

  /** `client.steps.filter(s => s.status === 'PENDING').map(s => s.modality)`. */
  function InitialPending(steps: seq<StepView>): (r: seq<string>)
    ensures |r| <= |steps|
    ensures forall m :: m in r <==> exists i :: 0 <= i < |steps| && steps[i].status == Pending && steps[i].modality == m
  {
    if steps == [] then []
    else
      var rest := InitialPending(steps[1..]);
      assert forall i :: 1 <= i < |steps| ==> steps[i] == steps[1..][i - 1];
      if steps[0].status == Pending then [steps[0].modality] + rest else rest
  }

  /** The initial list keeps the order of the steps: its `j`-th entry is the modality of the
      `j`-th PENDING step. */
  lemma {:induction false} InitialPendingInOrder(steps: seq<StepView>)
    ensures var r, f := InitialPending(steps), Filter(steps, IsPending);
      |r| == |f| && forall j :: 0 <= j < |r| ==> r[j] == f[j].modality
  {
    if steps != [] {
      InitialPendingInOrder(steps[1..]);
      if IsPending(steps[0]) {
        assert Filter(steps, IsPending) == [steps[0]] + Filter(steps[1..], IsPending);
      } else {
        assert Filter(steps, IsPending) == Filter(steps[1..], IsPending);
      }
    }
  }

  /** `client.steps.find(s => s.modality === opt)`: the first step of that category. */
  function Find(steps: seq<StepView>, m: string): (r: Option<StepView>)
    ensures r.None? <==> forall i :: 0 <= i < |steps| ==> steps[i].modality != m
    ensures r.Some? ==>
      exists i :: && 0 <= i < |steps| && steps[i] == r.value && steps[i].modality == m
                  && forall j :: 0 <= j < i ==> steps[j].modality != m
  {
    if steps == [] then None
    else if steps[0].modality == m then Some(steps[0])
    else
      assert forall i :: 1 <= i < |steps| ==> steps[i] == steps[1..][i - 1];
      Find(steps[1..], m)
  }

  /** `status && status !== 'PENDING'`. */
  predicate Locked(steps: seq<StepView>, m: string) {
    Find(steps, m).Some? && Find(steps, m).value.status != Pending
  }

  /** Whether the box of `m` shows a tick. */
  predicate Ticked(steps: seq<StepView>, checked: seq<string>, m: string) {
    Locked(steps, m) || m in checked
  }

  /** A click on the box of `opt`: ignored when locked, otherwise the box's new state adds
      `opt` to the ticked list or filters it out. The box flips, and no other box does. */
  function Click(steps: seq<StepView>, checked: seq<string>, opt: string): (r: seq<string>)
    ensures Locked(steps, opt) ==> r == checked
    ensures !Locked(steps, opt) ==> (Ticked(steps, r, opt) <==> !Ticked(steps, checked, opt))
    ensures forall x :: x != opt ==> (x in r <==> x in checked)
  {
    if Locked(steps, opt) then checked
    else if opt in checked then Filter(checked, (x: string) => x != opt)
    else checked + [opt]
  }

  /** The clicks of one editing session, from the initial PENDING list. */
  function Clicks(steps: seq<StepView>, opts: seq<string>): seq<string>
    decreases |opts|
  {
    if opts == [] then InitialPending(steps)
    else Click(steps, Clicks(steps, opts[..|opts| - 1]), opts[|opts| - 1])
  }

  /** `checked.filter(o => !initialPending.includes(o))` */
  function Add(initial: seq<string>, checked: seq<string>): (r: seq<string>)
    ensures forall m :: m in r <==> m in checked && m !in initial
  {
    Filter(checked, (o: string) => o !in initial)
  }

  /** `initialPending.filter(o => !checked.includes(o))` */
  function Remove(initial: seq<string>, checked: seq<string>): (r: seq<string>)
    ensures forall m :: m in r <==> m in initial && m !in checked
  {
    Filter(initial, (o: string) => o !in checked)
  }

  function ToSet(s: seq<string>): set<string> {
    set x | x in s
  }

  /** Nothing is both added and removed, and applying the difference to the initial list
      gives exactly the ticked set. */
  lemma DiffReconstructs(initial: seq<string>, checked: seq<string>)
    ensures ToSet(Add(initial, checked)) * ToSet(Remove(initial, checked)) == {}
    ensures (ToSet(initial) - ToSet(Remove(initial, checked))) + ToSet(Add(initial, checked)) == ToSet(checked)
  {
  }

  /** What pressing Save does: close without a request, or send a PATCH. */
  datatype Save = Close | Patch(clientId: Id, add: seq<string>, remove: seq<string>)

  function SavePlan(c: ClientView, checked: seq<string>): (r: Save)
    ensures r.Patch? ==> r.clientId == c.id
  {
    var initial := InitialPending(c.steps);
    var add, remove := Add(initial, checked), Remove(initial, checked);
    if |add| == 0 && |remove| == 0 then Close else Patch(c.id, add, remove)
  }

  lemma NoMembersEmpty(s: seq<string>)
    ensures (forall x :: x !in s) ==> s == []
  {
    if s != [] {
      assert s[0] in s;
    }
  }

  /** No request is sent exactly when the ticked set is the initial PENDING set. */
  lemma SaveClosesIff(c: ClientView, checked: seq<string>)
    ensures SavePlan(c, checked).Close? <==> ToSet(checked) == ToSet(InitialPending(c.steps))
  {
    var initial := InitialPending(c.steps);
    var add, remove := Add(initial, checked), Remove(initial, checked);
    if ToSet(checked) == ToSet(initial) {
      assert forall x :: x in add ==> x in ToSet(checked) && x !in ToSet(initial);
      assert forall x :: x in remove ==> x in ToSet(initial) && x !in ToSet(checked);
      NoMembersEmpty(add);
      NoMembersEmpty(remove);
    } else if x :| x in ToSet(checked) && x !in ToSet(initial) {
      assert x in add;
    } else {
      var y :| y in ToSet(initial) && y !in ToSet(checked);
      assert y in remove;
    }
  }

  /** Every ticked category is an initially PENDING one, or a category of the list the
      client has no step for. */
  ghost predicate TickedSound(steps: seq<StepView>, checked: seq<string>) {
    forall x :: x in checked ==>
      x in InitialPending(steps) || (x in OPT_LIST && Find(steps, x).None?)
  }

  lemma ClickKeepsSound(steps: seq<StepView>, checked: seq<string>, opt: string)
    requires TickedSound(steps, checked) && opt in OPT_LIST
    ensures TickedSound(steps, Click(steps, checked, opt))
  {
    if !Locked(steps, opt) && opt !in checked && Find(steps, opt).Some? {
      var i :| 0 <= i < |steps| && steps[i] == Find(steps, opt).value && steps[i].modality == opt;
      assert steps[i].status == Pending;
    }
  }

  lemma {:induction false} ClicksSound(steps: seq<StepView>, opts: seq<string>)
    requires forall k :: 0 <= k < |opts| ==> opts[k] in OPT_LIST
    ensures TickedSound(steps, Clicks(steps, opts))
    decreases |opts|
  {
    if opts != [] {
      ClicksSound(steps, opts[..|opts| - 1]);
      ClickKeepsSound(steps, Clicks(steps, opts[..|opts| - 1]), opts[|opts| - 1]);
    }
  }

  /** Whatever boxes are clicked, the PATCH only adds categories of the list the client has
      no step for, and only removes categories whose step is still PENDING. */
  lemma PatchOnlyTouchesPending(c: ClientView, opts: seq<string>)
    requires forall k :: 0 <= k < |opts| ==> opts[k] in OPT_LIST
    ensures var r := SavePlan(c, Clicks(c.steps, opts));
      r.Patch? ==>
        && (forall m :: m in r.add ==> m in OPT_LIST && forall i :: 0 <= i < |c.steps| ==> c.steps[i].modality != m)
        && (forall m :: m in r.remove ==> exists i :: 0 <= i < |c.steps| && c.steps[i].status == Pending && c.steps[i].modality == m)
  {
    ClicksSound(c.steps, opts);
  }
}

=== FILE: plan_proofs.dfy ===
/**
 * Properties of the plan routes: they keep the store's invariants, the
 * upserts are idempotent, the step loop ignores duplicates and unknown
 * names, and a PATCH that removes and re-adds a PENDING modality leaves a
 * fresh PENDING step.
 */
module PlanProofs {
  import opened Wrappers
  import opened Store
  import opened PlanRoutes

  /* ---------- POST /client ---------- */

  lemma PostClientPreservesInv(s: State, firstName: string, lastInitial: string)
    requires Inv(s)
    ensures Inv(PostClient(s, firstName, lastInitial).1)
  {
    var s' := PostClient(s, firstName, lastInitial).1;
    assert forall j, t :: ActiveOn(s', j, t) <==> ActiveOn(s, j, t);
    assert forall x :: x in s'.sessions ==> s'.sessions[x].clientId in s'.clients;
  }

  /** Posting the same name pair again returns the same client and changes nothing. */
  lemma PostClientIdempotent(s: State, firstName: string, lastInitial: string)
    requires Inv(s)
    ensures var (reply, s1) := PostClient(s, firstName, lastInitial);
      PostClient(s1, firstName, lastInitial) == (reply, s1)
  {
    var (reply, s1) := PostClient(s, firstName, lastInitial);
    PostClientPreservesInv(s, firstName, lastInitial);
    var c := Client(firstName, lastInitial);
    assert FindClient(s1, c) == Some(reply.clientId);
  }

  /* ---------- the step loop ---------- */

  lemma AddStepActive(s: State, x: Id, name: string, j: Id, t: Id)
    requires forall k :: k in s.steps ==> k < s.nextId
    ensures ActiveOn(AddStep(s, x, name), j, t) <==> ActiveOn(s, j, t)
  {
  }

  lemma AddStepRunning(s: State, x: Id, name: string)
    requires Running(s) && forall k :: k in s.steps ==> k < s.nextId
    ensures Running(AddStep(s, x, name))
  {
    var s' := AddStep(s, x, name);
    forall j, t ensures ActiveOn(s', j, t) <==> ActiveOn(s, j, t) {
      AddStepActive(s, x, name, j, t);
    }
  }

  lemma AddStepUnique(s: State, x: Id, name: string)
    requires OneStepPerModality(s) && forall k :: k in s.steps ==> k < s.nextId
    ensures OneStepPerModality(AddStep(s, x, name))
  {
    var s' := AddStep(s, x, name);
    forall j, k | j in s'.steps && k in s'.steps
      && s'.steps[j].sessionId == s'.steps[k].sessionId
      && s'.steps[j].modality == s'.steps[k].modality
      ensures j == k
    {
      if j != k && j !in s.steps {
        assert StepFor(s, k, x, name);
      } else if j != k && k !in s.steps {
        assert StepFor(s, j, x, name);
      }
    }
  }

  lemma AddStepPreservesInv(s: State, x: Id, name: string)
    requires Inv(s) && x in s.sessions
    ensures Inv(AddStep(s, x, name))
  {
    InvSplit(s);
    AddStepRunning(s, x, name);
    AddStepUnique(s, x, name);
    InvSplit(AddStep(s, x, name));
  }

  lemma {:induction false} AddStepsPreservesInv(s: State, x: Id, names: seq<string>)
    requires Inv(s) && x in s.sessions
    ensures Inv(AddSteps(s, x, names))
    decreases names
  {
    if names != [] {
      AddStepPreservesInv(s, x, names[0]);
      AddStepsPreservesInv(AddStep(s, x, names[0]), x, names[1..]);
    }
  }

  /** Running the loop over `a + b` is running it over `a`, then over `b`. */
  lemma {:induction false} AddStepsConcat(s: State, x: Id, a: seq<string>, b: seq<string>)
    requires forall k :: k in s.steps ==> k < s.nextId
    ensures AddSteps(s, x, a + b) == AddSteps(AddSteps(s, x, a), x, b)
    decreases a
  {
    if a == [] {
      assert a + b == b;
    } else {
      assert (a + b)[0] == a[0] && (a + b)[1..] == a[1..] + b;
      AddStepsConcat(AddStep(s, x, a[0]), x, a[1..], b);
    }
  }

  /** When every known name already has its step, the loop changes nothing: duplicates are ignored. */
  lemma {:induction false} AddStepsNoop(s: State, x: Id, names: seq<string>)
    requires forall k :: k in s.steps ==> k < s.nextId
    requires forall n :: n in names && n in s.modalities ==> HasStep(s, x, n)
    ensures AddSteps(s, x, names) == s
    decreases names
  {
    if names != [] {
      assert AddStep(s, x, names[0]) == s;
      AddStepsNoop(s, x, names[1..]);
    }
  }

  /** Running the loop twice over the same names is running it once. */
  lemma AddStepsIdempotent(s: State, x: Id, names: seq<string>)
    requires forall k :: k in s.steps ==> k < s.nextId
    ensures AddSteps(AddSteps(s, x, names), x, names) == AddSteps(s, x, names)
  {
    AddStepsNoop(AddSteps(s, x, names), x, names);
  }

  /* ---------- POST /plan ---------- */

  /** Replacing a session's mode or note, keeping its client and day, keeps the invariants. */
  lemma UpdateSessionPreservesInv(s: State, x: Id, sess: Session)
    requires Inv(s) && x in s.sessions
    requires sess.clientId == s.sessions[x].clientId && sess.day == s.sessions[x].day
    ensures Inv(s.(sessions := s.sessions[x := sess]))
  {
    var s' := s.(sessions := s.sessions[x := sess]);
    assert forall j, t :: ActiveOn(s', j, t) <==> ActiveOn(s, j, t);
    assert OneSessionPerDay(s') by {
      forall y, z | y in s'.sessions && z in s'.sessions
        && s'.sessions[y].clientId == s'.sessions[z].clientId
        && s'.sessions[y].day == s'.sessions[z].day
        ensures y == z
      {
        assert s.sessions[y].clientId == s.sessions[z].clientId;
      }
    }
  }

  /** A new session of a known client for a day it has none keeps the invariants. */
  lemma NewSessionPreservesInv(s: State, c: Id, today: Day, mode: Mode, text: string)
    requires Inv(s) && c in s.clients && FindSession(s, c, today).None?
    ensures Inv(s.(sessions := s.sessions[s.nextId := Session(c, today, mode, text)], nextId := s.nextId + 1))
  {
    var s1 := s.(sessions := s.sessions[s.nextId := Session(c, today, mode, text)], nextId := s.nextId + 1);
    InvSplit(s);
    assert Running(s1) by {
      assert forall j, t :: ActiveOn(s1, j, t) <==> ActiveOn(s, j, t);
    }
    assert OneSessionPerDay(s1) by {
      assert forall z :: z in s.sessions ==> !SessionOf(s, z, c, today);
    }
    assert Structure(s1);
    InvSplit(s1);
  }

  lemma PostPlanPreservesInv(s: State, c: Id, optimizations: seq<string>, mode: Option<Mode>, note: Option<string>, today: Day)
    requires Inv(s)
    ensures Inv(PostPlan(s, c, optimizations, mode, note, today).1)
  {
    var text := note.GetOr("");
    match FindSession(s, c, today)
    case Some(x) =>
      var sess := s.sessions[x].(mode := mode.GetOr(s.sessions[x].mode), note := text);
      UpdateSessionPreservesInv(s, x, sess);
      AddStepsPreservesInv(s.(sessions := s.sessions[x := sess]), x, optimizations);
    case None =>
      if c in s.clients {
        NewSessionPreservesInv(s, c, today, mode.GetOr(DEFAULT_MODE), text);
        var s1 := s.(sessions := s.sessions[s.nextId := Session(c, today, mode.GetOr(DEFAULT_MODE), text)], nextId := s.nextId + 1);
        AddStepsPreservesInv(s1, s.nextId, optimizations);
      }
  }

  /** Posting a plan whose session already has the note, every step and, if a mode is posted,
      that mode changes nothing. */
  lemma PostPlanNoop(s: State, c: Id, optimizations: seq<string>, mode: Option<Mode>, note: Option<string>, today: Day, x: Id)
    requires IdsBelowNext(s) && FindSession(s, c, today) == Some(x)
    requires (mode.Some? ==> s.sessions[x].mode == mode.value) && s.sessions[x].note == note.GetOr("")
    requires forall n :: n in optimizations && n in s.modalities ==> HasStep(s, x, n)
    ensures PostPlan(s, c, optimizations, mode, note, today).1 == s
  {
    var s1 := s.(sessions := s.sessions[x := s.sessions[x].(mode := mode.GetOr(s.sessions[x].mode), note := note.GetOr(""))]);
    assert s1.sessions == s.sessions;
    assert s1 == s;
    AddStepsNoop(s, x, optimizations);
  }

  /** The session a successful `POST /plan` writes: today's existing one, whose mode is kept
      when none is posted, or a new one, which then gets the column default. */
  lemma PostPlanSession(s: State, c: Id, optimizations: seq<string>, mode: Option<Mode>, note: Option<string>, today: Day)
    requires IdsBelowNext(s)
    requires PostPlan(s, c, optimizations, mode, note, today).0.PlanOk?
    ensures var s1 := PostPlan(s, c, optimizations, mode, note, today).1;
      var x := if FindSession(s, c, today).Some? then FindSession(s, c, today).value else s.nextId;
      && SessionOf(s1, x, c, today)
      && s1.sessions[x].mode == (if mode.Some? then mode.value
                                 else if FindSession(s, c, today).Some? then s.sessions[x].mode
                                 else DEFAULT_MODE)
      && s1.sessions[x].note == note.GetOr("")
      && forall n :: n in optimizations && n in s1.modalities ==> HasStep(s1, x, n)
  {
  }

  /** The frontend posts a plan without a mode: that never changes the mode of a session
      that already exists today. */
  lemma PostPlanWithoutModeKeepsMode(s: State, c: Id, optimizations: seq<string>, note: Option<string>, today: Day)
    requires IdsBelowNext(s) && FindSession(s, c, today).Some?
    ensures var x := FindSession(s, c, today).value;
      var s1 := PostPlan(s, c, optimizations, None, note, today).1;
      x in s1.sessions && s1.sessions[x].mode == s.sessions[x].mode
  {
    PostPlanSession(s, c, optimizations, None, note, today);
  }

  /** Posting the same plan twice leaves the store as posting it once. */
  lemma PostPlanIdempotent(s: State, c: Id, optimizations: seq<string>, mode: Option<Mode>, note: Option<string>, today: Day)
    requires Inv(s)
    ensures var s1 := PostPlan(s, c, optimizations, mode, note, today).1;
      IdsBelowNext(s1) && PostPlan(s1, c, optimizations, mode, note, today).1 == s1
  {
    var (o, s1) := PostPlan(s, c, optimizations, mode, note, today);
    assert IdsBelowNext(s1) && OneSessionPerDay(s1) by {
      PostPlanPreservesInv(s, c, optimizations, mode, note, today);
    }
    if o.PlanOk? {
      PostPlanSession(s, c, optimizations, mode, note, today);
      var x := if FindSession(s, c, today).Some? then FindSession(s, c, today).value else s.nextId;
      assert FindSession(s1, c, today) == Some(x);
      PostPlanNoop(s1, c, optimizations, mode, note, today, x);
    }
  }

  /* ---------- PATCH /plan ---------- */

  lemma RemovePendingPreservesInv(s: State, x: Id, names: seq<string>)
    requires Inv(s)
    ensures Inv(RemovePending(s, x, names))
  {
    var s' := RemovePending(s, x, names);
    assert forall j, t :: ActiveOn(s', j, t) <==> ActiveOn(s, j, t);
  }

  lemma PatchPlanPreservesInv(s: State, c: Id, add: seq<string>, remove: seq<string>, note: Option<string>, today: Day)
    requires Inv(s)
    ensures Inv(PatchPlan(s, c, add, remove, note, today).1)
  {
    match FindSession(s, c, today)
    case None =>
    case Some(x) =>
      var s1 := if note.Some? then s.(sessions := s.sessions[x := s.sessions[x].(note := note.value)]) else s;
      if note.Some? {
        UpdateSessionPreservesInv(s, x, s.sessions[x].(note := note.value));
      }
      var s2 := if |remove| > 0 then RemovePending(s1, x, remove) else s1;
      if |remove| > 0 {
        RemovePendingPreservesInv(s1, x, remove);
      }
      AddStepsPreservesInv(s2, x, add);
  }

  /** Removing a PENDING modality and adding it back in the same PATCH leaves a fresh
      PENDING step of duration 0 for it. */
  lemma PatchRemoveThenAdd(s: State, c: Id, add: seq<string>, remove: seq<string>, note: Option<string>, today: Day, k: Id)
    requires Inv(s)
    requires FindSession(s, c, today).Some?
    requires Removable(s, FindSession(s, c, today).value, remove, k)
    requires s.steps[k].modality in add
    ensures var x := FindSession(s, c, today).value;
      var s' := PatchPlan(s, c, add, remove, note, today).1;
      exists k' :: StepFor(s', k', x, s.steps[k].modality) && s'.steps[k'] == NewStep(x, s.steps[k].modality)
  {
    var x := FindSession(s, c, today).value;
    var n := s.steps[k].modality;
    var s1 := if note.Some? then s.(sessions := s.sessions[x := s.sessions[x].(note := note.value)]) else s;
    var s2 := RemovePending(s1, x, remove);
    var s' := AddSteps(s2, x, add);
    assert s' == PatchPlan(s, c, add, remove, note, today).1;
    assert n in s.modalities;
    var k' :| StepFor(s', k', x, n);
  }

  /* ---------- invariant 4 under the REST routes ---------- */

  /** The step loop only creates PENDING steps and keeps the sessions, so it starts nothing. */
  lemma AddStepsStartsNothing(s: State, x: Id, names: seq<string>)
    requires IdsBelowNext(s)
    ensures NoNewActive(s, AddSteps(s, x, names))
  {
  }

  lemma NoNewActiveTransitive(s1: State, s2: State, s3: State)
    requires NoNewActive(s1, s2) && NoNewActive(s2, s3)
    ensures NoNewActive(s1, s3)
  {
  }

  /** Rewriting a session without changing its client starts nothing. */
  lemma UpdateSessionStartsNothing(s: State, x: Id, sess: Session)
    requires x in s.sessions && sess.clientId == s.sessions[x].clientId
    ensures NoNewActive(s, s.(sessions := s.sessions[x := sess]))
  {
  }

  /** A session under an unused id owns no step, so adding it starts nothing. */
  lemma NewSessionStartsNothing(s: State, x: Id, sess: Session)
    requires Linked(s) && x !in s.sessions
    ensures NoNewActive(s, s.(sessions := s.sessions[x := sess], nextId := x + 1))
  {
    var s1 := s.(sessions := s.sessions[x := sess], nextId := x + 1);
    forall k, c | OwnedBy(s1, k, c) && s1.steps[k].status == Active
      ensures OwnedBy(s, k, c) && s.steps[k].status == Active
    {
      assert s.steps[k].sessionId in s.sessions;
    }
  }

  lemma PostClientKeepsExclusive(s: State, firstName: string, lastInitial: string)
    requires IdsBelowNext(s) && ClientExclusive(s)
    ensures ClientExclusive(PostClient(s, firstName, lastInitial).1)
  {
    var s' := PostClient(s, firstName, lastInitial).1;
    assert NoNewActive(s, s');
    NoNewActiveKeepsExclusive(s, s');
  }

  /** `POST /plan` on a client with a session today: the update, then the step loop. */
  lemma PostPlanUpdateShape(s: State, c: Id, optimizations: seq<string>, mode: Option<Mode>, note: Option<string>, today: Day)
    requires IdsBelowNext(s) && FindSession(s, c, today).Some?
    ensures var x := FindSession(s, c, today).value;
      var sess := s.sessions[x].(mode := mode.GetOr(s.sessions[x].mode), note := note.GetOr(""));
      PostPlan(s, c, optimizations, mode, note, today).1 == AddSteps(s.(sessions := s.sessions[x := sess]), x, optimizations)
  {
  }

  /** `POST /plan` on a known client without a session today: the create, then the step loop. */
  lemma PostPlanCreateShape(s: State, c: Id, optimizations: seq<string>, mode: Option<Mode>, note: Option<string>, today: Day)
    requires IdsBelowNext(s) && FindSession(s, c, today).None? && c in s.clients
    ensures var x := s.nextId;
      var sess := Session(c, today, mode.GetOr(DEFAULT_MODE), note.GetOr(""));
      PostPlan(s, c, optimizations, mode, note, today).1
        == AddSteps(s.(sessions := s.sessions[x := sess], nextId := x + 1), x, optimizations)
  {
  }

  /** `POST /plan` starts nothing: the upsert changes no session's client, a new session
      owns no old step, and the new steps are PENDING. */
  lemma PostPlanStartsNothing(s: State, c: Id, optimizations: seq<string>, mode: Option<Mode>, note: Option<string>, today: Day)
    requires IdsBelowNext(s) && Linked(s)
    ensures NoNewActive(s, PostPlan(s, c, optimizations, mode, note, today).1)
  {
    var text := note.GetOr("");
    match FindSession(s, c, today)
    case Some(x) =>
      var sess := s.sessions[x].(mode := mode.GetOr(s.sessions[x].mode), note := text);
      var s1 := s.(sessions := s.sessions[x := sess]);
      PostPlanUpdateShape(s, c, optimizations, mode, note, today);
      UpdateSessionStartsNothing(s, x, sess);
      AddStepsStartsNothing(s1, x, optimizations);
      NoNewActiveTransitive(s, s1, AddSteps(s1, x, optimizations));
    case None =>
      if c in s.clients {
        var x := s.nextId;
        var sess := Session(c, today, mode.GetOr(DEFAULT_MODE), text);
        var s1 := s.(sessions := s.sessions[x := sess], nextId := x + 1);
        PostPlanCreateShape(s, c, optimizations, mode, note, today);
        NewSessionStartsNothing(s, x, sess);
        AddStepsStartsNothing(s1, x, optimizations);
        NoNewActiveTransitive(s, s1, AddSteps(s1, x, optimizations));
      }
  }

  /** Invariant 4 under `POST /plan`. */
  lemma PostPlanKeepsExclusive(s: State, c: Id, optimizations: seq<string>, mode: Option<Mode>, note: Option<string>, today: Day)
    requires Inv(s) && ClientExclusive(s)
    ensures ClientExclusive(PostPlan(s, c, optimizations, mode, note, today).1)
  {
    PostPlanStartsNothing(s, c, optimizations, mode, note, today);
    NoNewActiveKeepsExclusive(s, PostPlan(s, c, optimizations, mode, note, today).1);
  }

  /** Invariant 4 under `PATCH /plan`: it edits a note, deletes PENDING steps and adds PENDING ones. */
  lemma PatchPlanKeepsExclusive(s: State, c: Id, add: seq<string>, remove: seq<string>, note: Option<string>, today: Day)
    requires IdsBelowNext(s) && ClientExclusive(s)
    ensures ClientExclusive(PatchPlan(s, c, add, remove, note, today).1)
  {
    var s' := PatchPlan(s, c, add, remove, note, today).1;
    match FindSession(s, c, today)
    case None =>
    case Some(x) =>
      var s1 := if note.Some? then s.(sessions := s.sessions[x := s.sessions[x].(note := note.value)]) else s;
      var s2 := if |remove| > 0 then RemovePending(s1, x, remove) else s1;
      assert NoNewActive(s, s2);
      AddStepsStartsNothing(s2, x, add);
      assert NoNewActive(s, s');
      NoNewActiveKeepsExclusive(s, s');
  }
}

=== FILE: plan_routes.dfy ===
/**
 * The REST routes that create clients and edit today's plan:
 * `POST /client` (upsert a client by first name and last initial),
 * `POST /plan` (upsert today's session and add its steps) and
 * `PATCH /plan` (edit the note, drop PENDING steps, add steps).
 * Each route runs in one transaction: when it fails, nothing changes.
 */
module PlanRoutes {
  import opened Wrappers
  import opened Store

  /* ---------- POST /client ---------- */

  datatype ClientReply = ClientReply(clientId: Id, name: string)

  /** The display name `${firstName} ${lastInitial}.`. */
  function DisplayName(c: Client): string {
    c.firstName + " " + c.lastInitial + "."
  }

  ghost function FindClient(s: State, c: Client): (r: Option<Id>)
    ensures r.Some? ==> r.value in s.clients && s.clients[r.value] == c
    ensures r.None? ==> forall id :: id in s.clients ==> s.clients[id] != c
  {
    if exists id :: id in s.clients && s.clients[id] == c then
      var id :| id in s.clients && s.clients[id] == c;
      Some(id)
    else None
  }

  /** `POST /client`: the client with this name pair, created when there is none (`update: {}`). */
  ghost function PostClient(s: State, firstName: string, lastInitial: string): (out: (ClientReply, State))
    requires IdsBelowNext(s)
    ensures var (reply, s') := out;
      && reply.clientId in s'.clients && s'.clients[reply.clientId] == Client(firstName, lastInitial)
      && reply.name == DisplayName(Client(firstName, lastInitial))
      && s'.clients.Keys == s.clients.Keys + {reply.clientId}
      && (forall id :: id in s.clients ==> s'.clients[id] == s.clients[id])
      && s'.stations == s.stations && s'.sessions == s.sessions && s'.steps == s.steps
    ensures (exists id :: id in s.clients && s.clients[id] == Client(firstName, lastInitial)) ==> out.1 == s
  {
    var c := Client(firstName, lastInitial);
    match FindClient(s, c)
    case Some(id) => (ClientReply(id, DisplayName(c)), s)
    case None =>
      (ClientReply(s.nextId, DisplayName(c)),
       s.(clients := s.clients[s.nextId := c], nextId := s.nextId + 1))
  }

  /* ---------- adding steps (the loops of POST and PATCH /plan) ---------- */

  /** The record a step upsert creates. */
  function NewStep(x: Id, name: string): Step {
    Step(x, name, Pending, None, None, None, 0)
  }

  ghost predicate HasStep(s: State, x: Id, name: string) {
    exists k :: StepFor(s, k, x, name)
  }

  /** A state that keeps every step of `s` keeps its (session, modality) pairs. */
  lemma KeepsHasStep(s: State, s': State, x: Id, n: string)
    requires forall k :: k in s.steps ==> k in s'.steps && s'.steps[k] == s.steps[k]
    requires HasStep(s, x, n)
    ensures HasStep(s', x, n)
  {
    var k :| StepFor(s, k, x, n);
    assert StepFor(s', k, x, n);
  }

  /** One iteration: skip an unknown modality name; otherwise upsert the step with `update: {}`. */
  ghost function AddStep(s: State, x: Id, name: string): (s': State)
    requires forall k :: k in s.steps ==> k < s.nextId
    ensures forall k :: k in s'.steps ==> k < s'.nextId
    ensures s'.modalities == s.modalities && s'.stations == s.stations
    ensures s'.clients == s.clients && s'.sessions == s.sessions
    ensures s.nextId <= s'.nextId
    ensures forall k :: k in s.steps ==> k in s'.steps && s'.steps[k] == s.steps[k]
    ensures forall k :: k in s'.steps && k !in s.steps ==>
      s.nextId <= k && s'.steps[k] == NewStep(x, name) && name in s.modalities && !HasStep(s, x, name)
    ensures name in s.modalities ==> HasStep(s', x, name)
  {
    if name !in s.modalities || HasStep(s, x, name) then s
    else
      var s' := s.(steps := s.steps[s.nextId := NewStep(x, name)], nextId := s.nextId + 1);
      assert StepFor(s', s.nextId, x, name);
      s'
  }

  /** `for (const modName of names) { ... }` */
  ghost function AddSteps(s: State, x: Id, names: seq<string>): (s': State)
    requires forall k :: k in s.steps ==> k < s.nextId
    ensures forall k :: k in s'.steps ==> k < s'.nextId
    ensures s'.modalities == s.modalities && s'.stations == s.stations
    ensures s'.clients == s.clients && s'.sessions == s.sessions
    ensures s.nextId <= s'.nextId
    ensures forall k :: k in s.steps ==> k in s'.steps && s'.steps[k] == s.steps[k]
    ensures forall k :: k in s'.steps && k !in s.steps ==>
      && s.nextId <= k
      && s'.steps[k] == NewStep(x, s'.steps[k].modality)
      && s'.steps[k].modality in names && s'.steps[k].modality in s.modalities
      && !HasStep(s, x, s'.steps[k].modality)
    ensures forall n :: n in names && n in s.modalities ==> HasStep(s', x, n)
    decreases names
  {
    if names == [] then s
    else
      var s1 := AddStep(s, x, names[0]);
      var s' := AddSteps(s1, x, names[1..]);
      forall n | HasStep(s, x, n) ensures HasStep(s1, x, n) {
        KeepsHasStep(s, s1, x, n);
      }
      forall n | HasStep(s1, x, n) ensures HasStep(s', x, n) {
        KeepsHasStep(s1, s', x, n);
      }
      s'
  }

  /* ---------- POST /plan ---------- */

  datatype PlanError = UnknownClient | NoSessionToday

  datatype PlanOutcome = PlanOk | PlanFailed(error: PlanError)

  /** The mode a session created without one receives: the schema's column default,
      assumed here to be `UNSPEC` (the schema is not part of this model). */
  const DEFAULT_MODE: Mode := Unspec

  /** The mode `POST /plan` leaves on the client's session of `today`: the posted one when
      given; otherwise, for the `update` branch of the upsert, the stored one (Prisma leaves a
      field that is `undefined` untouched) and, for the `create` branch, the column default. */
  ghost function PostedMode(s: State, c: Id, mode: Option<Mode>, today: Day): Mode {
    match FindSession(s, c, today)
    case Some(x) => mode.GetOr(s.sessions[x].mode)
    case None => mode.GetOr(DEFAULT_MODE)
  }

  /** `POST /plan`: upsert the client's session of today (setting the mode when one is posted,
      and the note, defaulting to the empty string), then add a step per known modality name.
      Creating a session for a client that does not exist violates its foreign key. */
  ghost function PostPlan(s: State, c: Id, optimizations: seq<string>, mode: Option<Mode>, note: Option<string>, today: Day)
    : (out: (PlanOutcome, State))
    requires IdsBelowNext(s)
    ensures out.0.PlanFailed? ==> out.1 == s
    ensures out.0.PlanFailed? <==> FindSession(s, c, today).None? && c !in s.clients
    ensures out.0.PlanOk? ==>
      var s' := out.1;
      && (exists x :: SessionOf(s', x, c, today)
            && s'.sessions[x].mode == PostedMode(s, c, mode, today) && s'.sessions[x].note == note.GetOr("")
            && forall n :: n in optimizations && n in s.modalities ==> HasStep(s', x, n))
      && (forall k :: k in s.steps ==> k in s'.steps && s'.steps[k] == s.steps[k])
      && (forall k :: k in s'.steps && k !in s.steps ==>
            && s'.steps[k] == NewStep(s'.steps[k].sessionId, s'.steps[k].modality)
            && SessionOf(s', s'.steps[k].sessionId, c, today)
            && s'.steps[k].modality in optimizations && s'.steps[k].modality in s.modalities)
      && (forall y :: y in s.sessions && !SessionOf(s, y, c, today) ==> y in s'.sessions && s'.sessions[y] == s.sessions[y])
      && s'.stations == s.stations && s'.clients == s.clients
  {
    var text := note.GetOr("");
    match FindSession(s, c, today)
    case Some(x) =>
      var s1 := s.(sessions := s.sessions[x := s.sessions[x].(mode := mode.GetOr(s.sessions[x].mode), note := text)]);
      var s' := AddSteps(s1, x, optimizations);
      assert SessionOf(s', x, c, today);
      (PlanOk, s')
    case None =>
      if c !in s.clients then (PlanFailed(UnknownClient), s)
      else
        var x := s.nextId;
        var s1 := s.(sessions := s.sessions[x := Session(c, today, mode.GetOr(DEFAULT_MODE), text)], nextId := x + 1);
        var s' := AddSteps(s1, x, optimizations);
        assert SessionOf(s', x, c, today);
        (PlanOk, s')
  }

  /* ---------- PATCH /plan ---------- */

  /** A step `deleteMany` removes: in session `x`, named in `names`, still PENDING. */
  ghost predicate Removable(s: State, x: Id, names: seq<string>, k: Id) {
    k in s.steps && s.steps[k].sessionId == x && s.steps[k].modality in names && s.steps[k].status == Pending
  }

  ghost function RemovePending(s: State, x: Id, names: seq<string>): (s': State)
    ensures s'.steps.Keys == set k | k in s.steps && !Removable(s, x, names, k)
    ensures forall k :: k in s'.steps ==> s'.steps[k] == s.steps[k]
    ensures s'.sessions == s.sessions && s'.stations == s.stations && s'.clients == s.clients
    ensures s'.modalities == s.modalities && s'.nextId == s.nextId
  {
    s.(steps := map k | k in s.steps && !Removable(s, x, names, k) :: s.steps[k])
  }

  /** `PATCH /plan`: find today's session or fail; replace the note when one is given;
      drop the PENDING steps named in `remove` when it is non-empty; then add as POST does. */
  ghost function PatchPlan(s: State, c: Id, add: seq<string>, remove: seq<string>, note: Option<string>, today: Day)
    : (out: (PlanOutcome, State))
    requires IdsBelowNext(s)
    ensures FindSession(s, c, today).None? ==> out == (PlanFailed(NoSessionToday), s)
    ensures FindSession(s, c, today).Some? ==>
      var x := FindSession(s, c, today).value;
      var s' := out.1;
      && out.0 == PlanOk
      && x in s'.sessions
      && s'.sessions[x].note == (if note.Some? then note.value else s.sessions[x].note)
      && s'.sessions[x].mode == s.sessions[x].mode
      && (forall y :: y in s.sessions && y != x ==> y in s'.sessions && s'.sessions[y] == s.sessions[y])
      && (forall k :: k in s.steps && !Removable(s, x, remove, k) ==> k in s'.steps && s'.steps[k] == s.steps[k])
      && (forall k :: Removable(s, x, remove, k) ==> k !in s'.steps)
      && (forall k :: k in s'.steps && k !in s.steps ==>
            && s'.steps[k] == NewStep(x, s'.steps[k].modality)
            && s'.steps[k].modality in add && s'.steps[k].modality in s.modalities)
      && (forall n :: n in add && n in s.modalities ==> HasStep(s', x, n))
      && s'.stations == s.stations && s'.clients == s.clients
  {
    match FindSession(s, c, today)
    case None => (PlanFailed(NoSessionToday), s)
    case Some(x) =>
      var s1 := if note.Some? then s.(sessions := s.sessions[x := s.sessions[x].(note := note.value)]) else s;
      var s2 := if |remove| > 0 then RemovePending(s1, x, remove) else s1;
      (PlanOk, AddSteps(s2, x, add))
  }
}

=== FILE: projection.dfy ===
/**
 * What the backend sends the viewers: `getTodayPlans` (today's sessions
 * with a countdown per ACTIVE step) and the per-station snapshot sent on
 * `init`. Both are unordered database reads, so lists become maps keyed by
 * record id.
 */
module Projection {
  import opened Wrappers
  import opened JsNumber
  import opened Store
  import opened Timer
  import opened Extremes
  import opened PlanRoutes

  /* ---------- getTodayPlans ---------- */

  /** Seconds left on a step: `duration - ((now - startAt) / 1000 | 0)` for an ACTIVE step
      that has a start time, `undefined` otherwise. */
  function StepLeft(st: Step, now: int): (r: Option<int>)
    ensures r.Some? <==> st.status == Active && st.startAt.Some?
    ensures r.Some? ==> st.duration - TWO_31 < r.value <= st.duration + TWO_31
    ensures r.Some? && st.startAt.value <= now < st.startAt.value + 1000 * TWO_31 ==>
      r.value == st.duration - TruncDiv(now - st.startAt.value, 1000)
  {
    if st.status == Active && st.startAt.Some? then
      var e := now - st.startAt.value;
      if 0 <= e < 1000 * TWO_31 then
        ElapsedInRange(e);
        Some(st.duration - ToInt32(TruncDiv(e, 1000)))
      else Some(st.duration - ToInt32(TruncDiv(e, 1000)))
    else None
  }

  datatype PlanStep = PlanStep(modality: string, status: StepStatus, left: Option<int>)

  datatype PlanClient = PlanClient(clientId: Id, name: string, note: string, mode: Mode, steps: map<Id, PlanStep>)

  ghost predicate ClientsResolve(s: State) {
    forall x :: x in s.sessions ==> s.sessions[x].clientId in s.clients
  }

  ghost function PlanOf(s: State, x: Id, now: int): (p: PlanClient)
    requires x in s.sessions && s.sessions[x].clientId in s.clients
    ensures p.clientId == s.sessions[x].clientId
    ensures p.steps.Keys == set k | k in s.steps && s.steps[k].sessionId == x
    ensures forall k :: k in p.steps ==>
      && p.steps[k].modality == s.steps[k].modality
      && p.steps[k].status == s.steps[k].status
      && p.steps[k].left == StepLeft(s.steps[k], now)
  {
    var sess := s.sessions[x];
    PlanClient(sess.clientId, DisplayName(s.clients[sess.clientId]), sess.note, sess.mode,
      map k | k in s.steps && s.steps[k].sessionId == x ::
        PlanStep(s.steps[k].modality, s.steps[k].status, StepLeft(s.steps[k], now)))
  }

  /** `getTodayPlans()`: one entry per session dated today. */
  ghost function TodayPlans(s: State, today: Day, now: int): (plans: map<Id, PlanClient>)
    requires ClientsResolve(s)
    ensures plans.Keys == set x | x in s.sessions && s.sessions[x].day == today
  {
    map x | x in s.sessions && s.sessions[x].day == today :: PlanOf(s, x, now)
  }

  /** At the moment a step starts its countdown shows its whole duration. */
  lemma LeftAtStart(st: Step, now: int)
    requires st.status == Active && st.startAt == Some(now)
    ensures StepLeft(st, now) == Some(st.duration)
  {
  }

  /** Within the 32-bit range of elapsed seconds (about 68 years) the countdown never goes up. */
  lemma LeftNonIncreasing(st: Step, now: int, later: int)
    requires st.status == Active && st.startAt.Some?
    requires st.startAt.value <= now <= later < st.startAt.value + 1000 * TWO_31
    ensures StepLeft(st, later).value <= StepLeft(st, now).value
  {
    var a, b := now - st.startAt.value, later - st.startAt.value;
    TruncDivMonotone(a, b, 1000);
    ElapsedInRange(a);
    ElapsedInRange(b);
  }

  lemma ElapsedInRange(e: int)
    requires 0 <= e < 1000 * TWO_31
    ensures ToInt32(TruncDiv(e, 1000)) == TruncDiv(e, 1000)
  {
    var q := TruncDiv(e, 1000);
    if q >= TWO_31 {
      MulMonotone(TWO_31, q, 1000);
    }
  }

  /** The countdown is not clamped: it is negative exactly when more whole seconds than the
      duration have elapsed. */
  lemma LeftNotClamped(st: Step, now: int)
    requires st.status == Active && st.startAt.Some?
    requires st.startAt.value <= now < st.startAt.value + 1000 * TWO_31
    ensures StepLeft(st, now).value < 0 <==> TruncDiv(now - st.startAt.value, 1000) > st.duration
  {
    ElapsedInRange(now - st.startAt.value);
  }

  /* ---------- the init snapshot ---------- */

  /** A grid cell as the backend sends it: type label, start (ms), duration (s), first name. */
  datatype Tile = Tile(kind: SessionType, startAt: int, duration: int, clientName: string)

  /** The snapshot's guess of the session type: `duration >= 1200 ? 'OP' : 'MT'`. */
  function TypeLabel(duration: int): (t: SessionType)
    ensures t == OP <==> duration >= 20 * 60
  {
    if duration >= 1200 then OP else MT
  }

  /** Example over the one fixed default table, not a general property: against the default
      minutes, the label is wrong for the maintenance sessions of the GUT
      stations, the sauna and HBOT (20 minutes or more) and for the optimisation sessions of
      CELL and CRYO (under 20 minutes). */
  lemma DefaultDurationLabels()
    ensures forall c :: c in TIMER ==>
      (TypeLabel(60 * TIMER[c].mt) == MT <==> c !in {"GUT (EMS)", "GUT (LASER)", "INFRARED SAUNA", "HBOT"})
    ensures forall c :: c in TIMER ==>
      (TypeLabel(60 * TIMER[c].op) == OP <==> c !in {"CELL", "CRYO"})
  {
  }

  ghost predicate OnStation(s: State, sid: Id, k: Id) {
    k in s.steps && s.steps[k].stationId == Some(sid) && s.steps[k].startAt.Some?
  }

  /** `sessionSteps: { orderBy: { startAt: 'desc' }, take: 1 }`: a step of the station with the
      latest start; ties are broken arbitrarily. */
  ghost function LatestOn(s: State, sid: Id): (r: Option<Id>)
    ensures r.Some? ==> OnStation(s, sid, r.value)
    ensures r.Some? ==> forall j :: OnStation(s, sid, j) ==> s.steps[j].startAt.value <= s.steps[r.value].startAt.value
    ensures r.None? <==> forall j :: !OnStation(s, sid, j)
  {
    var starts := set k | k in s.steps && OnStation(s, sid, k) :: s.steps[k].startAt.value;
    assert forall j :: OnStation(s, sid, j) ==> s.steps[j].startAt.value in starts;
    if |starts| == 0 then None
    else
      var m := MaxOf(starts);
      var k :| k in s.steps && OnStation(s, sid, k) && s.steps[k].startAt.value == m;
      Some(k)
  }

  /** The cell of one station: its latest step unless that one is DONE. */
  ghost function TileOf(s: State, sid: Id): Option<Tile>
    requires Linked(s)
  {
    match LatestOn(s, sid)
    case None => None
    case Some(k) =>
      var st := s.steps[k];
      if st.status == Done then None
      else Some(Tile(TypeLabel(st.duration), st.startAt.value, st.duration,
                     s.clients[s.sessions[st.sessionId].clientId].firstName))
  }

  ghost function Categories(s: State): set<string> {
    set sid | sid in s.stations :: s.stations[sid].category
  }

  ghost function Indices(s: State, c: string): set<int> {
    set sid | sid in s.stations && s.stations[sid].category == c :: s.stations[sid].index
  }

  ghost function CellAt(s: State, c: string, i: int): Option<Tile>
    requires Linked(s)
  {
    match FindStation(s, c, i)
    case Some(sid) => TileOf(s, sid)
    case None => None
  }

  ghost function Row(s: State, c: string): map<int, Option<Tile>>
    requires Linked(s)
  {
    map i | i in Indices(s, c) :: CellAt(s, c, i)
  }

  /** The `station:batch` map built on `init`: one row per category, one cell per station. */
  ghost function Snapshot(s: State): (g: map<string, map<int, Option<Tile>>>)
    requires Linked(s) && UniqueStations(s)
    ensures g.Keys == set sid | sid in s.stations :: s.stations[sid].category
    ensures forall sid :: sid in s.stations ==>
      var st := s.stations[sid];
      st.category in g && st.index in g[st.category] && g[st.category][st.index] == TileOf(s, sid)
  {
    var g := map c | c in Categories(s) :: Row(s, c);
    forall sid | sid in s.stations
      ensures var st := s.stations[sid];
        st.category in g && st.index in g[st.category] && g[st.category][st.index] == TileOf(s, sid)
    {
      var st := s.stations[sid];
      assert st.category in Categories(s);
      assert st.index in Indices(s, st.category);
      assert StationAt(s, sid, st.category, st.index);
      assert FindStation(s, st.category, st.index) == Some(sid);
    }
    g
  }

  /** With the invariants a snapshot cell shows only a running station, and shows the
      step running on it. */
  lemma SnapshotShowsOnlyRunning(s: State, sid: Id)
    requires Inv(s) && sid in s.stations
    requires TileOf(s, sid).Some?
    ensures s.stations[sid].status == InUse
    ensures ActiveOn(s, LatestOn(s, sid).value, sid)
  {
    var k := LatestOn(s, sid).value;
    assert s.steps[k].status != Pending;
    assert ActiveOn(s, k, sid);
  }
}

=== FILE: seqs.dfy ===
/** The array combinators the viewers use: `filter`, `every` and `some`. */
module Seqs {

  /** `Array.prototype.filter`: the elements satisfying `p`, in their original order. */
  function Filter<T(!new)>(s: seq<T>, p: T -> bool): (r: seq<T>)
    ensures |r| <= |s|
    ensures forall x :: x in r <==> x in s && p(x)
    ensures (forall i :: 0 <= i < |s| ==> p(s[i])) ==> r == s
  {
    if s == [] then []
    else (if p(s[0]) then [s[0]] else []) + Filter(s[1..], p)
  }

  /** Filtering distributes over concatenation: the kept elements stay in their original order. */
  lemma {:induction false} FilterConcat<T(!new)>(s: seq<T>, t: seq<T>, p: T -> bool)
    ensures Filter(s + t, p) == Filter(s, p) + Filter(t, p)
  {
    if s == [] {
      assert s + t == t;
    } else {
      assert (s + t)[1..] == s[1..] + t;
      FilterConcat(s[1..], t, p);
    }
  }

  /** Filtering twice with the same predicate is filtering once. */
  lemma {:induction false} FilterIdempotent<T(!new)>(s: seq<T>, p: T -> bool)
    ensures Filter(Filter(s, p), p) == Filter(s, p)
  {
    if s != [] {
      FilterIdempotent(s[1..], p);
      if p(s[0]) {
        assert Filter(s, p) == [s[0]] + Filter(s[1..], p);
        assert ([s[0]] + Filter(s[1..], p))[1..] == Filter(s[1..], p);
      }
    }
  }

  /** `Array.prototype.every`. */
  function All<T>(s: seq<T>, p: T -> bool): (b: bool)
    ensures b <==> forall i :: 0 <= i < |s| ==> p(s[i])
  {
    if s == [] then true
    else p(s[0]) && All(s[1..], p)
  }

  /** `Array.prototype.some`. */
  function Any<T>(s: seq<T>, p: T -> bool): (b: bool)
    ensures b <==> exists i :: 0 <= i < |s| && p(s[i])
  {
    if s == [] then false
    else p(s[0]) || Any(s[1..], p)
  }
}

=== FILE: store.dfy ===
/**
 * The backend's persisted records (Station, Client, Session, SessionStep)
 * as immutable maps from record id to record, with the uniqueness
 * constraints of the database schema and the assignment invariants stated
 * as predicates over a whole state.
 *
 * A modality is identified by its (unique) name. Record ids are drawn from
 * a counter `nextId` that only grows, standing in for `uuid()`.
 */
module Store {
  import opened Wrappers

  type Id = nat

  /** The value of `today00()`: one calendar day. */
  type Day = int

  datatype StationStatus = Available | InUse

  datatype StepStatus = Pending | Active | Done

  /** The `type` of an optimisation request: maintenance (short) or optimisation (long). */
  datatype SessionType = MT | OP

  /** A session's mode: one of the two types, or `UNSPEC`, which accepts both. */
  datatype Mode = Typed(t: SessionType) | Unspec

  datatype Station = Station(category: string, index: int, status: StationStatus, modality: string)

  datatype Client = Client(firstName: string, lastInitial: string)

  datatype Session = Session(clientId: Id, day: Day, mode: Mode, note: string)

  /** A SessionStep; `startAt`, `endAt` are milliseconds, `duration` is seconds. */
  datatype Step = Step(
    sessionId: Id,
    modality: string,
    status: StepStatus,
    stationId: Option<Id>,
    startAt: Option<int>,
    endAt: Option<int>,
    duration: int)

  datatype State = State(
    modalities: set<string>,
    stations: map<Id, Station>,
    clients: map<Id, Client>,
    sessions: map<Id, Session>,
    steps: map<Id, Step>,
    nextId: Id)

  /** Position of a status in the lifecycle PENDING -> ACTIVE -> DONE. */
  function Rank(st: StepStatus): nat {
    match st
    case Pending => 0
    case Active => 1
    case Done => 2
  }

  /* ---------- lookups ---------- */

  ghost predicate StationAt(s: State, sid: Id, category: string, index: int) {
    sid in s.stations && s.stations[sid].category == category && s.stations[sid].index == index
  }

  /** `station.findFirst({ where: { category, index } })` */
  ghost function FindStation(s: State, category: string, index: int): (r: Option<Id>)
    ensures r.Some? ==> StationAt(s, r.value, category, index)
    ensures r.None? ==> forall sid :: !StationAt(s, sid, category, index)
  {
    if exists sid :: StationAt(s, sid, category, index) then
      var sid :| StationAt(s, sid, category, index);
      Some(sid)
    else None
  }

  ghost predicate ActiveOn(s: State, k: Id, sid: Id) {
    k in s.steps && s.steps[k].status == Active && s.steps[k].stationId == Some(sid)
  }

  /** `sessionStep.findFirst({ where: { stationId, status: ACTIVE } })` */
  ghost function FindActiveOn(s: State, sid: Id): (r: Option<Id>)
    ensures r.Some? ==> ActiveOn(s, r.value, sid)
    ensures r.None? ==> forall k :: !ActiveOn(s, k, sid)
  {
    if exists k :: ActiveOn(s, k, sid) then
      var k :| ActiveOn(s, k, sid);
      Some(k)
    else None
  }

  /** Step `k` belongs to a session of client `c` (any day). */
  ghost predicate OwnedBy(s: State, k: Id, c: Id) {
    k in s.steps && s.steps[k].sessionId in s.sessions && s.sessions[s.steps[k].sessionId].clientId == c
  }

  ghost predicate ClientHasActive(s: State, c: Id) {
    exists k :: OwnedBy(s, k, c) && s.steps[k].status == Active
  }

  ghost predicate SessionOf(s: State, x: Id, c: Id, day: Day) {
    x in s.sessions && s.sessions[x].clientId == c && s.sessions[x].day == day
  }

  /** `session.findUnique({ where: { clientId_date: { clientId, date } } })` */
  ghost function FindSession(s: State, c: Id, day: Day): (r: Option<Id>)
    ensures r.Some? ==> SessionOf(s, r.value, c, day)
    ensures r.None? ==> forall x :: !SessionOf(s, x, c, day)
  {
    if exists x :: SessionOf(s, x, c, day) then
      var x :| SessionOf(s, x, c, day);
      Some(x)
    else None
  }

  ghost predicate StepFor(s: State, k: Id, x: Id, modality: string) {
    k in s.steps && s.steps[k].sessionId == x && s.steps[k].modality == modality
  }

  /* ---------- well-formedness and invariants ---------- */

  /** Every id in use is below `nextId`, so `nextId` is fresh. */
  ghost predicate IdsBelowNext(s: State) {
    && (forall id :: id in s.stations ==> id < s.nextId)
    && (forall id :: id in s.clients ==> id < s.nextId)
    && (forall id :: id in s.sessions ==> id < s.nextId)
    && (forall id :: id in s.steps ==> id < s.nextId)
  }

  /** Foreign keys of stations, sessions and steps resolve. */
  ghost predicate Linked(s: State) {
    && (forall id :: id in s.stations ==> s.stations[id].modality in s.modalities)
    && (forall x :: x in s.sessions ==> s.sessions[x].clientId in s.clients)
    && (forall k :: k in s.steps ==> s.steps[k].sessionId in s.sessions && s.steps[k].modality in s.modalities)
  }

  /** An ACTIVE step sits on a station, a PENDING one on none; a step's station exists and the step has a start time. */
  ghost predicate Placed(s: State) {
    && (forall k :: k in s.steps && s.steps[k].stationId.Some? ==>
          s.steps[k].stationId.value in s.stations && s.steps[k].startAt.Some?)
    && (forall k :: k in s.steps && s.steps[k].status == Active ==> s.steps[k].stationId.Some?)
    && (forall k :: k in s.steps && s.steps[k].status == Pending ==> s.steps[k].stationId.None?)
  }

  /** Unique constraint `category_index` on Station. */
  ghost predicate UniqueStations(s: State) {
    forall a, b ::
      (a in s.stations && b in s.stations
       && s.stations[a].category == s.stations[b].category
       && s.stations[a].index == s.stations[b].index) ==> a == b
  }

  /** Unique constraint `firstName_lastInitial` on Client. */
  ghost predicate UniqueClients(s: State) {
    forall a, b :: a in s.clients && b in s.clients && s.clients[a] == s.clients[b] ==> a == b
  }

  /** Invariant 1: at most one session per (client, day). */
  ghost predicate OneSessionPerDay(s: State) {
    forall x, y ::
      (x in s.sessions && y in s.sessions
       && s.sessions[x].clientId == s.sessions[y].clientId
       && s.sessions[x].day == s.sessions[y].day) ==> x == y
  }

  /** Invariant 2: at most one step per (session, modality). */
  ghost predicate OneStepPerModality(s: State) {
    forall j, k ::
      (j in s.steps && k in s.steps
       && s.steps[j].sessionId == s.steps[k].sessionId
       && s.steps[j].modality == s.steps[k].modality) ==> j == k
  }

  /** Invariant 3: at most one ACTIVE step per station. */
  ghost predicate OneActivePerStation(s: State) {
    forall j, k, sid :: ActiveOn(s, j, sid) && ActiveOn(s, k, sid) ==> j == k
  }

  /** Invariant 6: a station is IN_USE exactly when an ACTIVE step references it. */
  ghost predicate InUseIffActive(s: State) {
    forall sid :: sid in s.stations ==> (s.stations[sid].status == InUse <==> exists k :: ActiveOn(s, k, sid))
  }

  ghost predicate Inv(s: State) {
    && IdsBelowNext(s)
    && Linked(s)
    && Placed(s)
    && UniqueStations(s)
    && UniqueClients(s)
    && OneSessionPerDay(s)
    && OneStepPerModality(s)
    && OneActivePerStation(s)
    && InUseIffActive(s)
  }

  /** The invariants that only depend on which records exist and what they refer to. */
  ghost predicate Structure(s: State) {
    IdsBelowNext(s) && Linked(s) && UniqueStations(s) && UniqueClients(s) && OneSessionPerDay(s) && OneStepPerModality(s)
  }

  /** The invariants about what is running. */
  ghost predicate Running(s: State) {
    Placed(s) && OneActivePerStation(s) && InUseIffActive(s)
  }

  lemma InvSplit(s: State)
    ensures Inv(s) <==> Structure(s) && Running(s)
  {
  }

  /** `s'` has the same records as `s`, with the same references; only statuses, times
      and durations may differ. */
  ghost predicate SameShape(s: State, s': State) {
    && s'.modalities == s.modalities && s'.clients == s.clients && s'.sessions == s.sessions
    && s'.nextId == s.nextId
    && s'.stations.Keys == s.stations.Keys && s'.steps.Keys == s.steps.Keys
    && (forall sid :: sid in s.stations ==>
          && s'.stations[sid].category == s.stations[sid].category
          && s'.stations[sid].index == s.stations[sid].index
          && s'.stations[sid].modality == s.stations[sid].modality)
    && (forall k :: k in s.steps ==>
          s'.steps[k].sessionId == s.steps[k].sessionId && s'.steps[k].modality == s.steps[k].modality)
  }

  /** Station lookups by (category, index) survive a change that keeps the shape. */
  lemma SameShapeFindStation(s: State, s': State, category: string, index: int)
    requires UniqueStations(s) && SameShape(s, s')
    ensures FindStation(s', category, index) == FindStation(s, category, index)
  {
    match FindStation(s, category, index)
    case Some(a) =>
      assert StationAt(s', a, category, index);
      var b := FindStation(s', category, index).value;
      assert StationAt(s, b, category, index);
    case None =>
      forall sid ensures !StationAt(s', sid, category, index) {
        if StationAt(s', sid, category, index) {
          assert StationAt(s, sid, category, index);
        }
      }
  }

  lemma SameShapeStructure(s: State, s': State)
    requires Structure(s) && SameShape(s, s')
    ensures Structure(s')
  {
    assert UniqueStations(s') by {
      forall a, b | a in s'.stations && b in s'.stations
        && s'.stations[a].category == s'.stations[b].category
        && s'.stations[a].index == s'.stations[b].index
        ensures a == b
      {
        assert s.stations[a].category == s.stations[b].category;
      }
    }
    assert OneStepPerModality(s') by {
      forall j, k | j in s'.steps && k in s'.steps
        && s'.steps[j].sessionId == s'.steps[k].sessionId
        && s'.steps[j].modality == s'.steps[k].modality
        ensures j == k
      {
        assert s.steps[j].sessionId == s.steps[k].sessionId;
      }
    }
  }

  /** Invariant 4: a client has at most one ACTIVE step across all of their sessions. */
  ghost predicate ClientExclusive(s: State) {
    forall j, k, c ::
      (OwnedBy(s, j, c) && OwnedBy(s, k, c)
       && s.steps[j].status == Active && s.steps[k].status == Active) ==> j == k
  }

  /** No step is ACTIVE for a client afterwards unless it already was, for that client, before. */
  ghost predicate NoNewActive(s: State, s': State) {
    forall k, c :: OwnedBy(s', k, c) && s'.steps[k].status == Active ==>
      OwnedBy(s, k, c) && s.steps[k].status == Active
  }

  /** A change that starts nothing keeps invariant 4. */
  lemma NoNewActiveKeepsExclusive(s: State, s': State)
    requires ClientExclusive(s) && NoNewActive(s, s')
    ensures ClientExclusive(s')
  {
  }

  /** Invariant 5 (between two states): a step that survives never moves back in its lifecycle. */
  ghost predicate Forward(s: State, s': State) {
    forall k :: k in s.steps && k in s'.steps ==> Rank(s.steps[k].status) <= Rank(s'.steps[k].status)
  }

  lemma ForwardTransitive(s1: State, s2: State, s3: State)
    requires Forward(s1, s2) && Forward(s2, s3)
    requires forall k :: k in s1.steps && k in s3.steps ==> k in s2.steps
    ensures Forward(s1, s3)
  {
  }
}

=== FILE: system.dfy ===
/**
 * The backend as a whole: the state the seed script provisions, every
 * handler behind one request type, and the invariants holding in every
 * state reachable from the seed by any sequence of requests, with step
 * statuses only ever moving forward along the way.
 */
module System {
  import opened Wrappers
  import opened Store
  import opened Engine
  import opened PlanRoutes
  import EngineProofs
  import PlanProofs

  /* ---------- the seeded initial state ---------- */

  /** The seed script's layout: category name and number of tables. */
  const SEED_LAYOUT: seq<(string, nat)> := [
    ("CIRCULATION (BACK)", 4),
    ("CIRCULATION (FRONT)", 3),
    ("BRAIN", 4),
    ("ENERGY", 3),
    ("CELL", 2),
    ("PHYSICAL", 3),
    ("GUT (EMS)", 2),
    ("GUT (LASER)", 2),
    ("STRESS", 2)
  ]

  /** A freshly migrated database: no records. */
  const EMPTY := State({}, map[], map[], map[], map[], 0)

  /** Nothing but modalities and idle stations, as the seed leaves it. */
  ghost predicate Provisioned(s: State) {
    && s.clients == map[] && s.sessions == map[] && s.steps == map[]
    && (forall sid :: sid in s.stations ==> s.stations[sid].status == Available)
    && (forall sid :: sid in s.stations ==> s.stations[sid].modality == s.stations[sid].category)
  }

  /** Some table sits at (category, index). */
  ghost predicate HasTable(s: State, c: string, i: int) {
    exists sid :: StationAt(s, sid, c, i)
  }

  lemma KeepsTable(s: State, s': State, c: string, i: int)
    requires forall sid :: sid in s.stations ==> sid in s'.stations && s'.stations[sid] == s.stations[sid]
    requires HasTable(s, c, i)
    ensures HasTable(s', c, i)
  {
    var sid :| StationAt(s, sid, c, i);
    assert StationAt(s', sid, c, i);
  }

  /** `station.upsert` on (category, index) with `update: {}`: create an AVAILABLE table
      whose modality is the category, unless one is already there. */
  ghost function UpsertStation(s: State, c: string, i: int): (s': State)
    requires IdsBelowNext(s)
    ensures IdsBelowNext(s') && s'.modalities == s.modalities && s.nextId <= s'.nextId
    ensures s'.clients == s.clients && s'.sessions == s.sessions && s'.steps == s.steps
    ensures forall sid :: sid in s.stations ==> sid in s'.stations && s'.stations[sid] == s.stations[sid]
    ensures forall sid :: sid in s'.stations && sid !in s.stations ==>
      sid >= s.nextId && s'.stations[sid] == Station(c, i, Available, c)
    ensures HasTable(s, c, i) ==> s' == s
    ensures HasTable(s', c, i)
  {
    if HasTable(s, c, i) then s
    else
      var s' := s.(stations := s.stations[s.nextId := Station(c, i, Available, c)], nextId := s.nextId + 1);
      assert StationAt(s', s.nextId, c, i);
      s'
  }

  /** The inner loop `for (let i = 0; i < count; i++)`, from table `i` on. */
  ghost function UpsertTables(s: State, c: string, i: nat, count: nat): (s': State)
    requires IdsBelowNext(s)
    ensures IdsBelowNext(s') && s'.modalities == s.modalities && s.nextId <= s'.nextId
    ensures s'.clients == s.clients && s'.sessions == s.sessions && s'.steps == s.steps
    ensures forall sid :: sid in s.stations ==> sid in s'.stations && s'.stations[sid] == s.stations[sid]
    ensures forall sid :: sid in s'.stations && sid !in s.stations ==>
      && sid >= s.nextId && s'.stations[sid].category == c && i <= s'.stations[sid].index < count
      && s'.stations[sid].status == Available && s'.stations[sid].modality == c
    ensures forall j :: i <= j < count ==> HasTable(s', c, j)
    decreases count - i
  {
    if i >= count then s
    else
      var s1 := UpsertStation(s, c, i);
      var s' := UpsertTables(s1, c, i + 1, count);
      KeepsTable(s1, s', c, i);
      s'
  }

  /** The seed script: for each layout entry, upsert the modality named after the category,
      then its tables. Ids come from the counter. */
  ghost function Seed(s: State, layout: seq<(string, nat)>): (s': State)
    requires IdsBelowNext(s)
    ensures IdsBelowNext(s') && s.nextId <= s'.nextId
    ensures s'.modalities == s.modalities + set e | e in layout :: e.0
    ensures s'.clients == s.clients && s'.sessions == s.sessions && s'.steps == s.steps
    ensures forall sid :: sid in s.stations ==> sid in s'.stations && s'.stations[sid] == s.stations[sid]
    ensures forall sid :: sid in s'.stations && sid !in s.stations ==>
      && sid >= s.nextId && s'.stations[sid].status == Available
      && s'.stations[sid].modality == s'.stations[sid].category
      && exists e :: e in layout && e.0 == s'.stations[sid].category && 0 <= s'.stations[sid].index < e.1
    ensures forall e, j :: e in layout && 0 <= j < e.1 ==> HasTable(s', e.0, j)
    decreases |layout|
  {
    if layout == [] then s
    else
      var (c, count) := layout[0];
      var s1 := UpsertTables(s.(modalities := s.modalities + {c}), c, 0, count);
      var s' := Seed(s1, layout[1..]);
      assert forall e :: e in layout <==> e == layout[0] || e in layout[1..];
      forall j | 0 <= j < count ensures HasTable(s', c, j) {
        KeepsTable(s1, s', c, j);
      }
      s'
  }

  /** The state the seed script leaves in an empty database. */
  ghost function Initial(layout: seq<(string, nat)>): (s: State)
    ensures Inv(s) && Provisioned(s)
  {
    assert forall j, t :: !ActiveOn(EMPTY, j, t);
    SeedInv(EMPTY, layout);
    Seed(EMPTY, layout)
  }

  /** Adding one table keeps the invariants of a provisioned state. */
  lemma UpsertStationInv(s: State, c: string, i: int)
    requires Inv(s) && Provisioned(s) && c in s.modalities
    ensures Inv(UpsertStation(s, c, i)) && Provisioned(UpsertStation(s, c, i))
  {
    var s' := UpsertStation(s, c, i);
    if !HasTable(s, c, i) {
      assert forall b :: b in s.stations ==> !StationAt(s, b, c, i);
      assert s'.stations == s.stations[s.nextId := Station(c, i, Available, c)];
      assert UniqueStations(s');
      assert forall j, t :: !ActiveOn(s', j, t);
    }
  }

  lemma {:induction false} UpsertTablesInv(s: State, c: string, i: nat, count: nat)
    requires Inv(s) && Provisioned(s) && c in s.modalities
    ensures Inv(UpsertTables(s, c, i, count)) && Provisioned(UpsertTables(s, c, i, count))
    decreases count - i
  {
    if i < count {
      UpsertStationInv(s, c, i);
      UpsertTablesInv(UpsertStation(s, c, i), c, i + 1, count);
    }
  }

  lemma {:induction false} SeedInv(s: State, layout: seq<(string, nat)>)
    requires Inv(s) && Provisioned(s)
    ensures Inv(Seed(s, layout)) && Provisioned(Seed(s, layout))
    decreases |layout|
  {
    if layout != [] {
      var c := layout[0].0;
      var s0 := s.(modalities := s.modalities + {c});
      assert forall j, t :: !ActiveOn(s0, j, t);
      assert Inv(s0);
      UpsertTablesInv(s0, c, 0, layout[0].1);
      SeedInv(UpsertTables(s0, c, 0, layout[0].1), layout[1..]);
    }
  }

  /** The seeded state has a table at (category, index) exactly for the indices below each
      layout entry's count. */
  lemma InitialStations(layout: seq<(string, nat)>, c: string, j: int)
    ensures HasTable(Initial(layout), c, j) <==> exists e :: e in layout && e.0 == c && 0 <= j < e.1
  {
    var s := Initial(layout);
    if HasTable(s, c, j) {
      var sid :| StationAt(s, sid, c, j);
      assert sid !in EMPTY.stations;
    }
  }

  /** A category the layout does not list has no table in the seeded state. */
  lemma InitialLacks(layout: seq<(string, nat)>, c: string, j: int)
    requires forall e :: e in layout ==> e.0 != c
    ensures FindStation(Initial(layout), c, j).None?
  {
    InitialStations(layout, c, j);
  }

  /** The seed script provisions only nine of the twelve timed categories: the sauna, CRYO
      and HBOT have no table in the seeded state. */
  lemma SeedLacksThreeCategories(c: string, j: int)
    requires c in {"INFRARED SAUNA", "CRYO", "HBOT"}
    ensures c in Timer.TIMER
    ensures FindStation(Initial(SEED_LAYOUT), c, j).None?
  {
    assert forall e :: e in SEED_LAYOUT ==> e.0 != c;
    InitialLacks(SEED_LAYOUT, c, j);
  }

  /** So until those stations are created some other way, starting them fails and changes nothing. */
  lemma SeedCannotStartThree(r: StartRequest, now: int)
    requires r.category in {"INFRARED SAUNA", "CRYO", "HBOT"}
    ensures OptimStart(Initial(SEED_LAYOUT), r, now) == (StartFailed(StationNotFound), Initial(SEED_LAYOUT))
  {
    SeedLacksThreeCategories(r.category, r.index);
  }

  /* ---------- every request, one dispatcher ---------- */

  /** A socket event or REST call, with the clock values the handler reads. */
  datatype Request =
    | OptimStartReq(start: StartRequest)
    | SessionStopReq(category: string, index: int)
    | PlanTerminateReq(clientId: Id)
    | PostClientReq(firstName: string, lastInitial: string)
    | PostPlanReq(clientId: Id, optimizations: seq<string>, mode: Option<Mode>, note: Option<string>)
    | PatchPlanReq(clientId: Id, add: seq<string>, remove: seq<string>, note: Option<string>)

  /** A request at time `now` (ms) on calendar day `today`. */
  datatype Event = Event(req: Request, now: int, today: Day)

  /** The state after one handler; the replies are left to the handlers' own models. */
  ghost function Dispatch(s: State, e: Event): State
    requires IdsBelowNext(s)
  {
    match e.req
    case OptimStartReq(r) => OptimStart(s, r, e.now).1
    case SessionStopReq(c, i) => SessionStop(s, c, i, e.now).1
    case PlanTerminateReq(c) => PlanTerminate(s, c, e.today, e.now)
    case PostClientReq(f, l) => PostClient(s, f, l).1
    case PostPlanReq(c, o, m, n) => PostPlan(s, c, o, m, n, e.today).1
    case PatchPlanReq(c, a, r, n) => PatchPlan(s, c, a, r, n, e.today).1
  }

  /** Steps are only created with fresh ids: a deleted step id never comes back. */
  ghost predicate FreshSteps(s: State, s': State) {
    && s.nextId <= s'.nextId
    && forall k :: k in s'.steps && k !in s.steps ==> k >= s.nextId
  }

  /** Every handler keeps the invariants, moves steps only forward and creates only fresh steps. */
  lemma DispatchPreservesInv(s: State, e: Event)
    requires Inv(s)
    ensures Inv(Dispatch(s, e)) && Forward(s, Dispatch(s, e)) && FreshSteps(s, Dispatch(s, e))
  {
    match e.req
    case OptimStartReq(r) => StartStep(s, r, e.now);
    case SessionStopReq(c, i) => StopStep(s, c, i, e.now);
    case PlanTerminateReq(c) => TerminateStep(s, c, e.today, e.now);
    case PostClientReq(f, l) => ClientStep(s, f, l);
    case PostPlanReq(c, o, m, n) => PostPlanStep(s, c, o, m, n, e.today);
    case PatchPlanReq(c, a, r, n) => PatchPlanStep(s, c, a, r, n, e.today);
  }

  lemma StartStep(s: State, r: StartRequest, now: int)
    requires Inv(s)
    ensures var s' := OptimStart(s, r, now).1; Inv(s') && Forward(s, s') && FreshSteps(s, s')
  {
    EngineProofs.OptimStartPreservesInv(s, r, now);
  }

  lemma StopStep(s: State, c: string, i: int, now: int)
    requires Inv(s)
    ensures var s' := SessionStop(s, c, i, now).1; Inv(s') && Forward(s, s') && FreshSteps(s, s')
  {
    EngineProofs.SessionStopPreservesInv(s, c, i, now);
    if FindStation(s, c, i).Some? {
      EngineProofs.ReleaseShape(s, FindStation(s, c, i).value, now);
    }
  }

  lemma TerminateStep(s: State, c: Id, today: Day, now: int)
    requires Inv(s)
    ensures var s' := PlanTerminate(s, c, today, now); Inv(s') && Forward(s, s') && FreshSteps(s, s')
  {
    EngineProofs.PlanTerminatePreservesInv(s, c, today, now);
  }

  lemma ClientStep(s: State, f: string, l: string)
    requires Inv(s)
    ensures var s' := PostClient(s, f, l).1; Inv(s') && Forward(s, s') && FreshSteps(s, s')
  {
    PlanProofs.PostClientPreservesInv(s, f, l);
  }

  lemma PostPlanStep(s: State, c: Id, o: seq<string>, m: Option<Mode>, n: Option<string>, today: Day)
    requires Inv(s)
    ensures var s' := PostPlan(s, c, o, m, n, today).1; Inv(s') && Forward(s, s') && FreshSteps(s, s')
  {
    PlanProofs.PostPlanPreservesInv(s, c, o, m, n, today);
    PostPlanFresh(s, c, o, m, n, today);
  }

  lemma PatchPlanStep(s: State, c: Id, a: seq<string>, r: seq<string>, n: Option<string>, today: Day)
    requires Inv(s)
    ensures var s' := PatchPlan(s, c, a, r, n, today).1; Inv(s') && Forward(s, s') && FreshSteps(s, s')
  {
    PlanProofs.PatchPlanPreservesInv(s, c, a, r, n, today);
    PatchPlanForward(s, c, a, r, n, today);
  }

  lemma PostPlanFresh(s: State, c: Id, optimizations: seq<string>, mode: Option<Mode>, note: Option<string>, today: Day)
    requires IdsBelowNext(s)
    ensures var s' := PostPlan(s, c, optimizations, mode, note, today).1;
      Forward(s, s') && FreshSteps(s, s')
  {
  }

  /** A PATCH keeps or deletes each old step, never alters one, and adds only fresh ones. */
  lemma PatchPlanForward(s: State, c: Id, add: seq<string>, remove: seq<string>, note: Option<string>, today: Day)
    requires IdsBelowNext(s)
    ensures var s' := PatchPlan(s, c, add, remove, note, today).1;
      && (forall k :: k in s.steps && k in s'.steps ==> s'.steps[k] == s.steps[k])
      && Forward(s, s') && FreshSteps(s, s')
  {
    match FindSession(s, c, today)
    case None =>
    case Some(x) =>
      var s1 := if note.Some? then s.(sessions := s.sessions[x := s.sessions[x].(note := note.value)]) else s;
      var s2 := if |remove| > 0 then RemovePending(s1, x, remove) else s1;
      assert forall k :: k in s2.steps ==> k in s.steps && s2.steps[k] == s.steps[k];
      var s' := AddSteps(s2, x, add);
      assert s' == PatchPlan(s, c, add, remove, note, today).1;
  }

  /** The state after a whole sequence of requests. */
  ghost function Run(s: State, events: seq<Event>): State
    requires Inv(s)
    decreases |events|
  {
    if events == [] then s
    else
      DispatchPreservesInv(s, events[0]);
      Run(Dispatch(s, events[0]), events[1..])
  }

  /** Every state reachable from an invariant state satisfies the invariants, and
      the step counter never goes back. */
  lemma {:induction false} RunPreservesInv(s: State, events: seq<Event>)
    requires Inv(s)
    ensures Inv(Run(s, events)) && s.nextId <= Run(s, events).nextId
    ensures forall k :: k in Run(s, events).steps && k !in s.steps ==> k >= s.nextId
    decreases |events|
  {
    if events != [] {
      DispatchPreservesInv(s, events[0]);
      RunPreservesInv(Dispatch(s, events[0]), events[1..]);
    }
  }

  /** Invariant 5 over a whole run: a step present at the start and at the end has not moved
      back, even if requests in between deleted other steps. */
  lemma {:induction false} RunForward(s: State, events: seq<Event>)
    requires Inv(s)
    ensures Forward(s, Run(s, events))
    decreases |events|
  {
    if events != [] {
      var s1 := Dispatch(s, events[0]);
      DispatchPreservesInv(s, events[0]);
      RunForward(s1, events[1..]);
      RunPreservesInv(s1, events[1..]);
      var sn := Run(s1, events[1..]);
      forall k | k in s.steps && k in sn.steps
        ensures Rank(s.steps[k].status) <= Rank(sn.steps[k].status)
      {
        if k !in s1.steps {
          assert false;
        }
      }
    }
  }

  /** The five invariants hold in every state the backend can reach from the seed. */
  lemma ReachableInv(layout: seq<(string, nat)>, events: seq<Event>)
    ensures Inv(Run(Initial(layout), events))
    ensures Forward(Initial(layout), Run(Initial(layout), events))
  {
    RunPreservesInv(Initial(layout), events);
    RunForward(Initial(layout), events);
  }

  /* ---------- invariant 4 over a run ---------- */

  /** An `optim:start` that names the client it serves; the guard-rail is skipped otherwise. */
  predicate NamesClient(e: Event) {
    e.req.OptimStartReq? ==> e.req.start.clientId.Some?
  }

  /** Every handler keeps one ACTIVE step per client, provided a start names its client. */
  lemma DispatchKeepsExclusive(s: State, e: Event)
    requires Inv(s) && ClientExclusive(s) && NamesClient(e)
    ensures ClientExclusive(Dispatch(s, e))
  {
    match e.req
    case OptimStartReq(r) => EngineProofs.OptimStartKeepsExclusive(s, r, e.now);
    case SessionStopReq(c, i) => EngineProofs.SessionStopKeepsExclusive(s, c, i, e.now);
    case PlanTerminateReq(c) => EngineProofs.PlanTerminateKeepsExclusive(s, c, e.today, e.now);
    case PostClientReq(f, l) => PlanProofs.PostClientKeepsExclusive(s, f, l);
    case PostPlanReq(c, o, m, n) => PlanProofs.PostPlanKeepsExclusive(s, c, o, m, n, e.today);
    case PatchPlanReq(c, a, r, n) => PlanProofs.PatchPlanKeepsExclusive(s, c, a, r, n, e.today);
  }

  lemma {:induction false} RunKeepsExclusive(s: State, events: seq<Event>)
    requires Inv(s) && ClientExclusive(s)
    requires forall i :: 0 <= i < |events| ==> NamesClient(events[i])
    ensures ClientExclusive(Run(s, events))
    decreases |events|
  {
    if events != [] {
      DispatchPreservesInv(s, events[0]);
      DispatchKeepsExclusive(s, events[0]);
      assert forall i :: 0 <= i < |events[1..]| ==> events[1..][i] == events[i + 1];
      RunKeepsExclusive(Dispatch(s, events[0]), events[1..]);
    }
  }

  /** Invariant 4 holds in every state reached from the seed by requests whose starts name
      their client. */
  lemma ReachableExclusive(layout: seq<(string, nat)>, events: seq<Event>)
    requires forall i :: 0 <= i < |events| ==> NamesClient(events[i])
    ensures ClientExclusive(Run(Initial(layout), events))
  {
    assert Initial(layout).steps == map[];
    RunKeepsExclusive(Initial(layout), events);
  }
}

=== FILE: timer.dfy ===
/** The backend's static table of default minutes per category and session type. */
module Timer {
  import opened Wrappers
  import opened Store

  datatype Minutes = Minutes(mt: int, op: int)

  const TIMER: map<string, Minutes> := map[
    "CIRCULATION (BACK)"  := Minutes(15, 25),
    "CIRCULATION (FRONT)" := Minutes(15, 25),
    "BRAIN"               := Minutes(15, 25),
    "ENERGY"              := Minutes(15, 25),
    "CELL"                := Minutes(15, 15),
    "PHYSICAL"            := Minutes(15, 25),
    "GUT (EMS)"           := Minutes(20, 35),
    "GUT (LASER)"         := Minutes(20, 35),
    "STRESS"              := Minutes(15, 25),
    "INFRARED SAUNA"      := Minutes(25, 35),
    "HBOT"                := Minutes(30, 60),
    "CRYO"                := Minutes(3, 3)
  ]

  /** `mins(cat, t)`: the table entry, or `null` (None) for an unknown category. */
  function Mins(category: string, t: SessionType): (r: Option<int>)
    ensures r.None? <==> category !in TIMER
    ensures r.Some? ==> 3 <= r.value <= 60
    ensures r.Some? && t == MT ==> r.value <= TIMER[category].op
  {
    if category !in TIMER then None
    else if t == MT then Some(TIMER[category].mt)
    else Some(TIMER[category].op)
  }
}

=== FILE: viewer.dfy ===
/**
 * What the two viewer pages keep in memory and the state updates they share:
 * the station grid (`category -> index -> cell`), the list of today's plans,
 * the socket reducers that edit them and the one-second countdown ticks.
 *
 * A grid cell that is present but `undefined` (what `station:update` stores
 * when a station is stopped) is `None`; `left` and `done` are the fields the
 * viewers add to a cell, `done` read as a boolean since `undefined` and
 * `false` behave alike everywhere it is tested.
 */
module Viewer {
  import opened Wrappers
  import opened JsNumber
  import opened Store
  import opened Seqs

  /** A grid cell. `startAt` is the start instant in milliseconds, `duration` is seconds. */
  datatype Cell = Cell(kind: SessionType, startAt: int, duration: int, clientName: string, left: Option<int>, done: bool)

  type Row = map<int, Option<Cell>>

  type Grid = map<string, Row>

  /** A step as a viewer holds it; `left` is the countdown the backend computed, in seconds. */
  datatype StepView = StepView(modality: string, status: StepStatus, left: Option<int>)

  datatype ClientView = ClientView(id: Id, name: string, note: Option<string>, steps: seq<StepView>)

  /** The socket messages a viewer listens to. */
  datatype Msg =
    | StationUpdateMsg(category: string, index: int, cell: Option<Cell>)
    | StationBatch(grid: Grid)
    | PlanList(all: seq<ClientView>)
    | PlanUpdateMsg(one: ClientView)
    | PlanRemoveMsg(clientId: Id)

  /* ---------- the grid ---------- */

  /** `data[c]?.[i]`: the cell shown at (category, index), `None` when there is none. */
  function Lookup(g: Grid, c: string, i: int): Option<Cell> {
    if c in g && i in g[c] then g[c][i] else None
  }

  /** `station:update`: `{ ...p, [category]: { ...(p[category] ?? {}), [index]: data } }`. */
  function StationUpdate(g: Grid, c: string, i: int, d: Option<Cell>): (r: Grid)
    ensures r.Keys == g.Keys + {c}
    ensures r[c].Keys == (if c in g then g[c].Keys else {}) + {i}
    ensures forall c' :: c' in g && c' != c ==> r[c'] == g[c']
  {
    var row := if c in g then g[c] else map[];
    g[c := row[i := d]]
  }

  /** Only the addressed cell changes: every other lookup reads as before. */
  lemma StationUpdateFrame(g: Grid, c: string, i: int, d: Option<Cell>, c': string, i': int)
    ensures Lookup(StationUpdate(g, c, i, d), c', i') == if c' == c && i' == i then d else Lookup(g, c', i')
  {
  }

  /** Applying the same delta twice is applying it once. */
  lemma StationUpdateIdempotent(g: Grid, c: string, i: int, d: Option<Cell>)
    ensures StationUpdate(StationUpdate(g, c, i, d), c, i, d) == StationUpdate(g, c, i, d)
  {
    var r := StationUpdate(g, c, i, d);
    assert r[c][i := d] == r[c];
  }

  /** `JSON.parse(JSON.stringify(g))`: properties holding `undefined` disappear. The same
      happens to the `undefined` cells of the `init` snapshot on their way through the socket. */
  function JsonClone(g: Grid): (r: Grid)
    ensures r.Keys == g.Keys
    ensures forall c :: c in g ==> r[c].Keys == set i | i in g[c] && g[c][i].Some?
    ensures forall c, i :: c in r && i in r[c] ==> r[c][i] == g[c][i]
  {
    map c | c in g :: map i | i in g[c] && g[c][i].Some? :: g[c][i]
  }

  /** Cloning keeps every cell that is shown. */
  lemma JsonCloneLookup(g: Grid, c: string, i: int)
    ensures Lookup(JsonClone(g), c, i) == Lookup(g, c, i)
  {
  }

  /* ---------- the board countdown ---------- */

  /** `cell.duration - ((now - +new Date(cell.startAt)) / 1000) | 0`: the subtraction binds
      tighter than `|`, so the whole difference is truncated and wrapped to 32 bits. */
  function CellLeft(cell: Cell, now: int): int {
    ToInt32(TruncDiv(1000 * cell.duration - (now - cell.startAt), 1000))
  }

  /** One tick of one cell: a done cell is skipped; otherwise `left` is set, clamped at 0,
      and the cell is marked done when nothing is left. */
  function TickCell(cell: Cell, now: int): (r: Cell)
    ensures r.kind == cell.kind && r.startAt == cell.startAt && r.duration == cell.duration
    ensures r.clientName == cell.clientName
    ensures cell.done ==> r == cell
    ensures !cell.done && CellLeft(cell, now) <= 0 ==> r.left == Some(0) && r.done
    ensures !cell.done && CellLeft(cell, now) > 0 ==> r.left == Some(CellLeft(cell, now)) && !r.done
  {
    if cell.done then cell
    else
      var left := CellLeft(cell, now);
      if left <= 0 then cell.(left := Some(0), done := true)
      else cell.(left := Some(left))
  }

  /** The board half of the one-second interval: clone the grid, then tick every cell. */
  function BoardTick(g: Grid, now: int): (r: Grid)
    ensures r.Keys == g.Keys
    ensures forall c :: c in g ==> r[c].Keys == set i | i in g[c] && g[c][i].Some?
    ensures forall c, i :: c in r && i in r[c] ==> r[c][i].Some? && r[c][i].value == TickCell(g[c][i].value, now)
  {
    var cl := JsonClone(g);
    map c | c in cl :: map i | i in cl[c] :: Some(TickCell(cl[c][i].value, now))
  }

  /** A done cell never changes again, whatever the clock says. */
  lemma DoneCellsStay(g: Grid, now: int, c: string, i: int)
    requires Lookup(g, c, i).Some? && Lookup(g, c, i).value.done
    ensures Lookup(BoardTick(g, now), c, i) == Lookup(g, c, i)
  {
    assert i in BoardTick(g, now)[c];
  }

  lemma TickCellIdempotent(cell: Cell, now: int)
    ensures TickCell(TickCell(cell, now), now) == TickCell(cell, now)
  {
    assert CellLeft(TickCell(cell, now), now) == CellLeft(cell, now);
  }

  /** Ticking again at the same instant changes nothing more. */
  lemma BoardTickIdempotent(g: Grid, now: int)
    ensures BoardTick(BoardTick(g, now), now) == BoardTick(g, now)
  {
    var r := BoardTick(g, now);
    var r2 := BoardTick(r, now);
    forall c | c in r ensures r2[c] == r[c] {
      assert r2[c].Keys == r[c].Keys;
      forall i | i in r[c] ensures r2[c][i] == r[c][i] {
        TickCellIdempotent(g[c][i].value, now);
      }
    }
  }

  /** While the countdown stays within the 32-bit range it never goes up as time passes. */
  lemma CellLeftNonIncreasing(cell: Cell, now: int, later: int)
    requires now <= later
    requires -1000 * TWO_31 <= 1000 * cell.duration - (later - cell.startAt)
    requires 1000 * cell.duration - (now - cell.startAt) < 1000 * TWO_31
    ensures CellLeft(cell, later) <= CellLeft(cell, now)
  {
    var a, b := 1000 * cell.duration - (later - cell.startAt), 1000 * cell.duration - (now - cell.startAt);
    TruncDivMonotone(a, b, 1000);
    Int32Range(a);
    Int32Range(b);
  }

  /** A truncated quotient by 1000 of a value within 1000 * 2^31 in size fits in 32 bits. */
  lemma Int32Range(a: int)
    requires -1000 * TWO_31 <= a < 1000 * TWO_31
    ensures ToInt32(TruncDiv(a, 1000)) == TruncDiv(a, 1000)
  {
    var q := TruncDiv(a, 1000);
    if q >= TWO_31 {
      MulMonotone(TWO_31, q, 1000);
    } else if q < -TWO_31 {
      MulMonotone(q + 1, -TWO_31, 1000);
    }
  }

  /* ---------- the plan list ---------- */

  /** `plan:update`: `p.map(c => c.id === one.id ? one : c)`. */
  function PlanUpdate(cs: seq<ClientView>, one: ClientView): (r: seq<ClientView>)
    ensures |r| == |cs| && Ids(r) == Ids(cs)
    ensures forall k :: 0 <= k < |r| && r[k].id == one.id ==> r[k] == one
    ensures forall k :: 0 <= k < |r| && r[k].id != one.id ==> r[k] == cs[k]
  {
    seq(|cs|, k requires 0 <= k < |cs| => if cs[k].id == one.id then one else cs[k])
  }

  function Ids(cs: seq<ClientView>): seq<Id> {
    seq(|cs|, k requires 0 <= k < |cs| => cs[k].id)
  }

  /** An update never inserts or reorders: the ids are those before it, and for an unknown
      id the list is left exactly as it was. */
  lemma PlanUpdateNeverInserts(cs: seq<ClientView>, one: ClientView)
    ensures Ids(PlanUpdate(cs, one)) == Ids(cs)
    ensures (forall k :: 0 <= k < |cs| ==> cs[k].id != one.id) ==> PlanUpdate(cs, one) == cs
    ensures forall c :: c in PlanUpdate(cs, one) ==> c == one || c in cs
  {
  }

  /** Applying the same update twice is applying it once. */
  lemma PlanUpdateIdempotent(cs: seq<ClientView>, one: ClientView)
    ensures PlanUpdate(PlanUpdate(cs, one), one) == PlanUpdate(cs, one)
  {
  }

  /** `plan:remove`: `p.filter(c => c.id !== clientId)`. */
  function PlanRemove(cs: seq<ClientView>, id: Id): (r: seq<ClientView>)
    ensures forall c :: c in r <==> c in cs && c.id != id
    ensures |r| <= |cs|
  {
    Filter(cs, (c: ClientView) => c.id != id)
  }

  /** Removing twice is removing once; removing an id that is not listed changes nothing. */
  lemma PlanRemoveIdempotent(cs: seq<ClientView>, id: Id)
    ensures PlanRemove(PlanRemove(cs, id), id) == PlanRemove(cs, id)
    ensures (forall k :: 0 <= k < |cs| ==> cs[k].id != id) ==> PlanRemove(cs, id) == cs
  {
    FilterIdempotent(cs, (c: ClientView) => c.id != id);
  }

  /** Removal keeps the other entries in their order: removing from a concatenation is
      removing from each part. */
  lemma PlanRemoveConcat(cs: seq<ClientView>, ds: seq<ClientView>, id: Id)
    ensures PlanRemove(cs + ds, id) == PlanRemove(cs, id) + PlanRemove(ds, id)
  {
    FilterConcat(cs, ds, (c: ClientView) => c.id != id);
  }

  /* ---------- the plan countdown ---------- */

  /** One tick of one step: an ACTIVE step with a countdown loses a second, clamped at 0,
      and turns DONE when it reaches 0. */
  function TickStep(st: StepView): (r: StepView)
    ensures r.modality == st.modality
    ensures !(st.status == Active && st.left.Some?) ==> r == st
    ensures st.status == Active && st.left.Some? ==>
      && r.left == Some(if st.left.value - 1 > 0 then st.left.value - 1 else 0)
      && (r.status == Done <==> st.left.value <= 1)
      && (r.status == Active <==> st.left.value > 1)
  {
    if st.status == Active && st.left.Some? then
      var l := if st.left.value - 1 > 0 then st.left.value - 1 else 0;
      st.(left := Some(l), status := if l == 0 then Done else st.status)
    else st
  }

  /** One tick of a client's steps: each keeps its place and everything but its countdown and
      status; only an ACTIVE step with a countdown changes, and it stays ACTIVE or turns DONE. */
  function TickSteps(steps: seq<StepView>): (r: seq<StepView>)
    ensures |r| == |steps|
    ensures forall k :: 0 <= k < |r| ==> r[k] == steps[k].(left := r[k].left, status := r[k].status)
    ensures forall k :: 0 <= k < |r| && !(steps[k].status == Active && steps[k].left.Some?) ==> r[k] == steps[k]
    ensures forall k :: 0 <= k < |r| && steps[k].status == Active && steps[k].left.Some? ==>
      r[k].left == Some(if steps[k].left.value > 1 then steps[k].left.value - 1 else 0)
    ensures forall k :: 0 <= k < |r| && steps[k].status == Active ==>
      (r[k].status == Active || r[k].status == Done)
    ensures forall k :: 0 <= k < |r| && steps[k].status == Active && steps[k].left.Some? ==>
      (r[k].status == Done <==> steps[k].left.value <= 1)
  {
    seq(|steps|, k requires 0 <= k < |steps| => TickStep(steps[k]))
  }

  /** The plan half of the interval: every client keeps its id, name and note; only steps tick. */
  function PlanTick(cs: seq<ClientView>): (r: seq<ClientView>)
    ensures |r| == |cs| && Ids(r) == Ids(cs)
    ensures forall k :: 0 <= k < |cs| ==>
      r[k].name == cs[k].name && r[k].note == cs[k].note && r[k].steps == TickSteps(cs[k].steps)
  {
    seq(|cs|, k requires 0 <= k < |cs| => cs[k].(steps := TickSteps(cs[k].steps)))
  }

  /** `n` ticks in a row. */
  function TickTimes(st: StepView, n: nat): StepView {
    if n == 0 then st else TickStep(TickTimes(st, n - 1))
  }

  /** After n >= 1 ticks an ACTIVE countdown of `l` seconds shows `max(l - n, 0)` and is DONE
      exactly when `l <= n`; once DONE it stays DONE. */
  lemma {:induction false} TickTimesCountdown(st: StepView, n: nat)
    requires st.status == Active && st.left.Some? && n >= 1
    ensures TickTimes(st, n).left == Some(if st.left.value - n > 0 then st.left.value - n else 0)
    ensures TickTimes(st, n).status == (if st.left.value <= n then Done else Active)
    ensures TickTimes(st, n).modality == st.modality
  {
    if n > 1 {
      TickTimesCountdown(st, n - 1);
    }
  }
}

=== FILE: wrappers.dfy ===
/** Optional values: JavaScript's `undefined`/`null` for a field or a lookup. */
module Wrappers {

  datatype Option<+T> = None | Some(value: T) {

    /** The wrapped value, or `default` when absent (JavaScript's `??`). */
    function GetOr(default: T): T {
      match this
      case Some(v) => v
      case None => default
    }
  }
}
